=== FILE: README.md ===
# Video memory decoder of the emulated display adapters

This project models the memory decoder of the emulated video adapters in
`src/hardware/vga_memory.cpp`. The decoder is the set of page handlers that
turn a CPU byte, word or dword access in the A0000-BFFFF window (and the PC-98
E-plane window at E0000) into reads and writes of video memory. It also
includes `VGA_SetupHandlers`, which picks the handler for each page from the
machine type, the video mode and the adapter registers.

The model covers the following:

- **The VGA graphics controller data path** (`Raster`): the raster operation,
  the four write modes, data rotate, and the colour-compare read.
- **The video memory buffer** (`Vram`): the wrap checks `CHECKED`, `CHECKED2`,
  `CHECKED3` and `CHECKED4`, and byte, word and dword views of the buffer.
- **The planar, text and chained handlers** (`Planar`, `Chained`, `Fast`,
  `Handlers`):
  - unchained EGA and VGA with the latch, map mask and odd/even plane
    selection;
  - the text-mode handler;
  - chained EGA;
  - the chain-4 handlers, fast and slow, generic and Tseng ET3000/ET4000;
  - LIN4;
  - the readb/readw/readd and writeb/writew/writed entry points, with the
    window mask and the SVGA bank offsets.
- **The PC-98 page handler** (`Pc98Vram`, `Pc98`, `Pc98Handler`):
  - the text RAM blocks and the memory-switch window;
  - plain graphics access;
  - the GRCG tile-compare read, tile write and read-modify-write modes;
  - the EGC with its bit shifter (`EgcShifter`) and its raster operations
    (`EgcRop`).
- **Handler selection** (`Dispatch`): for each machine and mode, the handler
  chosen, the window the memory map select opens, and which handler ends up
  owning each page.

Bit-vector types stand for the fixed-width C types: `bv8`, `bv16` and `bv32`.
A 32-bit latch is kept as its four byte lanes, one per bitplane (`Bits.Latch`).
An access that would index outside the buffer is undefined behaviour in C.
The model returns `None` for it, or forbids it in a `requires` clause where
the code's own masking already rules it out. There are two exceptions, where
the bound comes from the size of the allocation instead (see "Left out"): the
chain-4 offset, for which Fast.Fits and Handlers.Fits require 256 KB of video
memory, and the PC-98 graphics offsets, for which Pc98.Valid requires 0x48000
bytes.

## Model

| member | source | states |
|---|---|---|
| Bits.AndLow | src/hardware/vga_memory.cpp:184-211 | masking an address with a 2^k-1 window mask gives an offset no larger than the mask or the address, and leaves addresses inside the window unchanged |
| Bits.AlignDown | src/hardware/vga_memory.cpp:336-347 | `a & ~(n-1)` is the largest multiple of n not above a |
| Bits.Add32 | src/hardware/vga_memory.cpp:184-211 | PhysPt addition equals plain addition whenever no 32-bit overflow happens |
| Bits.SetLane | src/hardware/vga_memory.cpp:340-347 | replacing one byte lane of a latch sets that lane and keeps the other three |
| Bits.LaneExt | src/hardware/vga_memory.cpp:284-292 | two latches with equal lanes are equal: the byte-lane view of the `VGA_Latch` union (`pixels.b[k]` against `pixels.d`) loses nothing |
| Bits.UnpackPack | src/hardware/vga_memory.cpp:167-179 | splitting a packed 32-bit latch into lanes gives back the lanes |
| Bits.PackUnpack | src/hardware/vga_memory.cpp:167-179 | packing the lanes of a 32-bit value gives back the value |
| Bits.SetHalf | src/hardware/vga_memory.cpp:1375-1402 | replacing one byte of a word sets that byte and keeps the other |
| Bits.WordHalves | src/hardware/vga_memory.cpp:1714-1729 | building a word from two bytes and splitting it again returns the bytes |
| Bits.HalvesWord | src/hardware/vga_memory.cpp:1714-1729 | splitting a word into bytes and joining them returns the word |
| Bits.Expand | src/hardware/vga_memory.cpp:113-142 | ExpandTable copies the byte into every plane lane |
| Bits.Fill | src/hardware/vga_memory.cpp:176-179 | FillTable gives all ones in plane k exactly when bit k of the nibble is set, and zero otherwise |
| Vram.Checked | src/hardware/vga_memory.cpp:41-50 | CHECKED/CHECKED3 put every offset below the wrap size and leave in-range offsets unchanged |
| Vram.Checked2 | src/hardware/vga_memory.cpp:41-50 | CHECKED2/CHECKED4 put every planar offset below a quarter of the wrap size, so its whole dword lies in the buffer, and leave in-range offsets unchanged |
| Vram.CheckedPlanar | src/hardware/vga_memory.cpp:41-50 | wrapping the byte offset of plane p of dword x is the same as wrapping x and then selecting plane p |
| Vram.Put | src/hardware/vga_memory.cpp:226-232 | a byte store sets exactly that byte |
| Vram.PutWord | src/hardware/vga_memory.cpp:75-83 | a host word store writes the low byte then the high byte at i and i+1 and nothing else |
| Vram.GetDword | src/hardware/vga_memory.cpp:158-182 | a dword load gives lane k the byte at 4·idx+k |
| Vram.PutDword | src/hardware/vga_memory.cpp:284-292 | a dword store writes lane k to byte 4·idx+k and leaves every other byte unchanged |
| Vram.PutGetDword | src/hardware/vga_memory.cpp:284-292 | storing the dword just loaded leaves memory unchanged |
| Vram.GetPutDword | src/hardware/vga_memory.cpp:284-292 | loading a stored dword returns what was stored |
| Raster.RopByte | src/hardware/vga_memory.cpp:99-111 | a function-select value of 4 or more yields zero |
| Raster.RopByteSelect | src/hardware/vga_memory.cpp:99-111 | each of the four function selects applies its logical operation (replace, AND, OR, XOR) to the masked bits and keeps the latch elsewhere |
| Raster.RasterOp | src/hardware/vga_memory.cpp:99-111 | RasterOp works plane by plane: lane k of the result depends only on lane k of the input, mask and latch |
| Raster.RasterOpReference | src/hardware/vga_memory.cpp:99-111 | every plane of RasterOp matches the documented logical unit followed by the bit-mask selector |
| Raster.RasterOpReplaceMasks | src/hardware/vga_memory.cpp:99-111 | under replace, an all-ones mask passes the input and an all-zeros mask returns the latch |
| Raster.RotateInverse | src/hardware/vga_memory.cpp:117-119 | the data rotate loses no bits, and a count of zero is the identity |
| Raster.ModeOperation | src/hardware/vga_memory.cpp:113-142 | write mode 1 returns the latch, and modes 4 and up return zero |
| Raster.PlainModeOperation | src/hardware/vga_memory.cpp:117-124 | with mode 0, no rotate, no set/reset, full bit mask and replace, every plane receives the host byte |
| Raster.WriteMode0Plane | src/hardware/vga_memory.cpp:117-124 | in write mode 0 each plane takes set/reset where enabled, else the rotated byte, then the logic op, then the bit mask |
| Raster.WriteMode2Plane | src/hardware/vga_memory.cpp:129-131 | in write mode 2, bit k of the host byte fills plane k before the logic op and the bit mask |
| Raster.WriteMode2LowNibble | src/hardware/vga_memory.cpp:129-131 | write mode 2 depends only on the low nibble of the host byte |
| Raster.WriteMode3Plane | src/hardware/vga_memory.cpp:132-136 | in write mode 3 the rotated byte ANDed with the bit mask selects where the set/reset colour goes |
| Raster.ColorCompareReference | src/hardware/vga_memory.cpp:176-179 | the contract of Raster.ColorCompare: in read mode 1, a result bit is set exactly when every plane not marked don't-care matches its compare colour bit |
| Planar.Assemble | src/hardware/vga_memory.cpp:191-209 | byte i of the assembled value is the i-th byte read |
| Planar.Bytes | src/hardware/vga_memory.cpp:302-319 | a w-wide write stores the low Size(w) bytes of the value, lowest first |
| Planar.AssembleBytes | src/hardware/vga_memory.cpp:184-211 | assembling the bytes a write stores gives back the value truncated to the access width |
| Planar.Window | src/hardware/vga_memory.cpp:184-211 | the handler address is the window-masked address plus the bank, as long as no 32-bit overflow happens |
| Planar.Lin4Window | src/hardware/vga_memory.cpp:1818-1866 | LIN4 uses the bank plus the low 16 address bits, as long as no 32-bit overflow happens |
| Planar.ReadPlane | src/hardware/vga_memory.cpp:164-175 | read mode 0 uses the read map select, except in chain odd/even where the address parity supplies bit 0 |
| Planar.MemStart | src/hardware/vga_memory.cpp:162-163 | chain odd/even clears bit 0 of the planar offset; otherwise the offset is used as is |
| Planar.UnchainedRead | src/hardware/vga_memory.cpp:158-182 | a read loads the latch from its dword and returns the selected plane's byte in mode 0, the colour compare in mode 1, and 0 otherwise |
| Planar.MergeLanes | src/hardware/vga_memory.cpp:284-292 | the map-mask merge works plane by plane |
| Planar.MergeByteEnabled | src/hardware/vga_memory.cpp:284-292 | an enabled plane takes the new data and a disabled plane keeps its old byte |
| Planar.UnchainedEgaWrite | src/hardware/vga_memory.cpp:284-292 | an unchained EGA write merges the write-mode result under the map mask into its own dword, leaves the latch alone and touches no other byte |
| Planar.UnchainedEgaWritePlanes | src/hardware/vga_memory.cpp:284-292 | plane k receives the write-mode result exactly when map-mask bit k is set |
| Planar.OddEvenMerge | src/hardware/vga_memory.cpp:636-686 | the odd/even lane stores replace exactly the planes that the odd/even rule picks |
| Planar.UnchainedVgaWrite | src/hardware/vga_memory.cpp:636-686 | an unchained VGA write touches only its own dword and keeps the latch |
| Planar.UnchainedVgaOddEven | src/hardware/vga_memory.cpp:636-686 | in odd/even mode an even address stores planes 0 and 2 and an odd address planes 1 and 3, each only where the map mask allows |
| Planar.UnchainedVgaIsEga | src/hardware/vga_memory.cpp:636-686 | with odd/even addressing off, the VGA write is the EGA map-mask merge into the dword at the address, or at `addr & ~1` under chain odd/even |
| Planar.TextReadPlane | src/hardware/vga_memory.cpp:1735-1748 | a text read uses the read map select plane, with bit 0 replaced by the address parity unless odd/even is off |
| Planar.TextMemAddr | src/hardware/vga_memory.cpp:1750-1781 | the text planar offset stays within the window mask |
| Planar.TextStore | src/hardware/vga_memory.cpp:1750-1781 | a text write stores the byte into exactly the planes the odd/even and map-mask rules allow, and nothing outside its dword |
| Planar.TextWriteAsWritten | src/hardware/vga_memory.cpp:1750-1781 | the text write as written fails exactly when its unwrapped dword index leaves the buffer |
| Planar.TextWriteOverrun | src/hardware/vga_memory.cpp:1750-1781 | with 256 KB of memory and the 128 KB window, a text write at B1000 indexes dword 0x11000, 16 KB past the buffer |
| Planar.TextWrite | src/hardware/vga_memory.cpp:1750-1781 | the wrapped text write keeps the buffer valid, and equals the as-written write wherever that one is in range |
| Planar.TextReadAt | src/hardware/vga_memory.cpp:1735-1748 | the contract of Planar.TextRead: a text read returns the selected plane of the wrapped dword |
| Planar.TextWriteRead | src/hardware/vga_memory.cpp:1735-1781 | reading back a text write gives the byte written when the map mask enables the plane being read, and the old value otherwise |
| Chained.ChainedEgaWrite | src/hardware/vga_memory.cpp:218-223 | whatever the write mode, chained EGA stores the host byte unchanged at its linear offset and nothing else |
| Chained.Et4000SlowRead | src/hardware/vga_memory.cpp:568-571 | the slow ET4000 read loads the latch from dword a/4 and returns byte a |
| Chained.Et4000SlowWrite | src/hardware/vga_memory.cpp:572-579 | the slow ET4000 write changes only plane a mod 4 of dword a/4, to the write-mode result |
| Chained.Et4000SlowPlain | src/hardware/vga_memory.cpp:572-579 | under plain writes the slow ET4000 write stores the host byte at a |
| Chained.SlowOffset | src/hardware/vga_memory.cpp:336-347 | the slow chain-4 offset keeps the plane and lands in dword a & ~3 |
| Chained.ChainedSlowReadAsWritten | src/hardware/vga_memory.cpp:336-339 | the as-written slow read fails exactly when dword a & ~3 lies outside the buffer |
| Chained.ChainedSlowWriteAsWritten | src/hardware/vga_memory.cpp:340-347 | the as-written slow write fails exactly when its offset lies outside the buffer; otherwise it stores the mode result's plane and nothing else |
| Chained.ChainedSlowOverrun | src/hardware/vga_memory.cpp:336-347 | with 256 KB and the 128 KB window, an access at B1000 gets handler address 0x11000, byte offset 0x44000, and both slow paths leave the buffer |
| Chained.ChainedOffset | src/hardware/vga_memory.cpp:407-414 | the fast chain-4 offset is below 256 KB and keeps the plane |
| Chained.SlowOffsetLow | src/hardware/vga_memory.cpp:336-414 | below 64 KB the slow and fast offsets agree |
| Chained.ChainedSlowRead | src/hardware/vga_memory.cpp:336-339 | the corrected slow read loads the latch from the chain-4 dword and returns its byte |
| Chained.ChainedSlowWrite | src/hardware/vga_memory.cpp:340-347 | the corrected slow write stores the mode result's plane at the chain-4 offset and nothing else |
| Chained.ChainedSlowAgrees | src/hardware/vga_memory.cpp:336-347 | below 64 KB the corrected slow handler matches the as-written one |
| Chained.ChainedSlowPlain | src/hardware/vga_memory.cpp:340-347 | under plain writes the slow chain-4 write stores the host byte |
| Chained.ChainedSlowWriteRead | src/hardware/vga_memory.cpp:336-347 | reading back a slow chain-4 write returns the plane's write-mode result |
| Fast.Offset | src/hardware/vga_memory.cpp:407-414 | chain-4 offsets stay below 256 KB and keep the low two bits; ET4000 offsets are the address itself |
| Fast.OffsetsIn | src/hardware/vga_memory.cpp:403-563 | every byte of an access at an address below the wrap size lies in the buffer |
| Fast.OffsetsDistinct | src/hardware/vga_memory.cpp:422-479 | the bytes of one access go to distinct offsets |
| Fast.AlignedOffsets | src/hardware/vga_memory.cpp:422-479 | within an aligned access the offsets are consecutive, so one host access is enough |
| Fast.ChainedAligned | src/hardware/vga_memory.cpp:422-479 | the chain-4 offset of an aligned access steps by one per byte |
| Fast.ReadBytes | src/hardware/vga_memory.cpp:415-446 | the contract of Fast.Read, which assembles these bytes little-endian: a read returns the byte at each byte's offset, both on the aligned path and the split path |
| Fast.WriteSplit | src/hardware/vga_memory.cpp:455-479 | the byte-by-byte path keeps the buffer's shape |
| Fast.WriteSplitFacts | src/hardware/vga_memory.cpp:455-479 | the byte-by-byte path stores byte j at the offset of a+j and nothing else |
| Fast.WriteBytes | src/hardware/vga_memory.cpp:448-479 | a write stores byte i of the value at the offset of a+i and nothing else |
| Fast.Write | src/hardware/vga_memory.cpp:448-479 | writeb, writew and writed keep the buffer's shape and wrap size |
| Fast.DirectIsSplit | src/hardware/vga_memory.cpp:455-479 | the aligned single host write equals the byte-by-byte path |
| Fast.WriteReadBytes | src/hardware/vga_memory.cpp:415-479 | reading what was written at the same address returns the written bytes |
| Fast.RoundTrip | src/hardware/vga_memory.cpp:415-563 | with equal read and write banks, a read after a write returns the value truncated to the width |
| Fast.WriteElsewhere | src/hardware/vga_memory.cpp:448-479 | a write leaves bytes at other offsets unchanged |
| Fast.Et4000SlowIsFast | src/hardware/vga_memory.cpp:485-632 | under plain writes the slow ET4000 handler stores and reads like the fast one |
| Fast.ChainedSlowIsFast | src/hardware/vga_memory.cpp:333-483 | under plain writes the corrected slow chain-4 handler stores and reads like the fast one |
| Handlers.HandlerAddr | src/hardware/vga_memory.cpp:184-211 | a planar handler address names a whole dword inside the buffer, and a linear one a byte below the wrap size |
| Handlers.ByteInAccess | src/hardware/vga_memory.cpp:184-211 | every byte of an access is one the byte routine may be called on |
| Handlers.ReadByte | src/hardware/vga_memory.cpp:158-182 | a byte read leaves memory unchanged and returns the handler's byte value; chained EGA leaves the latch alone too; the slow chain-4 kind reads through the corrected offset (Left out) |
| Handlers.WriteByte | src/hardware/vga_memory.cpp:284-292 | a byte write keeps the buffer's shape and the latch; the slow chain-4 kind writes through the corrected offset (Left out) |
| Handlers.ReadFrom | src/hardware/vga_memory.cpp:191-209 | a multi-byte read is byte reads at ascending addresses, and memory is unchanged |
| Handlers.WriteFrom | src/hardware/vga_memory.cpp:302-319 | a multi-byte write keeps the buffer's shape and the latch |
| Handlers.Read | src/hardware/vga_memory.cpp:184-211 | readb, readw and readd leave memory unchanged |
| Handlers.Write | src/hardware/vga_memory.cpp:295-319 | writeb, writew and writed keep the buffer's shape and the latch |
| Handlers.ReadValue | src/hardware/vga_memory.cpp:184-211 | a read returns the little-endian assembly of the byte reads at consecutive handler addresses |
| Handlers.ChainedEgaWriteFrom | src/hardware/vga_memory.cpp:226-249 | chained EGA stores the bytes verbatim at consecutive offsets and touches nothing else |
| Handlers.ChainedEgaRoundTrip | src/hardware/vga_memory.cpp:226-278 | whatever the write mode, a chained EGA read after a write returns the value truncated to the width |
| Handlers.ChainedEgaWritten | src/hardware/vga_memory.cpp:226-249 | after a chained EGA write the bytes of the value lie at the write's handler address |
| Handlers.ChainedEgaReadBack | src/hardware/vga_memory.cpp:251-278 | a chained EGA read over stored bytes returns their assembly |
| Handlers.ChainedReadsRun | src/hardware/vga_memory.cpp:251-278 | chained EGA byte reads over a stored run return that run |
| Handlers.HandlerAddrWrap | src/hardware/vga_memory.cpp:184-211 | the handler address depends on video memory only through its size |
| Handlers.FullMerge | src/hardware/vga_memory.cpp:284-292 | a full map mask replaces every plane |
| Handlers.PlainPlanarByte | src/hardware/vga_memory.cpp:284-299 | a plain unchained byte write puts the byte in all four planes of its dword |
| Handlers.FillPlanes | src/hardware/vga_memory.cpp:302-319 | filling planes changes only the dwords being written |
| Handlers.PlainPlanarWriteFrom | src/hardware/vga_memory.cpp:302-319 | a plain multi-byte unchained write fills every plane of each byte's dword |
| Handlers.FillPlanesRun | src/hardware/vga_memory.cpp:302-319 | after filling, plane p of each dword holds its byte |
| Handlers.UnchainedWriteFromFrame | src/hardware/vga_memory.cpp:302-319 | a multi-byte unchained write touches only the dwords being written |
| Handlers.PlainReadValue | src/hardware/vga_memory.cpp:167-175 | a plain planar read returns the byte of the read map select plane |
| Handlers.PlainPlanarRoundTrip | src/hardware/vga_memory.cpp:184-319 | with plain writes into all planes and equal banks, a read after a write returns the value truncated to the width |
| Handlers.PlainPlanarWritten | src/hardware/vga_memory.cpp:295-319 | after a plain planar write, the read map select plane of the written dwords holds the value's bytes |
| Handlers.PlainPlanarReadBack | src/hardware/vga_memory.cpp:184-211 | a plain planar read over stored bytes returns their assembly |
| Handlers.PlainReadsRun | src/hardware/vga_memory.cpp:184-211 | plain planar byte reads over a stored run return that run |
| Handlers.LatchCopy | src/hardware/vga_memory.cpp:113-182 | in write mode 1 with all planes enabled, a read then a write copies all four planes of the source dword to the destination |
| Handlers.Lin4IsUnchainedEga | src/hardware/vga_memory.cpp:1818-1866 | with the 64 KB window, LIN4 addresses exactly like unchained EGA |
| Handlers.Lin4IgnoresWindow | src/hardware/vga_memory.cpp:1818-1866 | the LIN4 handler does not depend on the window mask |
| Handlers.BankedWindow | src/hardware/vga_memory.cpp:184-211 | with 64 KB banks, bank n of a linear handler reaches offset 64K·n plus the low 16 address bits |
| EgcShifter.SetByte | src/hardware/vga_memory.cpp:846-871 | replacing one byte of a word sets it and keeps the other |
| EgcShifter.SetBytes | src/hardware/vga_memory.cpp:1404-1464 | replacing one byte of every plane's word keeps the other byte |
| EgcShifter.Initial | src/hardware/vga_memory.cpp:771-797 | the constructor leaves 16 bits to go, ascending, with both cursors and the load count at zero |
| EgcShifter.ShiftCountsPhase | src/hardware/vga_memory.cpp:771-797 | the contract of EgcShifter.ShiftCounts: the shift counts realign the source phase to the destination phase and add up to 8 when the phases differ |
| EgcShifter.Reinit | src/hardware/vga_memory.cpp:771-797 | reinit keeps the ring, takes direction, bit positions and length+1 (16-bit) from the registers, and puts both cursors at 0 (ascending) or 499 (descending) |
| EgcShifter.RingMod | src/hardware/vga_memory.cpp:813-845 | wrapping a ring index is its remainder modulo 512 |
| EgcShifter.RingApart | src/hardware/vga_memory.cpp:813-845 | ring positions less than a ring apart are distinct |
| EgcShifter.RingStep | src/hardware/vga_memory.cpp:813-845 | stepping on from a wrapped position wraps like stepping on from the unwrapped one |
| EgcShifter.RingWrap | src/hardware/vga_memory.cpp:813-845 | a whole turn of the ring returns to the same position |
| EgcShifter.Store | src/hardware/vga_memory.cpp:813-822 | a store puts the low byte at the position and, for a word, the high byte after it |
| EgcShifter.Load | src/hardware/vga_memory.cpp:828-840 | a load reads the byte at the position and, for a word, the next byte as the high byte |
| EgcShifter.StoreLoad | src/hardware/vga_memory.cpp:813-840 | loading from where a value was stored returns it, narrowed to the access width |
| EgcShifter.Bi | src/hardware/vga_memory.cpp:813-822 | bi keeps both cursors |
| EgcShifter.Bo | src/hardware/vga_memory.cpp:828-840 | bo reads the ring at the output cursor plus the offset |
| EgcShifter.BiBo | src/hardware/vga_memory.cpp:813-840 | with the cursors together, bo returns what bi stored at the same offset |
| EgcShifter.Advance | src/hardware/vga_memory.cpp:823-845 | cursor steps stay inside the ring |
| EgcShifter.AdvanceBack | src/hardware/vga_memory.cpp:823-845 | a descending step undoes an ascending step of the same size |
| EgcShifter.Input | src/hardware/vga_memory.cpp:846-871 | input stores the four plane values into the ring, marks the source mask byte (or word) as loaded, and once more than 16 bits are loaded leaves the cursors and counters alone |
| EgcShifter.InputStores | src/hardware/vga_memory.cpp:846-871 | input puts plane k's value at ring offset 4k past the input cursor |
| EgcShifter.DstbitMaskPixels | src/hardware/vga_memory.cpp:873-889 | the contract of EgcShifter.DstbitMask: the destination mask has exactly the bits whose pixel lies between dstbit and dstbit+remain |
| EgcShifter.MaskOfAscending | src/hardware/vga_memory.cpp:873-889 | ascending, the n-pixel mask covers pixels d to d+n-1 counted from bit 7 |
| EgcShifter.MaskOfDescending | src/hardware/vga_memory.cpp:873-889 | descending, the n-pixel mask covers bits d to d+n-1 |
| EgcShifter.Straight | src/hardware/vga_memory.cpp:917-1011 | with equal phases each plane's byte is read straight from the ring at the output cursor |
| EgcShifter.CombinePixels | src/hardware/vga_memory.cpp:917-1011 | ascending, each realigned pixel comes from the first source byte, or from the next one once the shift runs past it |
| EgcShifter.Consume | src/hardware/vga_memory.cpp:917-1011 | remain drops by at most 8 and never goes below 0 |
| EgcShifter.OutputByte | src/hardware/vga_memory.cpp:917-1011 | a byte output step never changes the ring contents |
| EgcShifter.OutputByteStarved | src/hardware/vga_memory.cpp:917-1011 | with too few bits loaded, the step changes only the source mask byte, to 0 |
| EgcShifter.OutputByteRemain | src/hardware/vga_memory.cpp:917-1011 | with enough bits loaded, the source mask byte is the destination mask, remain drops to what is left, and the shifter reinitialises when nothing is left |
| EgcShifter.OutputByteStraight | src/hardware/vga_memory.cpp:917-1011 | with equal phases at bit 0 and 8 or more bits to go, a byte passes straight through and the cursor moves by one |
| EgcShifter.OutputWord | src/hardware/vga_memory.cpp:892-915 | a word output never changes the ring contents |
| EgcShifter.OutputWordStarved | src/hardware/vga_memory.cpp:892-915 | with too few bits for a word, the whole source mask becomes 0 and nothing else changes |
| EgcShifter.OutputWordStraight | src/hardware/vga_memory.cpp:892-1011 | with equal phases and more than 16 bits to go, a word output uses two consecutive ring bytes in the shift direction and consumes 16 bits |
| EgcShifter.InputOutputWord | src/hardware/vga_memory.cpp:846-1011 | with equal phases, a word passes through input then output unchanged, in either direction |
| EgcShifter.InputWord | src/hardware/vga_memory.cpp:846-871 | a word input with nothing loaded loads 16 bits and moves no output state |
| EgcShifter.InputWordStores | src/hardware/vga_memory.cpp:846-871 | a word input leaves every plane's word in the ring at the input cursor |
| EgcShifter.Store4Words | src/hardware/vga_memory.cpp:846-871 | the four word stores of one input do not overwrite each other |
| EgcShifter.OutputWordPasses | src/hardware/vga_memory.cpp:892-1011 | a word output reading a ring that holds a word input returns those words |
| EgcShifter.StraightPassesAscending | src/hardware/vga_memory.cpp:917-1011 | ascending, the low bytes come first and the high bytes one step later |
| EgcShifter.StraightPassesDescending | src/hardware/vga_memory.cpp:917-1011 | descending, the high bytes come first and the low bytes one step later |
| EgcRop.Lookup | src/hardware/vga_memory.cpp:1224-1256 | the table maps exactly codes 0C, AC, C0, F0 and FC to implemented operations, and every other code to ope_xx |
| EgcRop.GgTruth | src/hardware/vga_memory.cpp:1128-1222 | ope_gg computes, bit by bit, the truth-table entry the code selects for the pattern, source and destination bits |
| EgcRop.NpAgrees | src/hardware/vga_memory.cpp:1035-1076 | ope_np computes what ope_gg computes for code 0C |
| EgcRop.C0Agrees | src/hardware/vga_memory.cpp:1078-1096 | ope_c0 computes what ope_gg computes for code C0 |
| EgcRop.F0Agrees | src/hardware/vga_memory.cpp:1098-1102 | ope_f0 computes what ope_gg computes for code F0 |
| EgcRop.FcAgrees | src/hardware/vga_memory.cpp:1104-1126 | ope_fc computes what ope_gg computes for code FC |
| EgcRop.ImplementedAgree | src/hardware/vga_memory.cpp:1035-1256 | every implemented entry agrees with the general minterm form for its own code |
| EgcRop.OpeLatch | src/hardware/vga_memory.cpp:1029-1126 | the operations work plane by plane; ope_xx returns the last VRAM value and ope_f0 the source |
| EgcRop.OpeQuad | src/hardware/vga_memory.cpp:1029-1126 | both bytes of every plane are operated on; ope_xx returns the last VRAM value and ope_f0 the source |
| EgcRop.Pattern | src/hardware/vga_memory.cpp:1128-1160 | the pattern is the background colour for fgc 1, the foreground colour for fgc 2, and otherwise the source or the tiles according to register-load bit 0 |
| EgcRop.Rop | src/hardware/vga_memory.cpp:1029-1256 | unimplemented codes return the last VRAM value and keep the data registers; F0 returns the source; every other code also writes its result into the data registers |
| EgcRop.RopC0Fc | src/hardware/vga_memory.cpp:1078-1126 | code C0 yields src AND dst and code FC yields src OR (NOT src AND dst) in every plane |
| EgcRop.RopTruth | src/hardware/vga_memory.cpp:1035-1256 | every bit of any implemented operation's result is the code's truth-table entry |
| Pc98Vram.Narrow | src/hardware/vga_memory.cpp:1375-1402 | a byte access keeps the low byte and zeroes the high byte; a word access keeps both |
| Pc98Vram.ViewQuad | src/hardware/vga_memory.cpp:1404-1464 | every plane's word is viewed at the same parity |
| Pc98Vram.Broadcast | src/hardware/vga_memory.cpp:1258-1335 | every plane holds the same value |
| Pc98Vram.AndQuad | src/hardware/vga_memory.cpp:1466-1511 | every plane's word is ANDed with the mask |
| Pc98Vram.LoadQuad | src/hardware/vga_memory.cpp:1404-1464 | loading an access-width value into each plane replaces the viewed bytes and keeps the other byte of a byte access |
| Pc98Vram.ReadAt | src/hardware/vga_memory.cpp:1513-1603 | a byte read has a zero high byte |
| Pc98Vram.WriteAt | src/hardware/vga_memory.cpp:1605-1702 | a store writes exactly the access-width bytes at the offset |
| Pc98Vram.ReadWriteAt | src/hardware/vga_memory.cpp:1513-1702 | a read after a write at the same offset returns the narrowed value |
| Pc98Vram.PlanesAt | src/hardware/vga_memory.cpp:1035-1126 | plane k's destination word lies 0x8000·(k+1) above the base |
| Pc98Vram.StoredInPlane | src/hardware/vga_memory.cpp:1384-1402 | the contract of Pc98Vram.WritePlanes: the bytes of an enabled plane take that plane's merge |
| Pc98Vram.WritePlanesMerged | src/hardware/vga_memory.cpp:1384-1402 | every enabled plane merges the new bits into its previous contents |
| Pc98Vram.WritePlanesUntouched | src/hardware/vga_memory.cpp:1384-1402 | bytes outside the enabled planes' words keep their values |
| Pc98Vram.WritePlanesOff | src/hardware/vga_memory.cpp:1384-1402 | a disabled plane keeps its bytes |
| Pc98Vram.MaskedWrite | src/hardware/vga_memory.cpp:1493-1509 | a masked write keeps disabled planes and, in enabled planes, changes only the bits under the mask |
| Pc98Vram.Latched | src/hardware/vga_memory.cpp:1404-1464 | every plane's access-width value at the offset is latched, and a byte access keeps the other byte |
| Pc98.BankOffset | src/hardware/vga_memory.cpp:1549-1551 | the access bit selects bank 0 or the bank 0x20000 bytes up |
| Pc98.Shift | src/hardware/vga_memory.cpp:1258-1335 | a shifter pass changes only the shifter, the source mask and the source, and a byte pass keeps the other byte of the source |
| Pc98.EgcOpe | src/hardware/vga_memory.cpp:1258-1335 | light source 0/3 broadcasts the CPU data; source 2 gives the background or foreground colour, or the shifted source under the source mask; source 1 applies the raster op (ope_xx: last VRAM value); without shifter input, sources 1 and 2 leave the shifter alone |
| Pc98.SourcePass | src/hardware/vga_memory.cpp:1277-1293 | the source step of light sources 1 and 2 changes only the shifter, the source, the source mask and the effective mask (and-ed with the source mask); without shifter input it keeps the shifter, source and source mask |
| Pc98.EgcOpeSourceOne | src/hardware/vga_memory.cpp:1276-1294 | a light-source-1 write is the source step followed by the code's operation over the pattern, the stepped source and the planes at the even offset |
| Pc98.EgcOpeRop | src/hardware/vga_memory.cpp:1276-1294 | under light source 1 with an implemented code, every bit of every plane of the result is the code's truth-table entry for the pattern, source (after the shifter pass when the shifter takes CPU data) and destination bits at the even offset |
| Pc98.EgcOpeRopData | src/hardware/vga_memory.cpp:1276-1294 | under light source 1 with an implemented code the result becomes the EGC data, except under F0, which leaves the data alone |
| Pc98.EgcRead | src/hardware/vga_memory.cpp:1404-1464 | an EGC read changes only EGC state and the tiles, never memory or the mode registers |
| Pc98.EgcReadLatches | src/hardware/vga_memory.cpp:1404-1464 | an EGC read latches every plane's value at the offset as the last VRAM value |
| Pc98.EgcReadTiles | src/hardware/vga_memory.cpp:1404-1464 | register-load bit 0 copies the latched values into the tiles; otherwise the tiles are unchanged |
| Pc98.EgcReadKeeps | src/hardware/vga_memory.cpp:1404-1464 | with CPU shifter input, a read changes nothing in the EGC except the last VRAM value |
| Pc98.EgcReadValue | src/hardware/vga_memory.cpp:1404-1464 | outside compare-lead mode an EGC read returns memory at the full offset; in compare-lead mode with CPU input it returns the lead plane |
| Pc98.WriteTiles | src/hardware/vga_memory.cpp:1466-1511 | register-load bit 1 loads the tiles from every plane at the offset; otherwise they are unchanged |
| Pc98.EgcStoreMasked | src/hardware/vga_memory.cpp:1493-1509 | the contract of Pc98.EgcStore: the EGC store merges data under the effective mask into every enabled plane and keeps disabled planes |
| Pc98.EgcStoreFrame | src/hardware/vga_memory.cpp:1493-1509 | bytes outside the addressed planes keep their contents |
| Pc98.EgcWrite | src/hardware/vga_memory.cpp:1466-1511 | an EGC write loads the tiles first, then stores egc_ope's data under its effective mask and access bits |
| Pc98.CopyLow | src/hardware/vga_memory.cpp:1649-1689 | before a GRCG word write, every enabled plane's tile gets its low byte repeated |
| Pc98.TileCompare | src/hardware/vga_memory.cpp:1375-1381 | a byte compare result has a zero high byte |
| Pc98.AgreeBit | src/hardware/vga_memory.cpp:1375-1381 | an agreement bit is set exactly when the data and tile bits are equal |
| Pc98.AgreeDiff | src/hardware/vga_memory.cpp:1375-1381 | agreement is the complement of the plane's XOR difference |
| Pc98.CompareAgree | src/hardware/vga_memory.cpp:1375-1381 | a tile compare read is the AND of the enabled planes' agreements |
| Pc98.PlaneAgreeBit | src/hardware/vga_memory.cpp:1375-1381 | a plane agrees at a bit exactly when it is disabled or its data bit equals its tile bit |
| Pc98.AllAgreeBit | src/hardware/vga_memory.cpp:1375-1381 | a compare bit is set exactly when every plane matches its tile there |
| Pc98.TileWrite | src/hardware/vga_memory.cpp:1649-1668 | a tile write changes only memory and the tiles, and leaves the tiles as CopyLow |
| Pc98.TileRmw | src/hardware/vga_memory.cpp:1669-1689 | a read-modify-write changes only memory and the tiles, and leaves the tiles as CopyLow |
| Pc98.CopyLowByte | src/hardware/vga_memory.cpp:1649-1689 | every byte of an enabled plane's tile, as a write of width w uses it, is the plane's first tile byte |
| Pc98.TileWriteStores | src/hardware/vga_memory.cpp:1384-1390 | a tile write stores the plane's tile byte in every enabled plane and keeps disabled planes |
| Pc98.TileWriteAgrees | src/hardware/vga_memory.cpp:1384-1390 | after a tile write every plane agrees with its tile everywhere |
| Pc98.TileWriteCompare | src/hardware/vga_memory.cpp:1375-1390 | a tile compare right after a tile write at the same offset reads all ones |
| Pc98.TileRmwStores | src/hardware/vga_memory.cpp:1392-1402 | a read-modify-write puts the tile's bits where the CPU value has ones, keeps the rest, and leaves disabled planes alone |
| Pc98.GrcgFrame | src/hardware/vga_memory.cpp:1384-1402 | neither GRCG write changes a byte outside the planes' words at the offset |
| Pc98Handler.MswIndex | src/hardware/vga_memory.cpp:1520-1532 | the switch index is one of the eight switches |
| Pc98Handler.MswWindow | src/hardware/vga_memory.cpp:1520-1532 | the switch window is exactly A3FE0-A3FFF, four bytes per switch |
| Pc98Handler.Remap | src/hardware/vga_memory.cpp:1534-1537 | every address folds into the 0x28000-byte buffer, with the E-plane window at 0x20000 and above |
| Pc98Handler.RegionOf | src/hardware/vga_memory.cpp:1539-1553 | the 8 KB blocks are character RAM below 0x2000, absent at 0x6000-0x7FFF, and graphics RAM from 0x8000 up |
| Pc98Handler.ModeOf | src/hardware/vga_memory.cpp:1554-1600 | modes 0-7 are plain, 8-9 tile write/compare, C-D read-modify-write, and A, B, E, F the EGC |
| Pc98Handler.RemapParity | src/hardware/vga_memory.cpp:1534-1537 | folding keeps the address parity |
| Pc98Handler.PlaneBase | src/hardware/vga_memory.cpp:1554-1600 | the plane base lies inside the buffer |
| Pc98Handler.GramRead | src/hardware/vga_memory.cpp:1554-1600 | a graphics read changes no state outside the EGC modes, and never memory or the mode registers |
| Pc98Handler.GramWrite | src/hardware/vga_memory.cpp:1639-1695 | a graphics write keeps the EGC outside EGC modes and keeps the tiles in plain modes |
| Pc98Handler.ReadC | src/hardware/vga_memory.cpp:1513-1603 | readc never changes memory or the mode registers, and changes nothing at all unless the EGC is involved |
| Pc98Handler.WriteC | src/hardware/vga_memory.cpp:1605-1702 | writec keeps the switches and mode registers, keeps the EGC unless the EGC is involved, and keeps the tiles outside graphics RAM |
| Pc98Handler.ReadB | src/hardware/vga_memory.cpp:1705-1707 | readb is a byte readc with the same frame |
| Pc98Handler.WriteB | src/hardware/vga_memory.cpp:1708-1710 | writeb is a byte writec with the same frame |
| Pc98Handler.ReadW | src/hardware/vga_memory.cpp:1714-1721 | readw changes nothing outside EGC modes |
| Pc98Handler.WriteW | src/hardware/vga_memory.cpp:1722-1729 | writew keeps the EGC outside EGC modes |
| Pc98Handler.MswAccess | src/hardware/vga_memory.cpp:1520-1613 | the switch window reads switch (addr-A3FE0)/4 with a zero high byte and ignores writes |
| Pc98Handler.PlaneAddr | src/hardware/vga_memory.cpp:1534-1553 | plane windows keep the offset's parity |
| Pc98Handler.PlaneAddrMaps | src/hardware/vga_memory.cpp:1534-1600 | byte x of plane k's window is graphics RAM at plane k's offset x |
| Pc98Handler.AbsentBlock | src/hardware/vga_memory.cpp:1539-1637 | the absent block reads all ones and ignores writes |
| Pc98Handler.TextRoundTrip | src/hardware/vga_memory.cpp:1539-1637 | the character and unknown blocks are plain memory: a read after a write returns the value |
| Pc98Handler.AttributeBlock | src/hardware/vga_memory.cpp:1539-1637 | odd attribute bytes read all ones and ignore writes; even ones return the written byte with a high byte of FF |
| Pc98Handler.TextWordRoundTrip | src/hardware/vga_memory.cpp:1714-1729 | a word write then read in the character block returns the word, even at an odd address |
| Pc98Handler.TextWordSplit | src/hardware/vga_memory.cpp:1714-1729 | a word write at an odd character address stores the low byte there and the high byte after it, and a word read there returns the word |
| Pc98Handler.TextWrite | src/hardware/vga_memory.cpp:1708-1710 | a byte write to the character block stores exactly that byte |
| Pc98Handler.TextRead | src/hardware/vga_memory.cpp:1705-1707 | a byte read of the character block returns the buffer byte and changes nothing |
| Pc98Handler.GramDispatch | src/hardware/vga_memory.cpp:1534-1603 | a graphics access goes to the graphics read/write at the folded offset, which keeps the parity |
| Pc98Handler.GramOffsets | src/hardware/vga_memory.cpp:1554-1600 | both the plain offset and the plane base of a graphics access lie inside the buffer |
| Pc98Handler.GramPlain | src/hardware/vga_memory.cpp:1639-1648 | in modes 0-7 a write stores the value at the full offset, and a read after it returns the value |
| Pc98Handler.GramTile | src/hardware/vga_memory.cpp:1564-1668 | in modes 8-9 a write is the tile write, whatever the value, and a read is the tile compare |
| Pc98Handler.GramTileRoundTrip | src/hardware/vga_memory.cpp:1564-1668 | in modes 8-9 a read right after a write at the same address finds every bit matching |
| Pc98Handler.GramRmw | src/hardware/vga_memory.cpp:1588-1689 | in modes C-D a write is the read-modify-write at the plane base and a read is plain |
| Pc98Handler.GramEgcRead | src/hardware/vga_memory.cpp:1591-1596 | in EGC modes a read is the EGC read at the plane base and full offset |
| Pc98Handler.GramReadEgc | src/hardware/vga_memory.cpp:1591-1596 | in EGC modes the graphics read at the folded offset is the EGC read at the plane base and full offset, both inside the buffer |
| Pc98Handler.GramEgcValue | src/hardware/vga_memory.cpp:1404-1596 | outside compare-lead mode an EGC-mode read returns plain memory at the full offset |
| Pc98Handler.GramEgcWrite | src/hardware/vga_memory.cpp:1690-1695 | in EGC modes a write is the EGC write at the plane base |
| Dispatch.Owner | src/hardware/vga_memory.cpp:2194-2384 | a page has no handler exactly when no range covers it |
| Dispatch.OwnerIsLast | src/hardware/vga_memory.cpp:2194-2384 | a page's handler comes from the last range covering it |
| Dispatch.OwnerAppend | src/hardware/vga_memory.cpp:2194-2384 | ranges that do not cover a page leave its handler alone |
| Dispatch.OwnerPrefix | src/hardware/vga_memory.cpp:2194-2384 | earlier ranges do not matter once a later list owns the page |
| Dispatch.ChainedVga | src/hardware/vga_memory.cpp:2275-2306 | the slow handlers are chosen exactly when the bit mask is not all ones; the Tseng handlers exactly on a Tseng card when slow or compatible chain-4; the plain map otherwise |
| Dispatch.ModeHandler | src/hardware/vga_memory.cpp:2265-2332 | only the error mode, Tandy text and unlisted modes select no handler |
| Dispatch.MapSelect | src/hardware/vga_memory.cpp:2333-2379 | the memory map select is one of four values |
| Dispatch.WindowOf | src/hardware/vga_memory.cpp:2333-2379 | the window lies within A0000-BFFFF and its mask spans its pages, except the ET3000 on the 128 KB map, which keeps the previous mask |
| Dispatch.WindowRanges | src/hardware/vga_memory.cpp:2333-2379 | the map-select ranges stay within A0000-BFFFF and start with the handler |
| Dispatch.WindowRangesServe | src/hardware/vga_memory.cpp:2333-2379 | inside A0000-BFFFF the window's pages get the handler and the rest are reset to RAM or unmapped |
| Dispatch.HercSetup | src/hardware/vga_memory.cpp:2209-2233 | the Hercules window starts at B0000 and the setup completes |
| Dispatch.SetupHandlers | src/hardware/vga_memory.cpp:2194-2384 | the full bank offsets are bank times bank size; the selector returns early, changing nothing, exactly for unknown machines and for EGA/VGA/PC-98 modes without a handler |
| Dispatch.ArchSetup | src/hardware/vga_memory.cpp:2256-2384 | the EGA/VGA/PC-98 path completes exactly when the mode selects a handler |
| Dispatch.ArchShape | src/hardware/vga_memory.cpp:2256-2384 | on that path the window comes from the map select and the ranges are E-plane, window and MMIO ranges in that order |
| Dispatch.WindowServes | src/hardware/vga_memory.cpp:2333-2379 | each page of A0000-BFFFF not taken by MMIO gets the mode's handler inside the window and is reset to RAM or unmapped outside it |
| Dispatch.WindowMask | src/hardware/vga_memory.cpp:2333-2379 | apart from the ET3000 on the 128 KB map, the window mask spans the window's pages |
| Dispatch.MmioServes | src/hardware/vga_memory.cpp:2380-2381 | with S3 MMIO enabled, A0000-AFFFF goes to the MMIO handler whatever the map select |
| Dispatch.EPlane | src/hardware/vga_memory.cpp:2321-2326 | in PC-98 mode E0000-E7FFF goes to the PC-98 handler when analog is on and is unmapped otherwise; other modes leave it alone |
| Dispatch.HercServes | src/hardware/vga_memory.cpp:2209-2233 | the Hercules maps its window (plain memory when enable bit 0 is set, its own handler otherwise), and the rest of B0000-BFFFF goes to the empty handler |
| Dispatch.TandyServes | src/hardware/vga_memory.cpp:2234-2251 | the Tandy maps A0000-BFFFF as memory with a 128 KB mask, and its own handler on B8000-BFFFF unless extended RAM is on |
| Dispatch.CgaServes | src/hardware/vga_memory.cpp:2200-2205 | the CGA puts the snow text handler on B8000 exactly when snow is on and the mode is text or Tandy text |

## Left out

- Access delays (`VGAMEM_USEC_read_delay`, `VGAMEM_USEC_write_delay`) and the slow CGA handler's delay: they only cost time and leave memory as it is.
- CGA snow emulation (`VGA_CGATEXT_PageHandler`): it writes to the draw-side snow buffer, not to video memory.
- The S3 MMIO handler, and the host-pointer handlers (Map, LFB, Tandy, PCjr, AMS, Hercules, Empty): they forward to I/O ports or to host memory outside the decoder. Handler selection names them but does not model their bodies.
- Tandy and PCjr `draw_base`/`mem_base` bookkeeping in `VGA_SetupHandlers`: it is display state, not part of the address map.
- The font-RAM side writes of the text handler (`vga.draw.font`), and all `LOG` calls: diagnostic or display-side only.
- `VGA_SetupMemory`, `VGA_ShutDown`, `VGA_StartUpdateLFB` and the MMIO mapper: allocation and start-up, not decoding.
- `PAGING_GetPhysicalAddress` is taken to be the identity. `MEM_SetPageHandler`, the page-handler resets and `PAGING_ClearTLB` become the returned list of ranges and the `flushed` flag.
- `check_align` is modelled as a requires clause (Pc98Handler.Aligned): the source stops the emulator on a misaligned word access.
- The VOPBIT_ACCESS and VOPBIT_ANALOG bit positions are defined in a header outside the model, so those bits are modelled as booleans.
- `include/8255.h` and `src/hardware/pc98.cpp` are not part of this model.
- ExpandTable and FillTable are built outside the modelled file. Bits.Expand and Bits.Fill take their usual definitions: a byte copied into every lane, and one FF lane per set nibble bit.
- Raster.DerivedFrom and Planar.MapMaskDerived: the expanded `full_*` register fields are filled in by the graphics-controller and sequencer write handlers, which are outside the modelled file. The lemmas that speak in terms of the raw registers assume these two predicates instead of proving them.
- The machine macro for the EGA/VGA architecture is defined outside the model. It is taken to cover the EGA and VGA machine types.
- The bank offsets are unbounded products in Dispatch.SetupHandlers; the handlers take them as 32-bit addresses.
- Pc98Handler.ReadW and Pc98Handler.WriteW evaluate the two byte halves of a split access low byte first. C++ leaves the evaluation order of the two reads in one expression unspecified.
- Pc98Handler.WriteB receives the byte the caller's value is cut to: the truncation from Bitu to uint8_t happens in the caller.
- Pc98.EgcReadValue: does not state the value for compare-lead mode with VRAM shifter input. There the source returns the first byte of the lead plane's source word whatever the address parity, and the model keeps that behaviour without a lemma about it.
- EgcShifter.CombinePixels: proved for the ascending direction only; the descending case uses the mirrored shifts and is modelled but not stated.
- EgcShifter.OutputByte: only states that the ring is unchanged; its other cases are stated by OutputByteStarved, OutputByteRemain and OutputByteStraight, and the general unequal-phase realignment is stated per pixel only for the ascending case (CombinePixels).
- Handlers.ReadByte and Handlers.WriteByte: the slow chain-4 kind (`VGA_ChainedVGA_Slow_Handler`) goes through the corrected offset of the second Findings row (Chained.ChainedSlowRead and Chained.ChainedSlowWrite), not the unmasked offset of lines 337 and 346. The two differ only at handler addresses of 64 KB and up, where the as-written handler indexes at or past 256 KB; Chained.ChainedSlowReadAsWritten and Chained.ChainedSlowWriteAsWritten model that path on its own.
- Fast.Fits and Handlers.Fits: the chain-4 layouts (the fast handler's line-408 offset and the slow generic handler) require at least 256 KB of video memory. `VGA_SetupMemory` sets the wrap to the memory size with no minimum, and on a smaller adapter the chain-4 offset (up to 0x3FFFF) indexes past the buffer, which is undefined behaviour the model does not describe.
- Pc98.Valid: requires at least 0x48000 bytes of graphics memory (Span): the E-plane fold reaches offset 0x27FFF, the upper bank adds 0x20000, and the four planes sit 0x8000 apart above the plane base. The handler never wraps these offsets (lines 1563, 1573-1582 and 1596) and relies on the allocation made outside this file, so the model takes the allocation's size as given instead of describing an overrun.
- Planar.UnchainedRead and Planar.TextRead: one field, `Raster.Config.readMapSelect`, stands for two registers: `vga.config.read_map_select`, used by the unchained read (line 168), and `vga.gfx.read_map_select`, used by the text read (line 1741). Both are set outside this file. The model takes them to be equal and at most 3 (a Plane).
- EgcShifter.OutputWord: its own contract states only that the ring is unchanged. The starved case and the equal-phase case are stated by OutputWordStarved, OutputWordStraight and OutputWordPasses; the word delivered with unequal source and destination phases is modelled but not stated.
- Fast.Write and Handlers.Write: their own contracts state only the frame. The stored contents are stated by Fast.WriteBytes, Fast.RoundTrip and the Handlers round-trip lemmas.

## Findings

| source | as written | input that shows it | evidently intended | confidence | as-written member | corrected member |
|---|---|---|---|---|---|---|
| src/hardware/vga_memory.cpp:1750-1781 | the text-mode `writeb` uses the window offset as a dword index into video memory without any wrap, while `readb` wraps its byte offset with CHECKED3 (with bank 0 that is CHECKED2 on the dword index, Vram.CheckedPlanar) | 256 KB of video memory, window mask 0x1FFFF, a byte write at B1000: dword index 0x11000, byte 0x44000, 16 KB past the end of the buffer | wrap the dword index with CHECKED2, as the other planar handlers do | not executed | Planar.TextWriteAsWritten, Planar.TextWriteOverrun | Planar.TextWrite, Planar.TextWriteRead |
| src/hardware/vga_memory.cpp:336-347 | the slow chain-4 handler computes `((addr & ~3) << 2) + (addr & 3)` without the 0xFFFC mask of the fast handler (line 408), so handler addresses of 64 KB and up reach past 256 KB | 256 KB of video memory, window mask 0x1FFFF, bank 0, access at B1000: handler address 0x11000, byte offset 0x44000, 16 KB past the end of the buffer | the fast handler's offset `((addr & 0xFFFC) << 2) + (addr & 3)` | not executed | Chained.ChainedSlowWriteAsWritten, Chained.ChainedSlowReadAsWritten, Chained.ChainedSlowOverrun | Chained.ChainedSlowWrite, Chained.ChainedSlowRead, Chained.ChainedSlowAgrees, Chained.ChainedSlowWriteRead |

=== FILE: bits.dfy ===
/** Byte lanes, little-endian packing and the two expansion tables shared by
    the whole memory decoder.

    Addresses are kept as bounded integers. Every mask the decoder applies to an
    address has the form 2^k - 1 (or its complement), so `a & (2^k - 1)` is
    written `a % 2^k` and `a & ~(2^k - 1)` is written `a - a % 2^k`; the two
    helpers below are the only places that encoding is spelled out. Data values
    (bytes, words, dwords) are bit-vectors. */
module Bits {

  /** The value of an access, or none when the access falls outside the
      buffer the source indexes (undefined behaviour in the source). */
  datatype Option<T> = None | Some(value: T)

  /** A bitplane number, and the byte lane of a 32-bit latch that holds it. */
  type Plane = k: int | 0 <= k < 4

  /** A 4-bit register field, one bit per plane. */
  type Nibble = bv4

  /** A 3-bit rotate count (kept as a bit-vector so shifts by it stay in
      bit-vector arithmetic). */
  type RotateCount = r: bv8 | r < 8

  /** Byte lane 0 (low) or 1 (high) of a 16-bit word. */
  type Half = h: int | 0 <= h < 2

  const U32: int := 0x1_0000_0000

  /** A 32-bit physical address (PhysPt). */
  type Addr = a: int | 0 <= a < U32

  /** The powers of two up to 2^32. */
  const Pow2s: set<nat> := {
    0x1, 0x2, 0x4, 0x8, 0x10, 0x20, 0x40, 0x80,
    0x100, 0x200, 0x400, 0x800, 0x1000, 0x2000, 0x4000, 0x8000,
    0x10000, 0x20000, 0x40000, 0x80000, 0x100000, 0x200000, 0x400000, 0x800000,
    0x1000000, 0x2000000, 0x4000000, 0x8000000, 0x10000000, 0x20000000, 0x40000000, 0x80000000,
    0x100000000 }

  /** A power of two no larger than 2^32. */
  predicate IsPow2(n: nat) {
    n in Pow2s
  }

  /** `m` has the shape 2^k - 1, so `a & m` keeps the low k bits. */
  predicate IsLowMask(m: nat) {
    IsPow2(m + 1)
  }

  lemma MulNonNeg(q: int, n: int)
    requires q >= 0 && n > 0
    ensures q * n >= 0 && (q > 0 ==> q * n >= n)
  {
  }

  lemma ModBasics(a: nat, n: nat)
    requires n > 0
    ensures 0 <= a % n < n && a % n <= a
    ensures a < n ==> a % n == a
    ensures a - a % n == (a / n) * n
  {
    var q := a / n;
    assert a == q * n + a % n;
    MulNonNeg(q, n);
  }

  /** Euclidean division is unique: a quotient and remainder in range are
      the ones `/` and `%` compute. */
  lemma DivModUnique(a: int, n: int, q: int, r: int)
    requires n > 0 && 0 <= r < n && a == q * n + r
    ensures a / n == q && a % n == r
  {
    var q0 := a / n;
    var r0 := a % n;
    assert a == q0 * n + r0;
    assert (q - q0) * n == r0 - r;
    if q > q0 {
      MulNonNeg(q - q0, n);
    } else if q < q0 {
      MulNonNeg(q0 - q, n);
    }
  }

  /** `a & m` for a mask of the shape 2^k - 1. */
  function AndLow(a: nat, m: nat): (r: nat)
    requires IsLowMask(m)
    ensures r <= m && r <= a
    ensures a <= m ==> r == a
  {
    ModBasics(a, m + 1);
    a % (m + 1)
  }

  /** `a & ~(n - 1)` for a power of two n: `a` rounded down to a multiple of n. */
  function AlignDown(a: nat, n: nat): (r: nat)
    requires IsPow2(n)
    ensures r <= a < r + n && r == (a / n) * n
  {
    ModBasics(a, n);
    a - a % n
  }

  /** Unsigned 32-bit addition, as `PhysPt` arithmetic wraps. */
  function Add32(a: Addr, b: int): (r: Addr)
    requires 0 <= b
    ensures a + b < U32 ==> r == a + b
  {
    (a + b) % U32
  }

  // ---------------------------------------------------------------------------
  // 32-bit latch values (VGA_Latch: d / b[0..3]). Every operation the decoder
  // applies to a latch-sized value is bitwise, so a value is kept as its four
  // byte lanes, lane k holding bitplane k; Pack/Unpack convert to and from the
  // little-endian 32-bit host value.

  datatype Latch = Latch(b0: bv8, b1: bv8, b2: bv8, b3: bv8)

  function Lane(d: Latch, k: Plane): bv8 {
    if k == 0 then d.b0 else if k == 1 then d.b1 else if k == 2 then d.b2 else d.b3
  }

  /** The latch with lane k replaced by `b` (`pixels.b[k] = b`). */
  function SetLane(d: Latch, k: Plane, b: bv8): (r: Latch)
    ensures Lane(r, k) == b
    ensures forall j: Plane :: j != k ==> Lane(r, j) == Lane(d, j)
  {
    if k == 0 then d.(b0 := b) else if k == 1 then d.(b1 := b)
    else if k == 2 then d.(b2 := b) else d.(b3 := b)
  }

  /** Two latches are equal exactly when all four lanes are. */
  lemma LaneExt(d: Latch, e: Latch)
    requires forall k: Plane :: Lane(d, k) == Lane(e, k)
    ensures d == e
  {
    assert Lane(d, 0) == Lane(e, 0) && Lane(d, 1) == Lane(e, 1);
    assert Lane(d, 2) == Lane(e, 2) && Lane(d, 3) == Lane(e, 3);
  }

  const AllOnes: Latch := Latch(0xFF, 0xFF, 0xFF, 0xFF)
  const Zero: Latch := Latch(0, 0, 0, 0)

  function Pack(d: Latch): bv32 {
    (d.b0 as bv32) | ((d.b1 as bv32) << 8) | ((d.b2 as bv32) << 16) | ((d.b3 as bv32) << 24)
  }

  function Unpack(v: bv32): Latch {
    Latch((v & 0xFF) as bv8, ((v >> 8) & 0xFF) as bv8, ((v >> 16) & 0xFF) as bv8, (v >> 24) as bv8)
  }

  lemma UnpackPack(d: Latch)
    ensures Unpack(Pack(d)) == d
  {
  }

  lemma PackUnpack(v: bv32)
    ensures Pack(Unpack(v)) == v
  {
  }

  /** Byte k of a little-endian host value, `(Bit8u)(val >> 8k)`. */
  function ByteOf(val: bv32, k: Plane): bv8 {
    Lane(Unpack(val), k)
  }

  // ---------------------------------------------------------------------------
  // 16-bit words (egc_quad entries: w / b[0..1])

  function Lo(w: bv16): bv8 {
    (w & 0xFF) as bv8
  }

  function Hi(w: bv16): bv8 {
    (w >> 8) as bv8
  }

  function MkWord(lo: bv8, hi: bv8): bv16 {
    (lo as bv16) | ((hi as bv16) << 8)
  }

  function HalfOf(w: bv16, h: Half): bv8 {
    if h == 0 then Lo(w) else Hi(w)
  }

  /** The word with byte lane h replaced by `b`. */
  function SetHalf(w: bv16, h: Half, b: bv8): (r: bv16)
    ensures HalfOf(r, h) == b
    ensures HalfOf(r, 1 - h) == HalfOf(w, 1 - h)
  {
    WordHalves(b, Hi(w));
    WordHalves(Lo(w), b);
    if h == 0 then MkWord(b, Hi(w)) else MkWord(Lo(w), b)
  }

  lemma WordHalves(lo: bv8, hi: bv8)
    ensures Lo(MkWord(lo, hi)) == lo && Hi(MkWord(lo, hi)) == hi
  {
  }

  lemma HalvesWord(w: bv16)
    ensures MkWord(Lo(w), Hi(w)) == w
  {
  }

  // ---------------------------------------------------------------------------
  // Expansion tables. The source indexes ExpandTable and FillTable, which are
  // built outside the file that is modelled; these are their DOSBox definitions.

  /** ExpandTable[b]: the byte replicated into all four plane lanes. */
  function Expand(b: bv8): (r: Latch)
    ensures forall k: Plane :: Lane(r, k) == b
  {
    Latch(b, b, b, b)
  }

  /** Bit k of a 4-bit plane field. */
  predicate NibbleBit(n: Nibble, k: Plane) {
    if k == 0 then n & 1 != 0
    else if k == 1 then n & 2 != 0
    else if k == 2 then n & 4 != 0
    else n & 8 != 0
  }

  function FullByte(b: bool): bv8 {
    if b then 0xFF else 0
  }

  /** FillTable[n]: lane k is 0xFF when bit k of n is set and 0 otherwise. */
  function Fill(n: Nibble): (r: Latch)
    ensures forall k: Plane :: Lane(r, k) == FullByte(NibbleBit(n, k))
  {
    Latch(FullByte(NibbleBit(n, 0)), FullByte(NibbleBit(n, 1)),
          FullByte(NibbleBit(n, 2)), FullByte(NibbleBit(n, 3)))
  }
}

=== FILE: chained.dfy ===
/** The chained handlers: chained EGA, and the slow chain-4 handlers the
    adapter switches to when the bit mask is not all ones (the generic one and
    the ET3000/ET4000 one). Each takes a handler address `a`, the window
    offset after the bank is added and `CHECKED` has wrapped it. */
module Chained {
  import opened Bits
  import opened Vram
  import opened Raster
  import opened Planar

  // ---------------------------------------------------------------------------
  // Chained EGA

  /** VGA_ChainedEGA_Handler::writeHandler: the write-mode result is computed
      and thrown away, and the host byte is stored unchanged at the linear
      offset, whatever the write mode, map mask or bit mask say. */
  function ChainedEgaWrite(s: Vga, a: nat, val: bv8): (t: Vga)
    requires a < |s.mem.bytes|
    ensures t.latch == s.latch && t.mem.wrap == s.mem.wrap && |t.mem.bytes| == |s.mem.bytes|
    ensures t.mem.bytes[a] == val
    ensures forall j :: 0 <= j < |s.mem.bytes| && j != a ==> t.mem.bytes[j] == s.mem.bytes[j]
  {
    Vga(Put(s.mem, a, val), s.latch)
  }

  // ---------------------------------------------------------------------------
  // ET3000/ET4000 slow chain-4: planar byte address a >> 2, plane a & 3

  /** VGA_ET4000_ChainedVGA_Slow_Handler::readHandler8: loads the latch from
      dword `a >> 2` and returns its plane `a & 3`, which is the byte at the
      linear offset `a` itself. */
  function Et4000SlowRead(s: Vga, a: nat): (res: (Vga, bv8))
    requires DwordIn(s.mem, a / 4)
    ensures res.0 == Vga(s.mem, GetDword(s.mem, a / 4))
    ensures a < |s.mem.bytes| && res.1 == s.mem.bytes[a]
  {
    var latch := GetDword(s.mem, a / 4);
    (Vga(s.mem, latch), Lane(latch, a % 4))
  }

  /** VGA_ET4000_ChainedVGA_Slow_Handler::writeHandler8: stores plane `a & 3`
      of the write-mode result at linear offset `a`. In planar terms, plane
      `a & 3` of dword `a >> 2` takes that plane of the result and the other
      three planes keep their bytes. */
  function Et4000SlowWrite(s: Vga, r: Regs, a: nat, val: bv8): (t: Vga)
    requires DwordIn(s.mem, a / 4)
    ensures t.latch == s.latch && t.mem.wrap == s.mem.wrap && |t.mem.bytes| == |s.mem.bytes|
    ensures forall k: Plane ::
      Lane(GetDword(t.mem, a / 4), k)
      == (if k == a % 4 then Lane(ModeOperation(r.cfg, s.latch, val), k) else Lane(GetDword(s.mem, a / 4), k))
    ensures forall j :: 0 <= j < |s.mem.bytes| && j != a ==> t.mem.bytes[j] == s.mem.bytes[j]
  {
    Vga(Put(s.mem, a, Lane(ModeOperation(r.cfg, s.latch, val), a % 4)), s.latch)
  }

  /** Under plain writes the slow ET4000 handler stores the host byte at the
      linear offset, as the fast ET4000 handler does. */
  lemma Et4000SlowPlain(s: Vga, r: Regs, a: nat, val: bv8)
    requires DwordIn(s.mem, a / 4) && PlainWrites(r.cfg)
    ensures Et4000SlowWrite(s, r, a, val) == Vga(Put(s.mem, a, val), s.latch)
  {
    PlainModeOperation(r.cfg, s.latch, val);
  }

  // ---------------------------------------------------------------------------
  // Generic slow chain-4, as written: dword a & ~3, plane a & 3

  /** The byte offset VGA_ChainedVGA_Slow_Handler uses: `((a & ~3) << 2) + (a & 3)`. */
  function SlowOffset(a: nat): (o: nat)
    ensures o % 4 == a % 4 && o >= a
    ensures o / 4 == AlignDown(a, 4)
  {
    var d := AlignDown(a, 4);
    DivModUnique(4 * d + a % 4, 4, d, a % 4);
    4 * d + a % 4
  }

  /** VGA_ChainedVGA_Slow_Handler::readHandler8 as written: the latch is
      loaded from dword `a & ~3`, which lies beyond the buffer (None) once
      `a` is a quarter of the way into video memory. */
  function ChainedSlowReadAsWritten(s: Vga, a: nat): (res: Option<(Vga, bv8)>)
    ensures res.None? <==> !DwordIn(s.mem, AlignDown(a, 4))
    ensures res.Some? ==> res.value.0 == Vga(s.mem, GetDword(s.mem, AlignDown(a, 4)))
    ensures res.Some? ==> SlowOffset(a) < |s.mem.bytes| && res.value.1 == s.mem.bytes[SlowOffset(a)]
  {
    var d := AlignDown(a, 4);
    if DwordIn(s.mem, d) then
      var latch := GetDword(s.mem, d);
      Some((Vga(s.mem, latch), Lane(latch, a % 4)))
    else
      None
  }

  /** VGA_ChainedVGA_Slow_Handler::writeHandler8 as written: plane `a & 3` of
      the write-mode result goes to byte `((a & ~3) << 2) + (a & 3)`, with no
      wrap applied to the shifted offset (None when it is beyond the buffer). */
  function ChainedSlowWriteAsWritten(s: Vga, r: Regs, a: nat, val: bv8): (t: Option<Vga>)
    ensures t.None? <==> SlowOffset(a) >= |s.mem.bytes|
    ensures t.Some? ==> t.value.latch == s.latch && |t.value.mem.bytes| == |s.mem.bytes|
    ensures t.Some? ==> t.value.mem.bytes[SlowOffset(a)] == Lane(ModeOperation(r.cfg, s.latch, val), a % 4)
    ensures t.Some? ==> forall j :: 0 <= j < |s.mem.bytes| && j != SlowOffset(a) ==>
      t.value.mem.bytes[j] == s.mem.bytes[j]
  {
    var o := SlowOffset(a);
    if o < |s.mem.bytes| then
      Some(Vga(Put(s.mem, o, Lane(ModeOperation(r.cfg, s.latch, val), a % 4)), s.latch))
    else
      None
  }

  /** A chain-4 slow-path byte write to 0xB1000 through the 128 KB window
      (mask 0x1FFFF, bank 0) on an adapter with 256 KB of video memory: the
      handler address is 0x11000 and the byte offset 0x44000, 16 KB past the
      end of the buffer. A read there loads its latch from beyond the buffer
      too. */
  lemma ChainedSlowOverrun(s: Vga, r: Regs, val: bv8)
    requires Valid(s.mem) && s.mem.wrap == 0x40000 && r.pagesMask == 0x1FFFF && r.bankWriteFull == 0
    ensures Checked(s.mem, Window(r, 0xB1000, r.bankWriteFull)) == 0x11000
    ensures ChainedSlowWriteAsWritten(s, r, 0x11000, val) == None
    ensures ChainedSlowReadAsWritten(s, 0x11000) == None
  {
    assert AndLow(0xB1000, 0x1FFFF) == 0x11000;
    assert AlignDown(0x11000, 4) == 0x11000;
  }

  // ---------------------------------------------------------------------------
  // Generic chain-4 with the fast handler's offset

  /** The chain-4 byte offset of the fast handler, `((a & 0xFFFC) << 2) + (a & 3)`:
      plane `a & 3` of dword `a & 0xFFFC`, which stays inside the first 256 KB
      and depends only on the low 16 bits of `a`. */
  function ChainedOffset(a: nat): (o: nat)
    ensures o < 0x40000 && o % 4 == a % 4
    ensures o / 4 == AlignDown(AndLow(a, 0xFFFF), 4)
  {
    assert IsPow2(0x10000);
    var d := AlignDown(AndLow(a, 0xFFFF), 4);
    DivModUnique(4 * d + a % 4, 4, d, a % 4);
    4 * d + a % 4
  }

  /** The two offsets agree below 64 KB: the wrap only matters above it. */
  lemma SlowOffsetLow(a: nat)
    requires a < 0x10000
    ensures ChainedOffset(a) == SlowOffset(a)
  {
    assert IsPow2(0x10000);
  }

  /** Slow chain-4 read with the fast handler's offset. */
  function ChainedSlowRead(s: Vga, a: nat): (res: (Vga, bv8))
    requires Valid(s.mem) && s.mem.wrap >= 0x40000
    ensures res.0 == Vga(s.mem, GetDword(s.mem, ChainedOffset(a) / 4))
    ensures res.1 == s.mem.bytes[ChainedOffset(a)]
  {
    var d := ChainedOffset(a) / 4;
    var latch := GetDword(s.mem, d);
    (Vga(s.mem, latch), Lane(latch, a % 4))
  }

  /** Slow chain-4 write with the fast handler's offset. */
  function ChainedSlowWrite(s: Vga, r: Regs, a: nat, val: bv8): (t: Vga)
    requires Valid(s.mem) && s.mem.wrap >= 0x40000
    ensures Valid(t.mem) && t.latch == s.latch && t.mem.wrap == s.mem.wrap
    ensures t.mem.bytes[ChainedOffset(a)] == Lane(ModeOperation(r.cfg, s.latch, val), a % 4)
    ensures forall j :: 0 <= j < |s.mem.bytes| && j != ChainedOffset(a) ==> t.mem.bytes[j] == s.mem.bytes[j]
  {
    Vga(Put(s.mem, ChainedOffset(a), Lane(ModeOperation(r.cfg, s.latch, val), a % 4)), s.latch)
  }

  /** Where the as-written slow handler stays inside video memory below 64 KB,
      the corrected one does exactly the same. */
  lemma ChainedSlowAgrees(s: Vga, r: Regs, a: nat, val: bv8)
    requires Valid(s.mem) && s.mem.wrap >= 0x40000 && a < 0x10000
    ensures ChainedSlowWriteAsWritten(s, r, a, val) == Some(ChainedSlowWrite(s, r, a, val))
    ensures ChainedSlowReadAsWritten(s, a) == Some(ChainedSlowRead(s, a))
  {
    SlowOffsetLow(a);
  }

  /** Under plain writes the slow chain-4 handler stores the host byte at the
      chain-4 offset, as the fast handler does. */
  lemma ChainedSlowPlain(s: Vga, r: Regs, a: nat, val: bv8)
    requires Valid(s.mem) && s.mem.wrap >= 0x40000 && PlainWrites(r.cfg)
    ensures ChainedSlowWrite(s, r, a, val) == Vga(Put(s.mem, ChainedOffset(a), val), s.latch)
  {
    PlainModeOperation(r.cfg, s.latch, val);
  }

  /** Writing a byte through the slow chain-4 handler and reading it back
      returns plane `a & 3` of the write-mode result. */
  lemma ChainedSlowWriteRead(s: Vga, r: Regs, a: nat, val: bv8)
    requires Valid(s.mem) && s.mem.wrap >= 0x40000
    ensures ChainedSlowRead(ChainedSlowWrite(s, r, a, val), a).1 == Lane(ModeOperation(r.cfg, s.latch, val), a % 4)
  {
  }
}

=== FILE: dispatch.dfy ===
/** VGA_SetupHandlers as a pure selector. From the machine, the video mode
    and the adapter's registers it computes the full bank offsets, the
    window (`vgapages.base` as a page number and `vgapages.mask`) and the
    page ranges it hands to the memory system, in the order it hands them
    over: a later range overrides an earlier one on the pages they share. */
module Dispatch {
  import opened Bits

  /** VGA_PAGE_A0, VGA_PAGE_B0 and VGA_PAGE_B8: 4 KB page numbers. */
  const PageA0: nat := 0xA0000 / 4096
  const PageB0: nat := 0xB0000 / 4096
  const PageB8: nat := 0xB8000 / 4096
  /** The PC-98 E-plane window E0000-E7FFF. */
  const PageE0: nat := 0xE0000 / 4096

  /** The machine types the switch tells apart; Ega and Vga are the EGA/VGA
      architecture, Pc98 the PC-98 one. */
  datatype Machine = Cga | Pcjr | Herc | Tandy | Amstrad | Ega | Vga | Pc98 | OtherMachine

  /** The video modes the switch lists; every other mode is OtherMode. */
  datatype VideoMode =
    | MError | MLin4 | MLin8 | MLin15 | MLin16 | MLin24 | MLin32 | MVga | MEga
    | MText | MTandyText | MCga2 | MCga4 | MPc98 | MAmstrad | OtherMode

  datatype Card = TsengEt3k | TsengEt4k | S3Trio | OtherCard

  /** The page handlers (`vgaph.*`). */
  datatype Handler =
    | MapH | SlowCgaH | TextH | CgaTextH | TandyH | ChainedEgaH | ChainedVgaH | ChainedVgaSlowH
    | Et4000H | Et4000SlowH | UnchainedEgaH | UnchainedVgaH | PcjrH | HercH | Lin4H | MmioH
    | AmsH | Pc98H | EmptyH

  /** What a range of pages gets: a handler (MEM_SetPageHandler), or a
      reset to unmapped memory or to RAM. */
  datatype Action = Install(h: Handler) | Unmapped | Ram

  datatype Range = Range(page: nat, pages: nat, act: Action)

  /** `vgapages`: the window's first page and its address mask. */
  datatype Window = Window(base: nat, mask: nat)

  /** The inputs: the machine, the mode, the configuration bits and
      registers the selector reads, and the bank registers. */
  datatype Config = Config(
    machine: Machine,
    mode: VideoMode,
    chained: bool,            // vga.config.chained
    fullBitMask: bv32,        // vga.config.full_bit_mask
    compatibleChain4: bool,
    card: Card,               // svgaCard
    cgaSnow: bool,            // enableCGASnow
    hercBits: bv8,            // vga.herc.enable_bits
    tandyExtRam: bool,        // vga.tandy.extended_ram bit 0
    misc: bv8,                // vga.gfx.miscellaneous
    romIsRam: bool,           // adapter_rom_is_ram
    s3ExtMemCtrl: bv8,        // vga.s3.ext_mem_ctrl
    analog: bool,             // the analog bit of pc98_gdc_vramop
    bankRead: nat,
    bankWrite: nat,
    bankSize: nat)

  /** The outputs: the full bank offsets, the window, the ranges, and
      whether the selector ran to its end (where it flushes the TLB) rather
      than returning early. */
  datatype Setup = Setup(bankReadFull: nat, bankWriteFull: nat, window: Window, ranges: seq<Range>, flushed: bool)

  // ---------------------------------------------------------------------------
  // Which range serves a page

  predicate Covers(r: Range, p: nat) {
    r.page <= p < r.page + r.pages
  }

  /** The action in force on page p after the ranges are applied in order:
      the last range covering it, or none. */
  function Owner(rs: seq<Range>, p: nat): (a: Option<Action>)
    ensures a.None? <==> forall i :: 0 <= i < |rs| ==> !Covers(rs[i], p)
  {
    if |rs| == 0 then None
    else if Covers(rs[|rs| - 1], p) then Some(rs[|rs| - 1].act)
    else Owner(rs[..|rs| - 1], p)
  }

  /** When a page has an owner, it is the action of the last range that
      covers the page. */
  lemma {:induction false} OwnerIsLast(rs: seq<Range>, p: nat)
    requires Owner(rs, p).Some?
    ensures exists i :: 0 <= i < |rs| && Covers(rs[i], p) && rs[i].act == Owner(rs, p).value && LastCover(rs, p, i)
  {
    if !Covers(rs[|rs| - 1], p) {
      var us := rs[..|rs| - 1];
      OwnerIsLast(us, p);
      var i :| 0 <= i < |us| && Covers(us[i], p) && us[i].act == Owner(us, p).value && LastCover(us, p, i);
      assert us[i] == rs[i];
      assert LastCover(rs, p, i);
    }
  }

  /** No range after the i-th covers page p. */
  predicate LastCover(rs: seq<Range>, p: nat, i: nat) {
    forall j :: i < j < |rs| ==> !Covers(rs[j], p)
  }

  /** Appending ranges that do not cover a page leaves its owner alone. */
  lemma {:induction false} OwnerAppend(rs: seq<Range>, ts: seq<Range>, p: nat)
    requires forall j :: 0 <= j < |ts| ==> !Covers(ts[j], p)
    ensures Owner(rs + ts, p) == Owner(rs, p)
    decreases |ts|
  {
    if |ts| > 0 {
      var us := rs + ts;
      assert us[|us| - 1] == ts[|ts| - 1];
      assert !Covers(us[|us| - 1], p);
      assert us[..|us| - 1] == rs + ts[..|ts| - 1];
      assert forall j :: 0 <= j < |ts| - 1 ==> ts[..|ts| - 1][j] == ts[j];
      OwnerAppend(rs, ts[..|ts| - 1], p);
      assert Owner(us, p) == Owner(us[..|us| - 1], p);
    } else {
      assert rs + ts == rs;
    }
  }

  // ---------------------------------------------------------------------------
  // The selector

  /** The chained VGA handler: the slow, exact one when the bit mask is not
      all ones; the Tseng flavour (plane byte at `address >> 2`) on Tseng
      cards; plain memory when neither the slow path nor compatible chain-4
      is wanted. */
  function ChainedVga(c: Config): (h: Handler)
    ensures h in {ChainedVgaSlowH, Et4000SlowH} <==> c.fullBitMask != 0xFFFF_FFFF
    ensures h in {Et4000H, Et4000SlowH} <==>
      (c.card == TsengEt3k || c.card == TsengEt4k) && (c.fullBitMask != 0xFFFF_FFFF || c.compatibleChain4)
    ensures h == MapH <==> c.fullBitMask == 0xFFFF_FFFF && !c.compatibleChain4
  {
    var slow := c.fullBitMask != 0xFFFF_FFFF;
    if slow || c.compatibleChain4 then
      if c.card == TsengEt3k || c.card == TsengEt4k then
        if slow then Et4000SlowH else Et4000H
      else
        if slow then ChainedVgaSlowH else ChainedVgaH
    else MapH
  }

  /** The handler the video mode selects on the EGA/VGA and PC-98 path;
      none for M_ERROR and the modes the switch does not list, where the
      selector returns. */
  function ModeHandler(c: Config): (h: Option<Handler>)
    ensures h.None? <==> c.mode in {MError, MTandyText, OtherMode}
  {
    match c.mode
    case MLin4 => Some(Lin4H)
    case MLin15 => Some(MapH)
    case MLin16 => Some(MapH)
    case MLin24 => Some(MapH)
    case MLin32 => Some(MapH)
    case MLin8 => Some(if c.chained then ChainedVga(c) else UnchainedVgaH)
    case MVga => Some(if c.chained then ChainedVga(c) else UnchainedVgaH)
    case MEga => Some(if c.chained then ChainedEgaH else UnchainedEgaH)
    case MText => Some(TextH)
    case MCga2 => Some(TextH)
    case MCga4 => Some(TextH)
    case MPc98 => Some(Pc98H)
    case MAmstrad => Some(MapH)
    case MError => None
    case MTandyText => None
    case OtherMode => None
  }

  /** Bits 2-3 of the miscellaneous register: the memory map select. */
  function MapSelect(misc: bv8): (sel: nat)
    ensures sel < 4
  {
    ((misc >> 2) & 3) as nat
  }

  /** How many pages the memory map select's window spans. */
  function WindowPages(misc: bv8): nat {
    match MapSelect(misc)
    case 0 => 32
    case 1 => 16
    case _ => 8
  }

  /** The window the memory map select chooses: A0000-BFFFF, A0000-AFFFF,
      B0000-B7FFF or B8000-BFFFF. The ET3000 keeps the old mask for the
      128 KB map. */
  function WindowOf(misc: bv8, card: Card, prev: Window): (w: Window)
    ensures MapSelect(misc) == 0 && card == TsengEt3k ==> w.mask == prev.mask
    ensures MapSelect(misc) != 0 || card != TsengEt3k ==> w.mask + 1 == 4096 * WindowPages(misc)
    ensures PageA0 <= w.base && w.base + WindowPages(misc) <= PageA0 + 32
  {
    var sel := MapSelect(misc);
    if sel == 0 then Window(PageA0, if card == TsengEt3k then prev.mask else 0x1FFFF)
    else if sel == 1 then Window(PageA0, 0xFFFF)
    else if sel == 2 then Window(PageB0, 0x7FFF)
    else Window(PageB8, 0x7FFF)
  }

  /** The ranges of the memory map select: the handler on the window, and
      the rest of A0000-BFFFF reset to RAM or unmapped. */
  function WindowRanges(misc: bv8, h: Handler, romIsRam: bool): (rs: seq<Range>)
    ensures |rs| > 0 && rs[0].act == Install(h)
    ensures forall i :: 0 <= i < |rs| ==> PageA0 <= rs[i].page && rs[i].page + rs[i].pages <= PageA0 + 32
  {
    var reset := if romIsRam then Ram else Unmapped;
    var sel := MapSelect(misc);
    if sel == 0 then [Range(PageA0, 32, Install(h))]
    else if sel == 1 then [Range(PageA0, 16, Install(h)), Range(PageB0, 16, reset)]
    else if sel == 2 then [Range(PageB0, 8, Install(h)), Range(PageA0, 16, reset), Range(PageB8, 8, reset)]
    else [Range(PageB8, 8, Install(h)), Range(PageA0, 16, reset), Range(PageB0, 8, reset)]
  }

  /** The Hercules window: B0000-BFFFF when enable bit 1 pages in the upper
      32 KB, else B0000-B7FFF with an empty handler on B8000-BFFFF; plain
      memory when enable bit 0 allows graphics, the Hercules handler
      otherwise. */
  function HercSetup(c: Config, full: (nat, nat)): (s: Setup)
    ensures s.flushed && s.window.base == PageB0
  {
    var h := if c.hercBits & 1 != 0 then MapH else HercH;
    if c.hercBits & 2 != 0 then
      Setup(full.0, full.1, Window(PageB0, 0xFFFF), [Range(PageB0, 16, Install(h))], true)
    else
      Setup(full.0, full.1, Window(PageB0, 0x7FFF), [Range(PageB0, 8, Install(h)), Range(PageB8, 8, Install(EmptyH))], true)
  }

  /** The S3 memory-mapped I/O window over A0000-AFFFF. */
  predicate MmioOn(c: Config) {
    c.card == S3Trio && c.s3ExtMemCtrl & 0x10 != 0
  }

  /** VGA_SetupHandlers. */
  function SetupHandlers(c: Config, prev: Window): (s: Setup)
    ensures s.bankReadFull == c.bankRead * c.bankSize && s.bankWriteFull == c.bankWrite * c.bankSize
    ensures !s.flushed ==> s.window == prev && s.ranges == []
    ensures !s.flushed <==> c.machine == OtherMachine || (c.machine in {Ega, Vga, Pc98} && ModeHandler(c).None?)
  {
    var full := (c.bankRead * c.bankSize, c.bankWrite * c.bankSize);
    match c.machine
    case Cga =>
      var h := if c.cgaSnow && (c.mode == MText || c.mode == MTandyText) then CgaTextH else SlowCgaH;
      Setup(full.0, full.1, prev, [Range(PageB8, 8, Install(h))], true)
    case Pcjr => Setup(full.0, full.1, prev, [Range(PageB8, 8, Install(PcjrH))], true)
    case Herc => HercSetup(c, full)
    case Tandy =>
      var rs := [Range(PageA0, 32, Install(MapH))] + (if c.tandyExtRam then [] else [Range(PageB8, 8, Install(TandyH))]);
      Setup(full.0, full.1, Window(PageA0, 0x1FFFF), rs, true)
    case Amstrad => Setup(full.0, full.1, prev, [Range(PageB8, 8, Install(AmsH))], true)
    case OtherMachine => Setup(full.0, full.1, prev, [], false)
    case Ega => ArchSetup(c, prev, full)
    case Vga => ArchSetup(c, prev, full)
    case Pc98 => ArchSetup(c, prev, full)
  }

  /** The PC-98 E-plane range: in PC-98 mode, the handler on E0000-E7FFF
      when the analog bit is set, unmapped otherwise. */
  function EPlaneRanges(c: Config, h: Handler): seq<Range> {
    if c.mode == MPc98 then [Range(PageE0, 8, if c.analog then Install(h) else Unmapped)] else []
  }

  /** The S3 MMIO range over A0000-AFFFF. */
  function MmioRanges(c: Config): seq<Range> {
    if MmioOn(c) then [Range(PageA0, 16, Install(MmioH))] else []
  }

  function ArchRanges(c: Config, h: Handler): seq<Range> {
    EPlaneRanges(c, h) + WindowRanges(c.misc, h, c.romIsRam) + MmioRanges(c)
  }

  /** The EGA/VGA and PC-98 path: the mode's handler (and, in PC-98 mode, the
      E-plane window: the handler when the analog bit is set, unmapped
      otherwise), the memory map select's ranges, and the S3 MMIO window
      last. */
  function ArchSetup(c: Config, prev: Window, full: (nat, nat)): (s: Setup)
    ensures s.flushed <==> ModeHandler(c).Some?
    ensures !s.flushed ==> s.window == prev && s.ranges == []
  {
    match ModeHandler(c)
    case None => Setup(full.0, full.1, prev, [], false)
    case Some(h) =>
      Setup(full.0, full.1, WindowOf(c.misc, c.card, prev), ArchRanges(c, h), true)
  }

  // ---------------------------------------------------------------------------
  // Which handler serves which page

  /** Ranges in front that do not matter: once a list owns a page, putting
      more ranges before it changes nothing. */
  lemma {:induction false} OwnerPrefix(es: seq<Range>, rs: seq<Range>, p: nat)
    requires Owner(rs, p).Some?
    ensures Owner(es + rs, p) == Owner(rs, p)
    decreases |rs|
  {
    var us := es + rs;
    assert us[|us| - 1] == rs[|rs| - 1];
    if !Covers(rs[|rs| - 1], p) {
      assert us[..|us| - 1] == es + rs[..|rs| - 1];
      OwnerPrefix(es, rs[..|rs| - 1], p);
    }
  }

  /** The memory map select's ranges cover A0000-BFFFF: the handler on the
      window's pages, the reset on the others. */
  lemma WindowRangesServe(misc: bv8, card: Card, prev: Window, h: Handler, romIsRam: bool, p: nat)
    requires PageA0 <= p < PageA0 + 32
    ensures var w := WindowOf(misc, card, prev);
      Owner(WindowRanges(misc, h, romIsRam), p) ==
        Some(if w.base <= p < w.base + WindowPages(misc) then Install(h) else if romIsRam then Ram else Unmapped)
  {
    var reset := if romIsRam then Ram else Unmapped;
    var sel := MapSelect(misc);
    if sel == 1 {
      Owner2(Range(PageA0, 16, Install(h)), Range(PageB0, 16, reset), p);
    } else if sel == 2 {
      Owner3(Range(PageB0, 8, Install(h)), Range(PageA0, 16, reset), Range(PageB8, 8, reset), p);
    } else if sel == 3 {
      Owner3(Range(PageB8, 8, Install(h)), Range(PageA0, 16, reset), Range(PageB0, 8, reset), p);
    }
  }

  /** Owner on two ranges: the second wins where both cover. */
  lemma Owner2(a: Range, b: Range, p: nat)
    ensures Owner([a, b], p) == if Covers(b, p) then Some(b.act) else if Covers(a, p) then Some(a.act) else None
  {
    assert [a, b][..1] == [a];
  }

  /** Owner on three ranges: the last that covers wins. */
  lemma Owner3(a: Range, b: Range, c: Range, p: nat)
    ensures Owner([a, b, c], p) ==
      if Covers(c, p) then Some(c.act) else if Covers(b, p) then Some(b.act) else if Covers(a, p) then Some(a.act) else None
  {
    assert [a, b, c][..2] == [a, b];
    Owner2(a, b, p);
  }

  /** The shape of the selector's result on the EGA/VGA and PC-98 path. */
  lemma ArchShape(c: Config, prev: Window)
    requires c.machine in {Ega, Vga, Pc98} && ModeHandler(c).Some?
    ensures SetupHandlers(c, prev).window == WindowOf(c.misc, c.card, prev)
    ensures SetupHandlers(c, prev).ranges == ArchRanges(c, ModeHandler(c).value)
  {
  }

  /** On the EGA/VGA and PC-98 path, each page of A0000-BFFFF that the S3
      MMIO window does not take is served by the mode's handler when it
      lies in the window (`vgapages.base` and the number of pages of the
      map select) and reset to RAM or unmapped otherwise. */
  lemma WindowServes(c: Config, prev: Window, p: nat)
    requires c.machine in {Ega, Vga, Pc98} && ModeHandler(c).Some?
    requires PageA0 <= p < PageA0 + 32
    requires !MmioOn(c) || PageB0 <= p
    ensures var s := SetupHandlers(c, prev);
      Owner(s.ranges, p) ==
        Some(if s.window.base <= p < s.window.base + WindowPages(c.misc) then Install(ModeHandler(c).value)
             else if c.romIsRam then Ram else Unmapped)
  {
    var h := ModeHandler(c).value;
    ArchShape(c, prev);
    var e, ws, m := EPlaneRanges(c, h), WindowRanges(c.misc, h, c.romIsRam), MmioRanges(c);
    WindowRangesServe(c.misc, c.card, prev, h, c.romIsRam, p);
    OwnerPrefix(e, ws, p);
    OwnerAppend(e + ws, m, p);
  }

  /** With its window mask set (every card but the ET3000 on the 128 KB map),
      the window spans exactly mask + 1 bytes. */
  lemma WindowMask(c: Config, prev: Window)
    requires c.machine in {Ega, Vga, Pc98} && ModeHandler(c).Some?
    requires MapSelect(c.misc) != 0 || c.card != TsengEt3k
    ensures var s := SetupHandlers(c, prev);
      s.window.mask + 1 == 4096 * WindowPages(c.misc) && s.flushed
  {
  }

  /** The S3 MMIO window takes A0000-AFFFF whatever the map select. */
  lemma MmioServes(c: Config, prev: Window, p: nat)
    requires c.machine in {Ega, Vga, Pc98} && ModeHandler(c).Some? && MmioOn(c)
    requires PageA0 <= p < PageB0
    ensures Owner(SetupHandlers(c, prev).ranges, p) == Some(Install(MmioH))
  {
  }

  /** In PC-98 mode E0000-E7FFF goes to the PC-98 handler when the analog
      (16/256-colour) bit is set and is unmapped otherwise; in other modes
      the selector leaves it alone. */
  lemma EPlane(c: Config, prev: Window, p: nat)
    requires c.machine in {Ega, Vga, Pc98} && ModeHandler(c).Some?
    requires PageE0 <= p < PageE0 + 8
    ensures Owner(SetupHandlers(c, prev).ranges, p) ==
      if c.mode == MPc98 then Some(if c.analog then Install(Pc98H) else Unmapped) else None
  {
    var h := ModeHandler(c).value;
    ArchShape(c, prev);
    var e, ws, m := EPlaneRanges(c, h), WindowRanges(c.misc, h, c.romIsRam), MmioRanges(c);
    assert forall j :: 0 <= j < |ws| ==> !Covers(ws[j], p);
    if c.mode == MPc98 {
      assert h == Pc98H;
      assert Owner(e, p) == Some(if c.analog then Install(Pc98H) else Unmapped);
    } else {
      assert e == [];
    }
    OwnerAppend(e, ws, p);
    OwnerAppend(e + ws, m, p);
  }

  /** The Hercules card serves B0000-BFFFF: its window (mask + 1 bytes from
      B0000) gets plain memory or the Hercules handler by enable bit 0, and
      the rest gets the empty handler. */
  lemma HercServes(c: Config, prev: Window, p: nat)
    requires c.machine == Herc
    requires PageB0 <= p < PageB0 + 16
    ensures var s := SetupHandlers(c, prev);
      Owner(s.ranges, p) ==
        Some(if p < s.window.base + (s.window.mask + 1) / 4096 then Install(if c.hercBits & 1 != 0 then MapH else HercH)
             else Install(EmptyH))
  {
  }

  /** The Tandy maps A0000-BFFFF as plain memory, with its own handler on
      B8000-BFFFF unless the extended RAM bit is set. */
  lemma TandyServes(c: Config, prev: Window, p: nat)
    requires c.machine == Tandy
    requires PageA0 <= p < PageA0 + 32
    ensures var s := SetupHandlers(c, prev);
      s.window == Window(PageA0, 0x1FFFF) &&
      Owner(s.ranges, p) == Some(Install(if !c.tandyExtRam && PageB8 <= p then TandyH else MapH))
  {
  }

  /** The CGA serves B8000-BFFFF with the snow-emulating text handler exactly
      when snow is enabled in a text mode. */
  lemma CgaServes(c: Config, prev: Window, p: nat)
    requires c.machine == Cga
    requires PageB8 <= p < PageB8 + 8
    ensures Owner(SetupHandlers(c, prev).ranges, p) == Some(Install(CgaTextH)) <==>
      c.cgaSnow && (c.mode == MText || c.mode == MTandyText)
  {
  }
}

=== FILE: egc_rop.dfy ===
/** The PC-98 EGC raster operations (the `ope_*` functions and the 256-entry
    table `pc98_egc_opfn`). Each operation combines, bit by bit, a pattern,
    the source and the destination of every plane's 16-bit word; they are
    written once per byte and applied to both bytes of all four planes. */
module EgcRop {
  import opened Bits
  import opened EgcShifter

  /** The implemented table entries, and `ope_xx` for everything else. */
  datatype Fn = Np | C0 | F0 | Fc | Gg | Xx

  /** The codes the table implements; every other entry is `ope_xx`. */
  const Table: set<bv8> := {0x0C, 0xAC, 0xC0, 0xF0, 0xFC}

  /** `pc98_egc_opfn[ope]`. */
  function Lookup(ope: bv8): (f: Fn)
    ensures f == Xx <==> ope !in Table
  {
    if ope == 0x0C then Np
    else if ope == 0xAC then Gg
    else if ope == 0xC0 then C0
    else if ope == 0xF0 then F0
    else if ope == 0xFC then Fc
    else Xx
  }

  // ---------------------------------------------------------------------------
  // Reference: the operation code as a truth table

  /** Bit j of a byte, as a 0/1 number. */
  function Bit(b: bv8, j: bv8): bv8
    requires j < 8
  {
    (b >> j) & 1
  }

  /** The result bit a code gives for one pattern, source and destination
      bit: bit `4*src + 2*dst + pat` of the code. */
  function TruthBit(ope: bv8, p: bv8, s: bv8, d: bv8): bv8
    requires p < 2 && s < 2 && d < 2
  {
    (ope >> (4 * s + 2 * d + p)) & 1
  }

  /** Bit j of plane k's byte h of `r` is what the code's truth table gives
      for the pattern, source and destination bits at the same place. */
  predicate TruthAt(rop: bv8, r: Quad, pat: Quad, src: Quad, dst: Quad, h: Half, k: Plane, j: bv8)
    requires j < 8
  {
    Bit(Lane(Bytes(r, h), k), j)
      == TruthBit(rop, Bit(Lane(Bytes(pat, h), k), j), Bit(Lane(Bytes(src, h), k), j), Bit(Lane(Bytes(dst, h), k), j))
  }

  // ---------------------------------------------------------------------------
  // The operations, one byte at a time

  /** ope_gg: the sum of the eight minterms the code selects. */
  function GgByte(ope: bv8, p: bv8, s: bv8, d: bv8): bv8 {
    (if ope & 0x80 != 0 then p & s & d else 0)
    | (if ope & 0x40 != 0 then !p & s & d else 0)
    | (if ope & 0x20 != 0 then p & s & !d else 0)
    | (if ope & 0x10 != 0 then !p & s & !d else 0)
    | (if ope & 0x08 != 0 then p & !s & d else 0)
    | (if ope & 0x04 != 0 then !p & !s & d else 0)
    | (if ope & 0x02 != 0 then p & !s & !d else 0)
    | (if ope & 0x01 != 0 then !p & !s & !d else 0)
  }

  /** ope_np: the four source/destination minterms selected by code bits
      7, 5, 3 and 1; the pattern takes no part. */
  function NpByte(ope: bv8, s: bv8, d: bv8): bv8 {
    (if ope & 0x80 != 0 then s & d else 0)
    | (if ope & 0x20 != 0 then s & !d else 0)
    | (if ope & 0x08 != 0 then !s & d else 0)
    | (if ope & 0x02 != 0 then !s & !d else 0)
  }

  /** One byte of the table entry for `f`; `last` is the byte of the VRAM
      data last read, which `ope_xx` hands back. */
  function OpeByte(f: Fn, ope: bv8, p: bv8, s: bv8, d: bv8, last: bv8): bv8 {
    match f
    case Np => NpByte(ope, s, d)
    case C0 => s & d
    case F0 => s
    case Fc => s | (!s & d)
    case Gg => GgByte(ope, p, s, d)
    case Xx => last
  }

  /** Bit j of ope_gg's result is the truth-table bit for the pattern,
      source and destination bits at j. */
  lemma GgTruth(ope: bv8, p: bv8, s: bv8, d: bv8, j: bv8)
    requires j < 8
    ensures Bit(GgByte(ope, p, s, d), j) == TruthBit(ope, Bit(p, j), Bit(s, j), Bit(d, j))
  {
    if j == 0 {
    } else if j == 1 {
    } else if j == 2 {
    } else if j == 3 {
    } else if j == 4 {
    } else if j == 5 {
    } else if j == 6 {
    } else {
    }
  }

  lemma NpAgrees(p: bv8, s: bv8, d: bv8)
    ensures NpByte(0x0C, s, d) == GgByte(0x0C, p, s, d)
  {
  }

  lemma C0Agrees(p: bv8, s: bv8, d: bv8)
    ensures s & d == GgByte(0xC0, p, s, d)
  {
  }

  lemma F0Agrees(p: bv8, s: bv8, d: bv8)
    ensures s == GgByte(0xF0, p, s, d)
  {
  }

  lemma FcAgrees(p: bv8, s: bv8, d: bv8)
    ensures s | (!s & d) == GgByte(0xFC, p, s, d)
  {
  }

  /** Every implemented entry computes what ope_gg computes for its own
      code, whatever the pattern: the special cases are shortcuts of the
      general operation. */
  lemma ImplementedAgree(ope: bv8, p: bv8, s: bv8, d: bv8, last: bv8)
    requires ope in Table
    ensures OpeByte(Lookup(ope), ope, p, s, d, last) == GgByte(ope, p, s, d)
  {
    if ope == 0x0C {
      NpAgrees(p, s, d);
    } else if ope == 0xC0 {
      C0Agrees(p, s, d);
    } else if ope == 0xF0 {
      F0Agrees(p, s, d);
    } else if ope == 0xFC {
      FcAgrees(p, s, d);
    }
  }

  // ---------------------------------------------------------------------------
  // Whole quads

  function OpeLatch(f: Fn, ope: bv8, p: Latch, s: Latch, d: Latch, last: Latch): (r: Latch)
    ensures forall k: Plane :: Lane(r, k) == OpeByte(f, ope, Lane(p, k), Lane(s, k), Lane(d, k), Lane(last, k))
    ensures f == Xx ==> r == last
    ensures f == F0 ==> r == s
  {
    var r := Latch(OpeByte(f, ope, p.b0, s.b0, d.b0, last.b0), OpeByte(f, ope, p.b1, s.b1, d.b1, last.b1),
                   OpeByte(f, ope, p.b2, s.b2, d.b2, last.b2), OpeByte(f, ope, p.b3, s.b3, d.b3, last.b3));
    assert forall k: Plane :: Lane(r, k) == OpeByte(f, ope, Lane(p, k), Lane(s, k), Lane(d, k), Lane(last, k)) by {
      forall k: Plane
        ensures Lane(r, k) == OpeByte(f, ope, Lane(p, k), Lane(s, k), Lane(d, k), Lane(last, k))
      {
        if k == 0 {
        } else if k == 1 {
        } else if k == 2 {
        } else {
        }
      }
    }
    r
  }

  function OpeQuad(f: Fn, ope: bv8, p: Quad, s: Quad, d: Quad, last: Quad): (r: Quad)
    ensures forall h: Half :: Bytes(r, h) == OpeLatch(f, ope, Bytes(p, h), Bytes(s, h), Bytes(d, h), Bytes(last, h))
    ensures f == Xx ==> r == last
    ensures f == F0 ==> r == s
  {
    Quad(OpeLatch(f, ope, p.lo, s.lo, d.lo, last.lo), OpeLatch(f, ope, p.hi, s.hi, d.hi, last.hi))
  }

  /** The EGC registers and latched quads a raster operation reads
      (pc98_egc_fgc, pc98_egc_regload, and the pattern sources). */
  datatype Sources = Sources(fgc: bv8, regload: bv8, src: Quad, bgcm: Quad, fgcm: Quad, tiles: Quad, lastVram: Quad)

  /** ope_gg's pattern: the background colour for fgc 1, the foreground
      colour for fgc 2, otherwise the source when register load bit 0 is
      set and the tile registers when it is clear. */
  function Pattern(c: Sources): (pat: Quad)
    ensures c.fgc == 1 ==> pat == c.bgcm
    ensures c.fgc == 2 ==> pat == c.fgcm
    ensures c.fgc != 1 && c.fgc != 2 ==> pat == if c.regload & 1 != 0 then c.src else c.tiles
  {
    if c.fgc == 1 then c.bgcm
    else if c.fgc == 2 then c.fgcm
    else if c.regload & 1 != 0 then c.src
    else c.tiles
  }

  /** `pc98_egc_opfn[rop](rop, ...)` on the destination words `dst`: the
      quad the entry returns, and pc98_egc_data afterwards (np, c0, fc and
      gg build their result there; f0 returns the source and xx the last
      VRAM data, both leaving it alone). */
  function Rop(c: Sources, rop: bv8, dst: Quad, data: Quad): (res: (Quad, Quad))
    ensures Lookup(rop) in {F0, Xx} ==> res.1 == data
    ensures Lookup(rop) !in {F0, Xx} ==> res.1 == res.0
    ensures rop !in Table ==> res == (c.lastVram, data)
    ensures rop == 0xF0 ==> res == (c.src, data)
  {
    var f := Lookup(rop);
    var r := OpeQuad(f, rop, Pattern(c), c.src, dst, c.lastVram);
    (r, if f == F0 || f == Xx then data else r)
  }

  /** 0xC0 gives `src & dst` and 0xFC gives `src | (~src & dst)` in every
      byte of every plane, and the result becomes the EGC data. */
  lemma RopC0Fc(c: Sources, dst: Quad, data: Quad, h: Half, k: Plane)
    ensures var (r, data') := Rop(c, 0xC0, dst, data);
      Lane(Bytes(r, h), k) == Lane(Bytes(c.src, h), k) & Lane(Bytes(dst, h), k) && data' == r
    ensures var (r, data') := Rop(c, 0xFC, dst, data);
      var s := Lane(Bytes(c.src, h), k);
      Lane(Bytes(r, h), k) == s | (!s & Lane(Bytes(dst, h), k)) && data' == r
  {
  }

  /** Every byte of every plane of any implemented operation's result is
      the truth-table function of the pattern, source and destination bits:
      the table agrees with the reference operation for all its codes. */
  lemma RopTruth(c: Sources, rop: bv8, dst: Quad, data: Quad, h: Half, k: Plane, j: bv8)
    requires rop in Table && j < 8
    ensures TruthAt(rop, Rop(c, rop, dst, data).0, Pattern(c), c.src, dst, h, k, j)
  {
    var p := Lane(Bytes(Pattern(c), h), k);
    var s := Lane(Bytes(c.src, h), k);
    var d := Lane(Bytes(dst, h), k);
    ImplementedAgree(rop, p, s, d, Lane(Bytes(c.lastVram, h), k));
    GgTruth(rop, p, s, d, j);
  }
}

=== FILE: egc_shifter.dfy ===
/** The PC-98 EGC bit shifter (pc98_egc_shifter): a 512-byte ring holding
    four interleaved bitplane streams, an input cursor `bufi` and an output
    cursor `bufo`, the bits still to transfer (`remain`), the bits loaded
    but not yet output (`shft8load`), and the source and destination bit
    phases with the left and right shift counts between them.

    Counters are kept at their C widths: `remain`, `srcbit` and `dstbit` are
    16-bit, `shft8load` is 8-bit, and every assignment to them is reduced
    modulo 2^16 or 2^8 as the C conversion does. Sixteen-bit data values are
    kept as their two bytes, which is how the shifter's word path handles
    them (through `uint8_t` pointers into each word). */
module EgcShifter {
  import opened Bits

  /** The access width of a PC-98 planar transfer (uint8_t or uint16_t). */
  datatype Awt = U8 | U16

  function Size(w: Awt): nat {
    if w == U8 then 1 else 2
  }

  /** A 16-bit data value as its bytes b[0] (low) and b[1] (high). */
  datatype Word = Word(lo: bv8, hi: bv8)

  function ByteAt(x: Word, h: Half): bv8 {
    if h == 0 then x.lo else x.hi
  }

  /** The word with byte h replaced. */
  function SetByte(x: Word, h: Half, b: bv8): (r: Word)
    ensures ByteAt(r, h) == b && ByteAt(r, 1 - h) == ByteAt(x, 1 - h)
  {
    if h == 0 then x.(lo := b) else x.(hi := b)
  }

  const Ones: Word := Word(0xFF, 0xFF)
  const Zeros: Word := Word(0, 0)

  /** egc_quad: one word per bitplane, kept as the four planes' low bytes
      and the four planes' high bytes. */
  datatype Quad = Quad(lo: Latch, hi: Latch)

  /** Plane k's word. */
  function At(q: Quad, k: Plane): Word {
    Word(Lane(q.lo, k), Lane(q.hi, k))
  }

  /** Byte h of every plane's word. */
  function Bytes(q: Quad, h: Half): Latch {
    if h == 0 then q.lo else q.hi
  }

  /** The quad with byte h of every plane's word replaced. */
  function SetBytes(q: Quad, h: Half, l: Latch): (r: Quad)
    ensures Bytes(r, h) == l && Bytes(r, 1 - h) == Bytes(q, 1 - h)
  {
    if h == 0 then q.(lo := l) else q.(hi := l)
  }

  // ---------------------------------------------------------------------------
  // State

  const RingSize: nat := 512

  /** A ring of the shifter's size. */
  type Buffer = b: seq<bv8> | |b| == RingSize witness seq(RingSize, _ => 0)

  /** A shift count between 0 and 8. */
  type Shift8 = s: nat | s <= 8

  /** An 8-bit register value. */
  type Reg8 = b: nat | b < 0x100

  /** A 16-bit register value. */
  type Reg16 = w: nat | w < 0x10000

  /** The guest-programmed shifter registers, read live by every operation
      (pc98_egc_shift_descend, _destbit, _srcbit, _length). */
  datatype ShiftRegs = ShiftRegs(descend: bool, destbit: Reg8, srcbit: Reg8, length: Reg16)

  datatype Shifter = Shifter(
    decrement: bool,
    remain: nat,
    srcbit: nat,
    dstbit: nat,
    oSrcbit: nat,
    oDstbit: nat,
    buffer: Buffer,
    bufi: nat,
    bufo: nat,
    shft8load: nat,
    shft8bitr: Shift8,
    shft8bitl: Shift8)

  /** The ranges the C types impose, and cursors inside the ring. */
  predicate Ok(sh: Shifter) {
    sh.remain < 0x10000 && sh.srcbit < 0x10000 && sh.dstbit < 0x10000
    && sh.oSrcbit < 8 && sh.oDstbit < 8
    && sh.bufi < RingSize && sh.bufo < RingSize
    && sh.shft8load < 0x100
  }

  /** The constructor: a global object, so everything the constructor does
      not set is zero. */
  function Initial(): (sh: Shifter)
    ensures Ok(sh) && sh.remain == 0x10 && !sh.decrement
    ensures sh.bufi == 0 && sh.bufo == 0 && sh.shft8load == 0
  {
    Shifter(false, 0x10, 0, 0, 0, 0, seq(RingSize, _ => 0), 0, 0, 0, 0, 0)
  }

  /** The right and left shift counts between a source and a destination
      bit phase (each 0..7). */
  function ShiftCounts(s: nat, d: nat): (rl: (Shift8, Shift8))
    requires s < 8 && d < 8
  {
    if s < d then (d - s, 8 - (d - s))
    else if s > d then (8 - (s - d), s - d)
    else (0, 0)
  }

  /** The two shift counts add up to 8 when the phases differ and are both 0
      when they are equal; shifting the source phase right by the right
      count lands on the destination phase. */
  lemma ShiftCountsPhase(s: nat, d: nat)
    requires s < 8 && d < 8
    ensures var (r, l) := ShiftCounts(s, d);
      (s != d ==> l + r == 8 && 0 < r < 8)
      && (s == d ==> l == 0 && r == 0)
      && (s + r) % 8 == d
  {
  }

  /** reinit(): reload from the registers. The ring contents are kept. */
  function Reinit(g: ShiftRegs, sh: Shifter): (r: Shifter)
    ensures Ok(r) && r.buffer == sh.buffer
    ensures r.decrement == g.descend
    ensures r.remain == (g.length + 1) % 0x10000
    ensures r.bufi == r.bufo && r.bufo == (if g.descend then 499 else 0)
    ensures r.shft8load == 0 && r.dstbit == g.destbit && r.srcbit == g.srcbit
    ensures r.oSrcbit == g.srcbit % 8 && r.oDstbit == g.destbit % 8
    ensures (r.shft8bitr, r.shft8bitl) == ShiftCounts(r.oSrcbit, r.oDstbit)
  {
    var s := g.srcbit % 8;
    var d := g.destbit % 8;
    var bufi := if g.descend then RingSize + 3 - 4 * 4 else 0;
    var (bitr, bitl) := ShiftCounts(s, d);
    Shifter(g.descend, (g.length + 1) % 0x10000, g.srcbit, g.destbit, s, d,
            sh.buffer, bufi, bufi, 0, bitr, bitl)
  }

  // ---------------------------------------------------------------------------
  // The ring

  /** Wrap a ring index (`& (sizeof(buffer) - 1)`). */
  function Ring(i: nat): (r: nat)
    ensures r < RingSize
    decreases i
  {
    if i < RingSize then i else Ring(i - RingSize)
  }

  /** Wrapping is the remainder modulo the ring size. */
  lemma {:induction false} RingMod(i: nat)
    ensures Ring(i) == i % RingSize
    decreases i
  {
    if i >= RingSize {
      RingMod(i - RingSize);
      DivModUnique(i, RingSize, (i - RingSize) / RingSize + 1, (i - RingSize) % RingSize);
    }
  }

  /** Ring positions less than a ring apart are distinct. */
  lemma RingApart(b: nat, x: nat, y: nat)
    requires x < y < x + RingSize
    ensures Ring(b + x) != Ring(b + y)
  {
    RingMod(b + x);
    RingMod(b + y);
    var qx := (b + x) / RingSize;
    var qy := (b + y) / RingSize;
    assert b + x == qx * RingSize + Ring(b + x);
    assert b + y == qy * RingSize + Ring(b + y);
  }

  /** Stepping a wrapped ring position on wraps like stepping the unwrapped
      one. */
  lemma RingStep(b: nat, x: nat, y: nat)
    ensures Ring(Ring(b + x) + y) == Ring(b + x + y)
  {
    RingMod(b + x);
    RingMod(Ring(b + x) + y);
    RingMod(b + x + y);
    var q := (b + x) / RingSize;
    assert b + x == q * RingSize + Ring(b + x);
    MulNonNeg(q, RingSize);
    DivModUnique(b + x + y, RingSize, q + (Ring(b + x) + y) / RingSize, Ring(Ring(b + x) + y));
  }

  /** A whole turn of the ring comes back to the same position. */
  lemma RingWrap(x: nat)
    ensures Ring(x + RingSize) == Ring(x)
  {
  }

  /** The bytes of `v`, low byte first, stored at consecutive ring positions
      from `pos`, wrapping at the end of the ring (only the low byte for a
      byte access). */
  function Store(buf: Buffer, pos: nat, v: Word, w: Awt): (r: Buffer)
    ensures r[Ring(pos)] == v.lo
    ensures w == U16 ==> r[Ring(pos + 1)] == v.hi
  {
    var ip := Ring(pos);
    var b1 := buf[ip := v.lo];
    if w == U8 then b1
    else
      RingStep(pos, 0, 1);
      b1[Ring(ip + 1) := v.hi]
  }

  /** The value of the bytes at consecutive ring positions from `pos`, low
      byte first (the high byte 0 for a byte access). */
  function Load(buf: Buffer, pos: nat, w: Awt): (v: Word)
    ensures v.lo == buf[Ring(pos)]
    ensures v.hi == if w == U8 then 0 else buf[Ring(pos + 1)]
  {
    var op := Ring(pos);
    RingStep(pos, 0, 1);
    Word(buf[op], if w == U8 then 0 else buf[Ring(op + 1)])
  }

  /** A store at a later offset (less than a ring on) leaves an earlier ring
      position alone. */
  lemma StoreKeep(buf: Buffer, pos: nat, ofs: nat, v: Word, w: Awt, x: nat)
    requires x < ofs <= 16
    ensures Store(buf, pos + ofs, v, w)[Ring(pos + x)] == buf[Ring(pos + x)]
  {
    RingApart(pos, x, ofs);
    RingApart(pos, x, ofs + 1);
    RingStep(pos, ofs, 1);
    assert pos + ofs + 1 == pos + (ofs + 1);
  }

  /** A value stored comes back loaded from the same position, with the
      high byte cleared for a byte access. */
  lemma StoreLoad(buf: Buffer, pos: nat, v: Word, w: Awt)
    ensures Load(Store(buf, pos, v, w), pos, w) == if w == U8 then Word(v.lo, 0) else v
  {
  }

  /** bi<AWT>(ofs, val): store at `bufi + ofs`. */
  function Bi(sh: Shifter, ofs: nat, v: Word, w: Awt): (r: Shifter)
    requires Ok(sh)
    ensures Ok(r) && r.bufi == sh.bufi && r.bufo == sh.bufo
  {
    sh.(buffer := Store(sh.buffer, sh.bufi + ofs, v, w))
  }

  /** bo<AWT>(ofs): load from `bufo + ofs`. */
  function Bo(sh: Shifter, ofs: nat, w: Awt): (v: Word)
    requires Ok(sh)
    ensures v.lo == sh.buffer[Ring(sh.bufo + ofs)]
  {
    Load(sh.buffer, sh.bufo + ofs, w)
  }

  /** A value stored by bi at the input cursor comes back from bo at the
      same offset once the output cursor is where the input cursor was. */
  lemma BiBo(sh: Shifter, ofs: nat, v: Word, w: Awt)
    requires Ok(sh) && sh.bufo == sh.bufi
    ensures Bo(Bi(sh, ofs, v, w), ofs, w) == if w == U8 then Word(v.lo, 0) else v
  {
    StoreLoad(sh.buffer, sh.bufi + ofs, v, w);
  }

  /** The cursor step of bi_adv / bo_adv: forward by the access size, or
      backward (forward by 512 minus the size) when descending. */
  function Advance(cursor: nat, descend: bool, w: Awt): (r: nat)
    ensures r < RingSize
  {
    Ring(cursor + if descend then RingSize - Size(w) else Size(w))
  }

  /** A descending step undoes an ascending one of the same size. */
  lemma AdvanceBack(cursor: nat, w: Awt)
    requires cursor < RingSize
    ensures Advance(Advance(cursor, false, w), true, w) == cursor
  {
    var c1 := Ring(cursor + Size(w));
    RingMod(cursor + Size(w));
    RingMod(c1 + RingSize - Size(w));
    var k := (cursor + Size(w)) / RingSize;
    assert cursor + Size(w) == RingSize * k + c1;
    assert k == 0 || k == 1;
    DivModUnique(c1 + RingSize - Size(w), RingSize, 1 - k, cursor);
  }

  // ---------------------------------------------------------------------------
  // input

  /** input<AWT>(a, b, c, d, odd): the four plane values go into the ring at
      offsets 0, 4, 8 and 12 from the input cursor (shifted back by the
      access size less one when descending). While at most 16 bits are
      loaded, the input cursor advances and the loaded bit count grows by
      the bits of the source beyond the source phase. The source mask byte
      (or word) at `odd` becomes all ones. */
  function Input(g: ShiftRegs, sh: Shifter, vals: Quad, w: Awt, odd: Half, srcmask: Word): (res: (Shifter, Word))
    requires Ok(sh) && (w == U16 ==> odd == 0)
    ensures Ok(res.0)
    ensures w == U8 ==> res.1 == SetByte(srcmask, odd, 0xFF)
    ensures w == U16 ==> res.1 == Ones
    ensures res.0.remain == sh.remain && res.0.dstbit == sh.dstbit
    ensures res.0.buffer == Store4(sh.buffer, sh.bufi + InputBase(g, w), vals, w)
    ensures sh.shft8load > 16 ==>
              res.0.bufi == sh.bufi && res.0.bufo == sh.bufo
              && res.0.shft8load == sh.shft8load && res.0.srcbit == sh.srcbit
  {
    var s4 := sh.(buffer := Store4(sh.buffer, sh.bufi + InputBase(g, w), vals, w));
    var s5 :=
      if s4.shft8load <= 16 then
        var adv := s4.(bufi := Advance(s4.bufi, g.descend, w));
        if w == U16 then
          var bufo := if adv.srcbit >= 8 then Advance(adv.bufo, g.descend, U8) else adv.bufo;
          adv.(bufo := bufo, shft8load := (adv.shft8load + 16 - adv.srcbit) % 0x100, srcbit := 0)
        else if adv.srcbit >= 8 then adv.(srcbit := adv.srcbit - 8)
        else adv.(shft8load := (adv.shft8load + 8 - adv.srcbit) % 0x100, srcbit := 0)
      else s4;
    var mask := if w == U8 then SetByte(srcmask, odd, 0xFF) else Ones;
    (s5, mask)
  }

  /** The offset input adds to the input cursor: none when ascending, the
      ring size less the access size plus one when descending. */
  function InputBase(g: ShiftRegs, w: Awt): nat {
    if g.descend then RingSize + 1 - Size(w) else 0
  }

  /** The four plane words in plane order. */
  function Planes(q: Quad): (vs: seq<Word>)
    ensures |vs| == 4 && forall k: Plane :: vs[k] == At(q, k)
  {
    [At(q, 0), At(q, 1), At(q, 2), At(q, 3)]
  }

  /** The four bi calls of input: plane k's value at `pos + 4k`. */
  function Store4(buf: Buffer, pos: nat, vals: Quad, w: Awt): Buffer {
    StoreFrom(buf, pos, Planes(vals), 0, w)
  }

  /** Values i.. of `vs` stored in turn, value j at `pos + 4j`. */
  function StoreFrom(buf: Buffer, pos: nat, vs: seq<Word>, i: nat, w: Awt): Buffer
    requires i <= |vs|
    decreases |vs| - i
  {
    if i == |vs| then buf else StoreFrom(Store(buf, pos + 4 * i, vs[i], w), pos, vs, i + 1, w)
  }

  /** What input stores: plane k's value at ring offset 4k past the input
      cursor and the input base, low byte first. */
  lemma InputStores(g: ShiftRegs, sh: Shifter, vals: Quad, w: Awt, odd: Half, srcmask: Word, k: Plane)
    requires Ok(sh) && (w == U16 ==> odd == 0)
    ensures var r := Input(g, sh, vals, w, odd, srcmask).0;
      var pos := sh.bufi + InputBase(g, w) + 4 * k;
      r.buffer[Ring(pos)] == Lane(vals.lo, k)
      && (w == U16 ==> r.buffer[Ring(pos + 1)] == Lane(vals.hi, k))
  {
    var base := sh.bufi + InputBase(g, w);
    var r := Input(g, sh, vals, w, odd, srcmask).0;
    assert r.buffer == StoreFrom(sh.buffer, base, Planes(vals), 0, w);
    StoreFromAt(sh.buffer, base, Planes(vals), 0, w, k);
    assert Planes(vals)[k] == At(vals, k);
  }

  /** Each value lands at its own offset: the later stores of one input do
      not overlap an earlier one. */
  lemma {:induction false} StoreFromAt(buf: Buffer, pos: nat, vs: seq<Word>, i: nat, w: Awt, k: nat)
    requires i <= k < |vs| <= 4
    ensures var r := StoreFrom(buf, pos, vs, i, w);
      r[Ring(pos + 4 * k)] == vs[k].lo
      && (w == U16 ==> r[Ring(pos + 4 * k + 1)] == vs[k].hi)
    decreases |vs| - i
  {
    if i < k {
      StoreFromAt(Store(buf, pos + 4 * i, vs[i], w), pos, vs, i + 1, w, k);
    } else {
      StoreFromFirst(buf, pos, vs, i, w);
    }
  }

  /** The first value stored survives the stores after it. */
  lemma StoreFromFirst(buf: Buffer, pos: nat, vs: seq<Word>, i: nat, w: Awt)
    requires i < |vs| <= 4
    ensures var r := StoreFrom(buf, pos, vs, i, w);
      r[Ring(pos + 4 * i)] == vs[i].lo
      && (w == U16 ==> r[Ring(pos + 4 * i + 1)] == vs[i].hi)
  {
    StoreFromFirstLo(buf, pos, vs, i, w);
    if w == U16 {
      StoreFromFirstHi(buf, pos, vs, i, w);
    }
  }

  /** The low byte of the first value survives the stores after it. */
  lemma StoreFromFirstLo(buf: Buffer, pos: nat, vs: seq<Word>, i: nat, w: Awt)
    requires i < |vs| <= 4
    ensures StoreFrom(buf, pos, vs, i, w)[Ring(pos + 4 * i)] == vs[i].lo
  {
    var b1 := Store(buf, pos + 4 * i, vs[i], w);
    var r := StoreFrom(b1, pos, vs, i + 1, w);
    StoreFromKeep(b1, pos, vs, i + 1, w, 4 * i);
    assert r[Ring(pos + 4 * i)] == vs[i].lo;
  }

  /** ... and so does the high byte of a word. */
  lemma StoreFromFirstHi(buf: Buffer, pos: nat, vs: seq<Word>, i: nat, w: Awt)
    requires i < |vs| <= 4 && w == U16
    ensures StoreFrom(buf, pos, vs, i, w)[Ring(pos + 4 * i + 1)] == vs[i].hi
  {
    var b1 := Store(buf, pos + 4 * i, vs[i], w);
    var r := StoreFrom(b1, pos, vs, i + 1, w);
    StoreFromKeep(b1, pos, vs, i + 1, w, 4 * i + 1);
    assert r[Ring(pos + 4 * i + 1)] == vs[i].hi;
  }

  /** The stores from value i on leave the ring positions before offset 4i
      alone. */
  lemma {:induction false} StoreFromKeep(buf: Buffer, pos: nat, vs: seq<Word>, i: nat, w: Awt, x: nat)
    requires i <= |vs| <= 4 && x < 4 * i
    ensures StoreFrom(buf, pos, vs, i, w)[Ring(pos + x)] == buf[Ring(pos + x)]
    decreases |vs| - i
  {
    if i < |vs| {
      var b1 := Store(buf, pos + 4 * i, vs[i], w);
      StoreKeep(buf, pos, 4 * i, vs[i], w, x);
      StoreFromKeep(b1, pos, vs, i + 1, w, x);
    }
  }

  // ---------------------------------------------------------------------------
  // output

  /** dstbit_mask(): the destination bits of this byte the transfer covers.
      At most `remain` bits starting at bit position `dstbit`, counted from
      the most significant bit when ascending and from the least significant
      bit when descending. */
  function DstbitMask(descend: bool, remain: nat, dstbit: nat): (m: bv8)
    requires dstbit < 8
  {
    var mb: bv8 :=
      if remain >= 8 then 0xFF
      else if !descend then 0xFF << (8 - remain)
      else 0xFF >> (8 - remain);
    if !descend then mb >> dstbit else mb << dstbit
  }

  /** Bit j of a byte. */
  predicate BitSet(b: bv8, j: nat)
    requires j < 8
  {
    (b >> j) & 1 == 1
  }

  /** The pixel position bit j of a destination byte stands for: pixels run
      from the most significant bit when ascending, from the least
      significant bit when descending. */
  function Pixel(descend: bool, j: nat): (p: nat)
    requires j < 8
    ensures p < 8
  {
    if descend then j else 7 - j
  }

  /** The mask has exactly the bits whose pixel lies in
      [dstbit, dstbit + remain). */
  lemma DstbitMaskPixels(descend: bool, remain: nat, dstbit: nat, j: nat)
    requires dstbit < 8 && j < 8
    ensures BitSet(DstbitMask(descend, remain, dstbit), j)
      <==> dstbit <= Pixel(descend, j) < dstbit + remain
  {
    var n := if remain >= 8 then 8 else remain;
    assert DstbitMask(descend, remain, dstbit) == MaskOf(descend, n, dstbit);
    assert dstbit <= Pixel(descend, j) < dstbit + remain
      <==> dstbit <= Pixel(descend, j) < dstbit + n;
    if descend {
      MaskOfDescending(n, dstbit, j);
    } else {
      MaskOfAscending(n, dstbit, j);
    }
  }

  /** The mask for `n` (at most 8) covered bits. */
  function MaskOf(descend: bool, n: nat, d: nat): bv8
    requires n <= 8 && d < 8
  {
    var mb: bv8 := if !descend then 0xFF << (8 - n) else 0xFF >> (8 - n);
    if !descend then mb >> d else mb << d
  }

  lemma MaskOfAscending(n: nat, d: nat, j: nat)
    requires n <= 8 && d < 8 && j < 8
    ensures BitSet(MaskOf(false, n, d), j) <==> d <= 7 - j < d + n
  {
    var m := MaskOf(false, n, d);
    assert m == (0xFF << (8 - n) as bv8) >> d as bv8;
    BitsAscending((8 - n) as bv8, d as bv8, j as bv8);
  }

  lemma MaskOfDescending(n: nat, d: nat, j: nat)
    requires n <= 8 && d < 8 && j < 8
    ensures BitSet(MaskOf(true, n, d), j) <==> d <= j < d + n
  {
    var m := MaskOf(true, n, d);
    assert m == (0xFF >> (8 - n) as bv8) << d as bv8;
    BitsDescending((8 - n) as bv8, d as bv8, j as bv8);
  }

  lemma BitsAscending(k: bv8, d: bv8, j: bv8)
    requires k <= 8 && d < 8 && j < 8
    ensures (((0xFF as bv8 << k) >> d) >> j) & 1 == 1 <==> d <= 7 - j && 7 - j < d + 8 - k
  {
  }

  lemma BitsDescending(k: bv8, d: bv8, j: bv8)
    requires k <= 8 && d < 8 && j < 8
    ensures (((0xFF as bv8 >> k) << d) >> j) & 1 == 1 <==> d <= j && j < d + 8 - k
  {
  }

  /** The ring bytes at `pos`, `pos + 4`, `pos + 8` and `pos + 12`: one byte
      of each plane's stream. */
  function Lanes(r: Buffer, pos: nat): (l: Latch)
    ensures forall k: Plane :: Lane(l, k) == r[Ring(pos + 4 * k)]
  {
    Latch(r[Ring(pos)], r[Ring(pos + 4)], r[Ring(pos + 8)], r[Ring(pos + 12)])
  }

  /** One plane's realigned byte when source and destination phases differ
      and a whole byte is produced, from the plane's byte `a` at the output
      cursor and `b` one byte on: ascending `(a << l) | (b >> r)`, descending
      `(b >> l) | (a << r)`. */
  function Realign(a: bv8, b: bv8, l: Shift8, r: Shift8, descend: bool): bv8 {
    if descend then (b >> l) | (a << r) else (a << l) | (b >> r)
  }

  /** Every plane's realigned byte. */
  function Gather(sh: Shifter, l: Shift8, r: Shift8, descend: bool): Latch
    requires Ok(sh)
  {
    var a := Lanes(sh.buffer, sh.bufo);
    var b := Lanes(sh.buffer, sh.bufo + 1);
    Latch(Realign(a.b0, b.b0, l, r, descend), Realign(a.b1, b.b1, l, r, descend),
          Realign(a.b2, b.b2, l, r, descend), Realign(a.b3, b.b3, l, r, descend))
  }

  /** The first, partial destination byte of a plane when the destination
      phase is ahead of the source phase: its byte shifted by `r`, towards
      the least significant bit when ascending. */
  function ShiftPart(a: bv8, r: Shift8, descend: bool): bv8 {
    if descend then a << r else a >> r
  }

  function Partial(sh: Shifter, r: Shift8, descend: bool): Latch
    requires Ok(sh)
  {
    var a := Lanes(sh.buffer, sh.bufo);
    Latch(ShiftPart(a.b0, r, descend), ShiftPart(a.b1, r, descend),
          ShiftPart(a.b2, r, descend), ShiftPart(a.b3, r, descend))
  }

  /** Equal phases: the ring bytes themselves. */
  function Straight(sh: Shifter): (l: Latch)
    requires Ok(sh)
    ensures forall k: Plane :: Lane(l, k) == sh.buffer[Ring(sh.bufo + 4 * k)]
  {
    Lanes(sh.buffer, sh.bufo)
  }

  /** Ascending, bit j of the byte realigned from a pair of source bytes is
      the source pixel `l` places further on in the two bytes read as one
      16-pixel run, most significant bit first. */
  lemma CombinePixels(a: bv8, b: bv8, l: Shift8, j: bv8)
    requires 0 < l < 8 && j < 8
    ensures var c, lb := Realign(a, b, l, 8 - l, false), l as bv8;
      BitOn(c, 7 - j) <==> (if j + lb < 8 then BitOn(a, 7 - (j + lb)) else BitOn(b, 15 - (j + lb)))
  {
    if l == 1 { CombineBits(a, b, 1, j); }
    else if l == 2 { CombineBits(a, b, 2, j); }
    else if l == 3 { CombineBits(a, b, 3, j); }
    else if l == 4 { CombineBits(a, b, 4, j); }
    else if l == 5 { CombineBits(a, b, 5, j); }
    else if l == 6 { CombineBits(a, b, 6, j); }
    else { CombineBits(a, b, 7, j); }
  }

  /** Bit `j` of a byte, with the index as a bit-vector. */
  predicate BitOn(b: bv8, j: bv8)
    requires j < 8
  {
    (b >> j) & 1 == 1
  }

  lemma CombineBits(a: bv8, b: bv8, l: bv8, j: bv8)
    requires 0 < l < 8 && j < 8
    ensures ((((a << l) | (b >> (8 - l))) >> (7 - j)) & 1 == 1)
      <==> (if j + l < 8 then (a >> (7 - (j + l))) & 1 == 1 else (b >> (15 - (j + l))) & 1 == 1)
  {
  }

  /** `remain` less the bits this byte covers, clamped at 0. */
  function Consume(remain: nat, dstbit: nat): (r: nat)
    requires dstbit < 8
    ensures r <= remain && remain - r <= 8
    ensures r == 0 || r == remain - (if dstbit > 0 then 8 - dstbit else 8)
  {
    var bc := if dstbit > 0 then (8 - dstbit) % 0x100 else 8;
    if remain >= bc then remain - bc else 0
  }

  /** The result of an output step: the shifter, the source mask and the
      four plane values. */
  datatype ByteOut = ByteOut(sh: Shifter, srcmask: Word, planes: Latch)
  datatype WordOut = WordOut(sh: Shifter, srcmask: Word, planes: Quad)

  /** output<uint8_t>(a, b, c, d, odd, recursive). The plane bytes keep
      their values when the step returns early. */
  function OutputByte(g: ShiftRegs, sh: Shifter, planes: Latch, odd: Half, srcmask: Word, recursive: bool): (r: ByteOut)
    requires Ok(sh)
    ensures Ok(r.sh) && r.sh.buffer == sh.buffer
  {
    if !recursive && sh.shft8load < 8 - sh.dstbit then
      ByteOut(sh, SetByte(srcmask, odd, 0), planes)
    else
      var s1 := if recursive then sh else sh.(shft8load := (sh.shft8load - (8 - sh.dstbit)) % 0x100);
      if s1.dstbit >= 8 then
        ByteOut(s1.(dstbit := s1.dstbit - 8), SetByte(srcmask, odd, 0), planes)
      else
        var mask := SetByte(srcmask, odd, DstbitMask(g.descend, s1.remain, s1.dstbit));
        var s2 := s1.(remain := Consume(s1.remain, s1.dstbit));
        var (s3, out) :=
          if s2.oSrcbit < s2.oDstbit && s2.dstbit != 0 then
            (s2.(dstbit := 0), Partial(s2, s2.shft8bitr, g.descend))
          else if s2.oSrcbit != s2.oDstbit then
            var s2' := s2.(dstbit := 0);
            if g.descend then
              var adv := s2'.(bufo := Advance(s2'.bufo, true, U8));
              (adv, Gather(adv, s2.shft8bitl, s2.shft8bitr, true))
            else
              (s2'.(bufo := Advance(s2'.bufo, false, U8)), Gather(s2', s2.shft8bitl, s2.shft8bitr, false))
          else
            (s2.(dstbit := 0, bufo := Advance(s2.bufo, g.descend, U8)), Straight(s2));
        var s4 := if !recursive && s3.remain == 0 then Reinit(g, s3) else s3;
        ByteOut(s4, mask, out)
  }

  /** Too few bits loaded for the destination byte: the source mask byte
      at `odd` becomes 0 and nothing else changes. */
  lemma OutputByteStarved(g: ShiftRegs, sh: Shifter, planes: Latch, odd: Half, srcmask: Word)
    requires Ok(sh) && sh.shft8load < 8 - sh.dstbit
    ensures OutputByte(g, sh, planes, odd, srcmask, false) == ByteOut(sh, SetByte(srcmask, odd, 0), planes)
  {
  }

  /** Enough bits loaded: `remain` falls by at most 8, never below 0, the
      source mask byte becomes the destination mask, and when `remain`
      reaches 0 the shifter reloads from the registers. */
  lemma OutputByteRemain(g: ShiftRegs, sh: Shifter, planes: Latch, odd: Half, srcmask: Word)
    requires Ok(sh) && sh.shft8load >= 8 - sh.dstbit && sh.dstbit < 8
    ensures var r := OutputByte(g, sh, planes, odd, srcmask, false);
      var left := Consume(sh.remain, sh.dstbit);
      left <= sh.remain && sh.remain - left <= 8
      && (left == 0 ==> r.sh == Reinit(g, sh))
      && (left != 0 ==> r.sh.remain == left && r.sh.dstbit == 0)
      && r.srcmask == SetByte(srcmask, odd, DstbitMask(g.descend, sh.remain, sh.dstbit))
  {
  }

  /** A byte step with equal phases at bit 0 and at least 8 bits to go
      hands each plane its ring byte, covers the whole destination byte,
      and moves the output cursor one byte on. */
  lemma OutputByteStraight(g: ShiftRegs, sh: Shifter, planes: Latch, odd: Half, srcmask: Word)
    requires Ok(sh) && sh.oSrcbit == sh.oDstbit && sh.dstbit == 0 && sh.remain >= 8
    ensures var r := OutputByte(g, sh, planes, odd, srcmask, true);
      r.sh == sh.(remain := sh.remain - 8, bufo := Advance(sh.bufo, g.descend, U8))
      && r.planes == Straight(sh)
      && r.srcmask == SetByte(srcmask, odd, 0xFF)
  {
    assert DstbitMask(g.descend, sh.remain, 0) == 0xFF;
  }

  /** output<uint16_t>(a, b, c, d, 0): two byte steps, the high byte first
      when descending, the second only while bits remain; the shifter
      reloads when `remain` reaches 0. */
  function OutputWord(g: ShiftRegs, sh: Shifter, planes: Quad, srcmask: Word): (r: WordOut)
    requires Ok(sh)
    ensures Ok(r.sh) && r.sh.buffer == sh.buffer
  {
    if sh.shft8load < 16 - sh.dstbit then
      WordOut(sh, Zeros, planes)
    else
      var s1 := sh.(shft8load := (sh.shft8load - (16 - sh.dstbit)) % 0x100);
      var first: Half := if g.descend then 1 else 0;
      var o1 := OutputByte(g, s1, Bytes(planes, first), first, srcmask, true);
      var p1 := SetBytes(planes, first, o1.planes);
      var (s2, mask, p2) :=
        if o1.sh.remain != 0 then
          var o2 := OutputByte(g, o1.sh, Bytes(p1, 1 - first), 1 - first, o1.srcmask, true);
          (o2.sh, o2.srcmask, SetBytes(p1, 1 - first, o2.planes))
        else
          (o1.sh, SetByte(o1.srcmask, 1 - first, 0), p1);
      var s3 := if s2.remain == 0 then Reinit(g, s2) else s2;
      WordOut(s3, mask, p2)
  }

  /** Too few bits loaded for a destination word: the whole source mask
      word becomes 0 and nothing else changes. */
  lemma OutputWordStarved(g: ShiftRegs, sh: Shifter, planes: Quad, srcmask: Word)
    requires Ok(sh) && sh.shft8load < 16 - sh.dstbit
    ensures OutputWord(g, sh, planes, srcmask) == WordOut(sh, Zeros, planes)
  {
  }

  /** With equal phases at bit 0 and more than 16 bits to go, a word output
      takes the first byte it produces (the low byte ascending, the high
      byte descending) from the ring at the output cursor and the other
      from one step on, covers the whole destination word, and moves the
      output cursor two steps on. */
  lemma OutputWordStraight(g: ShiftRegs, sh: Shifter, planes: Quad, srcmask: Word)
    requires Ok(sh) && sh.oSrcbit == sh.oDstbit && sh.dstbit == 0
    requires sh.shft8load >= 16 && sh.remain > 16
    ensures var r := OutputWord(g, sh, planes, srcmask);
      var next := sh.(bufo := Advance(sh.bufo, g.descend, U8));
      r.srcmask == Ones && r.sh.remain == sh.remain - 16
      && r.sh.bufo == Advance(next.bufo, g.descend, U8)
      && r.planes == if g.descend then Quad(Straight(next), Straight(sh)) else Quad(Straight(sh), Straight(next))
  {
    var first: Half := if g.descend then 1 else 0;
    var next := sh.(bufo := Advance(sh.bufo, g.descend, U8));
    var s1 := sh.(shft8load := (sh.shft8load - 16) % 0x100);
    var o1 := OutputByte(g, s1, Bytes(planes, first), first, srcmask, true);
    OutputByteStraight(g, s1, Bytes(planes, first), first, srcmask);
    var p1 := SetBytes(planes, first, o1.planes);
    var o2 := OutputByte(g, o1.sh, Bytes(p1, 1 - first), 1 - first, o1.srcmask, true);
    OutputByteStraight(g, o1.sh, Bytes(p1, 1 - first), 1 - first, o1.srcmask);
    var r := OutputWord(g, sh, planes, srcmask);
    assert r == WordOut(o2.sh, o2.srcmask, SetBytes(p1, 1 - first, o2.planes));
    StraightFrame(s1, sh);
    StraightFrame(o1.sh, next);
    assert o2.srcmask == Ones;
    if g.descend {
      assert r.planes == Quad(Straight(next), Straight(sh));
    } else {
      assert r.planes == Quad(Straight(sh), Straight(next));
    }
  }

  /** Straight depends only on the ring and the output cursor. */
  lemma StraightFrame(a: Shifter, b: Shifter)
    requires Ok(a) && Ok(b) && a.buffer == b.buffer && a.bufo == b.bufo
    ensures Straight(a) == Straight(b)
  {
  }

  /** Input followed by output passes a word through unchanged when source
      and destination phases are both 0: with the input and output cursors
      together, nothing loaded and more than 16 bits to go, the word output
      hands back every plane's input word with a full source mask, in
      either direction. */
  lemma InputOutputWord(g: ShiftRegs, sh: Shifter, vals: Quad, srcmask: Word, planes: Quad)
    requires Ok(sh) && sh.bufi == sh.bufo
    requires sh.shft8load == 0 && sh.srcbit == 0 && sh.dstbit == 0
    requires sh.oSrcbit == sh.oDstbit && sh.remain > 16
    ensures var res := Input(g, sh, vals, U16, 0, srcmask);
      var r := OutputWord(g, res.0, planes, res.1);
      r.planes == vals && r.srcmask == Ones && r.sh.remain == sh.remain - 16
  {
    var res := Input(g, sh, vals, U16, 0, srcmask);
    InputWord(g, sh, vals, srcmask);
    InputWordStores(g, sh, vals, srcmask);
    OutputWordPasses(g, res.0, planes, res.1, vals);
  }

  /** A word input with nothing loaded at source phase 0 loads 16 bits and
      leaves the output cursor and the output phases where they are. */
  lemma InputWord(g: ShiftRegs, sh: Shifter, vals: Quad, srcmask: Word)
    requires Ok(sh) && sh.shft8load == 0 && sh.srcbit == 0
    ensures var res := Input(g, sh, vals, U16, 0, srcmask);
      res.1 == Ones && res.0.shft8load == 16 && res.0.bufo == sh.bufo
      && res.0.remain == sh.remain && res.0.dstbit == sh.dstbit
      && res.0.oSrcbit == sh.oSrcbit && res.0.oDstbit == sh.oDstbit
  {
  }

  /** ... and puts the words in the ring at the input cursor (one byte back
      when descending). */
  lemma InputWordStores(g: ShiftRegs, sh: Shifter, vals: Quad, srcmask: Word)
    requires Ok(sh)
    ensures WordsAt(Input(g, sh, vals, U16, 0, srcmask).0.buffer, sh.bufi + InputBase(g, U16), vals)
  {
    var base := sh.bufi + InputBase(g, U16);
    var b4 := Store4(sh.buffer, base, vals, U16);
    Store4Words(sh.buffer, base, vals);
    assert WordsAt(b4, base, vals);
    assert Input(g, sh, vals, U16, 0, srcmask).0.buffer == b4;
  }

  /** The ring holds every plane's word of `vals` at `pos + 4k`, low byte
      first. */
  predicate WordsAt(r: Buffer, pos: nat, vals: Quad) {
    Lanes(r, pos) == vals.lo && Lanes(r, pos + 1) == vals.hi
  }

  /** Reading the lanes from a wrapped position reads the same bytes. */
  lemma LanesRing(r: Buffer, b: nat, x: nat)
    ensures Lanes(r, Ring(b + x)) == Lanes(r, b + x)
  {
    forall k: Plane
      ensures r[Ring(Ring(b + x) + 4 * k)] == r[Ring(b + x + 4 * k)]
    {
      RingStep(b, x, 4 * k);
    }
    LaneExt(Lanes(r, Ring(b + x)), Lanes(r, b + x));
  }

  /** ... and so does reading them a whole turn further on. */
  lemma LanesWrap(r: Buffer, x: nat)
    ensures Lanes(r, x + RingSize) == Lanes(r, x)
  {
    forall k: Plane
      ensures Lane(Lanes(r, x + RingSize), k) == Lane(Lanes(r, x), k)
    {
      RingWrap(x + 4 * k);
      assert x + RingSize + 4 * k == x + 4 * k + RingSize;
    }
    LaneExt(Lanes(r, x + RingSize), Lanes(r, x));
  }

  /** The four word stores of an input leave the words in the ring. */
  lemma Store4Words(buf: Buffer, pos: nat, vals: Quad)
    ensures WordsAt(Store4(buf, pos, vals, U16), pos, vals)
  {
    var r := Store4(buf, pos, vals, U16);
    forall k: Plane
      ensures Lane(Lanes(r, pos), k) == Lane(vals.lo, k)
      ensures Lane(Lanes(r, pos + 1), k) == Lane(vals.hi, k)
    {
      StoreFromAt(buf, pos, Planes(vals), 0, U16, k);
      assert pos + 1 + 4 * k == pos + 4 * k + 1;
    }
    LaneExt(Lanes(r, pos), vals.lo);
    LaneExt(Lanes(r, pos + 1), vals.hi);
  }

  /** A word output with equal phases at bit 0 from a ring a word input
      filled at the output cursor hands back the input's plane words. */
  lemma OutputWordPasses(g: ShiftRegs, sh: Shifter, planes: Quad, srcmask: Word, vals: Quad)
    requires WordsAt(sh.buffer, sh.bufo + InputBase(g, U16), vals)
    requires Ok(sh) && sh.oSrcbit == sh.oDstbit && sh.dstbit == 0
    requires sh.shft8load >= 16 && sh.remain > 16
    ensures var r := OutputWord(g, sh, planes, srcmask);
      r.planes == vals && r.srcmask == Ones && r.sh.remain == sh.remain - 16
  {
    OutputWordStraight(g, sh, planes, srcmask);
    if g.descend {
      StraightPassesDescending(sh, vals);
    } else {
      StraightPassesAscending(sh, vals);
    }
  }

  /** Ascending, the planes' bytes read straight at the output cursor are
      the input's low bytes and one byte step on its high bytes. */
  lemma StraightPassesAscending(sh: Shifter, vals: Quad)
    requires Ok(sh) && WordsAt(sh.buffer, sh.bufo, vals)
    ensures Straight(sh) == vals.lo
    ensures Straight(sh.(bufo := Advance(sh.bufo, false, U8))) == vals.hi
  {
    LanesRing(sh.buffer, sh.bufo, 1);
  }

  /** Descending, the input was placed one byte back, so the bytes read
      straight at the output cursor are the input's high bytes and one
      (backward) byte step on its low bytes. */
  lemma StraightPassesDescending(sh: Shifter, vals: Quad)
    requires Ok(sh) && WordsAt(sh.buffer, sh.bufo + (RingSize - 1), vals)
    ensures Straight(sh) == vals.hi
    ensures Straight(sh.(bufo := Advance(sh.bufo, true, U8))) == vals.lo
  {
    var b := sh.bufo;
    LanesRing(sh.buffer, b, RingSize - 1);
    LanesWrap(sh.buffer, b);
    assert b + (RingSize - 1) + 1 == b + RingSize;
  }

}

=== FILE: fast.dfy ===
/** The fast chain-4 handlers the adapter uses in 256-colour chained modes
    while the bit mask is all ones: they bypass the latch and the raster
    pipeline and read or store host bytes directly. An aligned word or dword
    is one host access at the offset of its first byte; an unaligned one is
    split into byte accesses at the offsets of its consecutive addresses. */
module Fast {
  import opened Bits
  import opened Vram
  import opened Raster
  import opened Planar
  import opened Chained

  /** VGA_ChainedVGA_Handler (generic chain-4 layout) and
      VGA_ET4000_ChainedVGA_Handler (ET3000/ET4000: the linear offset is the
      handler address itself). */
  datatype Layout = ChainFour | Et4000

  /** Video memory large enough for the layout: the chain-4 offsets reach up
      to 256 KB whatever the wrap size. */
  predicate Fits(f: Layout, m: Mem) {
    Valid(m) && (f == ChainFour ==> m.wrap >= 0x40000)
  }

  /** The linear offset of handler address `x`. */
  function Offset(f: Layout, x: nat): (o: nat)
    ensures o % 4 == x % 4
    ensures f == ChainFour ==> o < 0x40000
    ensures f == Et4000 ==> o == x
  {
    match f
    case ChainFour => ChainedOffset(x)
    case Et4000 => x
  }

  /** The offsets of the bytes of an `n`-byte access at handler address `a`,
      lowest first. */
  function Offsets(f: Layout, a: nat, n: nat): (os: seq<int>)
    ensures |os| == n && forall i :: 0 <= i < n ==> os[i] == Offset(f, a + i)
  {
    seq(n, i requires 0 <= i < n => Offset(f, a + i))
  }

  /** The bytes of an access at a handler address below the wrap size lie
      inside the buffer. */
  lemma OffsetsIn(f: Layout, m: Mem, a: nat, n: nat)
    requires Fits(f, m) && a < m.wrap && n <= 4
    ensures forall i :: 0 <= i < n ==> Offsets(f, a, n)[i] < |m.bytes|
  {
  }

  /** The bytes of one access have distinct offsets: they differ in the low
      two bits, which every layout keeps. */
  lemma OffsetsDistinct(f: Layout, a: nat, n: nat)
    requires n <= 4
    ensures forall i, j :: 0 <= i < j < n ==> Offsets(f, a, n)[i] != Offsets(f, a, n)[j]
  {
    forall i, j | 0 <= i < j < n
      ensures Offsets(f, a, n)[i] != Offsets(f, a, n)[j]
    {
      LowBitsDiffer(a, i, j);
    }
  }

  /** Two of four consecutive addresses differ in their low two bits. */
  lemma LowBitsDiffer(x: nat, i: nat, j: nat)
    requires i < j < 4
    ensures (x + i) % 4 != (x + j) % 4
  {
    var qi, qj := (x + i) / 4, (x + j) / 4;
    assert x + i == 4 * qi + (x + i) % 4;
    assert x + j == 4 * qj + (x + j) % 4;
  }

  /** `addr & 1` clear for a word, `addr & 3` clear for a dword. */
  predicate Aligned(w: Width, a: nat) {
    a % Size(w) == 0
  }

  /** Within an aligned access the offsets are consecutive, so one host
      access at the first offset covers exactly the bytes of the split
      accesses. */
  lemma {:induction false} AlignedOffsets(f: Layout, w: Width, a: nat)
    requires Aligned(w, a)
    ensures forall i :: 0 <= i < Size(w) ==> Offsets(f, a, Size(w))[i] == Offset(f, a) + i
  {
    var n := Size(w);
    var os := Offsets(f, a, n);
    forall i | 0 <= i < n
      ensures os[i] == Offset(f, a) + i
    {
      if f == ChainFour {
        ChainedAligned(a, i, n);
      }
    }
  }

  lemma ChainedAligned(a: nat, i: nat, n: nat)
    requires n == 1 || n == 2 || n == 4
    requires a % n == 0 && i < n
    ensures ChainedOffset(a + i) == ChainedOffset(a) + i
  {
    AlignedLowBits(a, i, n);
    var lo := AndLow(a, 0xFFFF);
    LowWord(a);
    LowWordStep(a, i);
    assert AndLow(a + i, 0xFFFF) == lo + i;
    AlignDownStep(lo, i);
    AddLowBits(a, i);
  }

  /** An access aligned to its own size does not cross a 4-byte boundary. */
  lemma AlignedLowBits(a: nat, i: nat, n: nat)
    requires n == 1 || n == 2 || n == 4
    requires a % n == 0 && i < n
    ensures a % 4 + i < 4
  {
    if n == 2 {
      var h := a / 2;
      assert a == 2 * h;
      var d := a / 4;
      assert a == 4 * d + a % 4;
      assert a % 4 == 2 * (h - 2 * d);
    }
  }

  /** The low 16 bits of an address keep its low two bits. */
  lemma LowWord(a: nat)
    ensures AndLow(a, 0xFFFF) % 4 == a % 4
  {
    assert IsPow2(0x10000);
    var q := a / 0x10000;
    var lo := a % 0x10000;
    assert a == 0x10000 * q + lo;
    var d := lo / 4;
    assert lo == 4 * d + lo % 4;
    DivModUnique(a, 4, 0x4000 * q + d, lo % 4);
  }

  /** Adding i to an address that stays inside its 4-byte group adds i to
      its low 16 bits. */
  lemma LowWordStep(a: nat, i: nat)
    requires a % 4 + i < 4
    ensures AndLow(a + i, 0xFFFF) == AndLow(a, 0xFFFF) + i
  {
    assert IsPow2(0x10000);
    LowWord(a);
    var q := a / 0x10000;
    var lo := a % 0x10000;
    assert a == 0x10000 * q + lo;
    var d := lo / 4;
    assert lo == 4 * d + lo % 4;
    assert lo + i < 0x10000;
    DivModUnique(a + i, 0x10000, q, lo + i);
  }

  lemma AlignDownStep(x: nat, i: nat)
    requires x % 4 + i < 4
    ensures AlignDown(x + i, 4) == AlignDown(x, 4)
  {
    assert IsPow2(4);
    var d := x / 4;
    assert x == 4 * d + x % 4;
    DivModUnique(x + i, 4, d, x % 4 + i);
  }

  lemma AddLowBits(x: nat, i: nat)
    requires x % 4 + i < 4
    ensures (x + i) % 4 == x % 4 + i
  {
    var d := x / 4;
    assert x == 4 * d + x % 4;
    DivModUnique(x + i, 4, d, x % 4 + i);
  }

  // ---------------------------------------------------------------------------
  // Reads

  /** The bytes an access at handler address `a` reads: one host read of
      Size(w) bytes at the first offset when aligned, and the byte at each
      address's offset otherwise. Either way, byte i is the one at the
      offset of address a+i. */
  function ReadBytes(f: Layout, m: Mem, w: Width, a: nat): (bs: seq<bv8>)
    requires Fits(f, m) && a < m.wrap
    ensures |bs| == Size(w)
    ensures forall i :: 0 <= i < Size(w) ==> bs[i] == m.bytes[Offsets(f, a, Size(w))[i]]
  {
    var n := Size(w);
    OffsetsIn(f, m, a, n);
    if Aligned(w, a) then
      AlignedOffsets(f, w, a);
      var o := Offset(f, a);
      assert o + n <= |m.bytes| by {
        assert Offsets(f, a, n)[n - 1] == o + n - 1;
      }
      m.bytes[o .. o + n]
    else
      seq(n, i requires 0 <= i < n => m.bytes[Offsets(f, a, n)[i]])
  }

  /** readb / readw / readd: the window offset plus the read bank, wrapped
      by CHECKED, then the bytes above assembled little-endian. */
  function Read(f: Layout, m: Mem, r: Regs, w: Width, addr: Addr): (v: bv32)
    requires Fits(f, m) && IsLowMask(r.pagesMask)
  {
    Assemble(ReadBytes(f, m, w, Checked(m, Window(r, addr, r.bankReadFull))))
  }

  // ---------------------------------------------------------------------------
  // Writes

  /** Byte i of `bs` stored at the offset of address a+i, for i from `i`
      up, one byte at a time: the split path. */
  function WriteSplit(f: Layout, m: Mem, a: nat, i: nat, bs: seq<bv8>): (m': Mem)
    requires Fits(f, m) && a < m.wrap && |bs| <= 4 && i <= |bs|
    ensures Fits(f, m') && m'.wrap == m.wrap
    decreases |bs| - i
  {
    OffsetsIn(f, m, a, |bs|);
    if i == |bs| then m
    else WriteSplit(f, Put(m, Offsets(f, a, |bs|)[i], bs[i]), a, i + 1, bs)
  }

  /** The split path stores byte j at the offset of address a+j and leaves
      every other byte alone. */
  lemma {:induction false} WriteSplitFacts(f: Layout, m: Mem, a: nat, i: nat, bs: seq<bv8>)
    requires Fits(f, m) && a < m.wrap && |bs| <= 4 && i <= |bs|
    ensures var m' := WriteSplit(f, m, a, i, bs);
      var os := Offsets(f, a, |bs|);
      |m'.bytes| == |m.bytes|
      && (forall j :: i <= j < |bs| ==> os[j] < |m'.bytes| && m'.bytes[os[j]] == bs[j])
      && (forall y :: 0 <= y < |m.bytes| && y !in os[i..] ==> m'.bytes[y] == m.bytes[y])
    decreases |bs| - i
  {
    var os := Offsets(f, a, |bs|);
    OffsetsIn(f, m, a, |bs|);
    if i < |bs| {
      var m1 := Put(m, os[i], bs[i]);
      WriteSplitFacts(f, m1, a, i + 1, bs);
      OffsetsDistinct(f, a, |bs|);
      var m' := WriteSplit(f, m1, a, i + 1, bs);
      assert os[i] !in os[i + 1..];
      forall y | 0 <= y < |m.bytes| && y !in os[i..]
        ensures m'.bytes[y] == m.bytes[y]
      {
        assert y != os[i] && y !in os[i + 1..];
      }
    }
  }

  /** The bytes an access at handler address `a` stores: one host write of
      Size(w) bytes at the first offset when aligned, the split path
      otherwise. */
  function WriteBytes(f: Layout, m: Mem, w: Width, a: nat, val: bv32): (m': Mem)
    requires Fits(f, m) && a < m.wrap
    ensures Fits(f, m') && m'.wrap == m.wrap
    ensures var os := Offsets(f, a, Size(w));
      (forall i :: 0 <= i < Size(w) ==> os[i] < |m'.bytes| && m'.bytes[os[i]] == ByteOf(val, i))
      && (forall y :: 0 <= y < |m.bytes| && y !in os ==> m'.bytes[y] == m.bytes[y])
  {
    var n := Size(w);
    var bs := Bytes(val, w);
    OffsetsIn(f, m, a, n);
    if Aligned(w, a) then
      var o := Offset(f, a);
      AlignedStore(f, m, w, a, bs);
      m.(bytes := m.bytes[..o] + bs + m.bytes[o + n..])
    else
      WriteSplitFacts(f, m, a, 0, bs);
      assert Offsets(f, a, n)[0..] == Offsets(f, a, n);
      WriteSplit(f, m, a, 0, bs)
  }

  /** The one host write of an aligned access: its Size(w) bytes replace
      the run at the first offset, which is exactly the access's offsets. */
  lemma AlignedStore(f: Layout, m: Mem, w: Width, a: nat, bs: seq<bv8>)
    requires Fits(f, m) && a < m.wrap && Aligned(w, a) && |bs| == Size(w)
    ensures var o, n := Offset(f, a), Size(w);
      o + n <= |m.bytes|
      && var b' := m.bytes[..o] + bs + m.bytes[o + n..];
      var os := Offsets(f, a, n);
      |b'| == |m.bytes|
      && (forall i :: 0 <= i < n ==> os[i] < |b'| && b'[os[i]] == bs[i])
      && (forall y :: 0 <= y < |m.bytes| && y !in os ==> b'[y] == m.bytes[y])
  {
    var n := Size(w);
    var o := Offset(f, a);
    var os := Offsets(f, a, n);
    OffsetsIn(f, m, a, n);
    AlignedOffsets(f, w, a);
    assert os[n - 1] == o + n - 1;
    forall y | o <= y < o + n
      ensures y in os
    {
      assert os[y - o] == y;
    }
  }

  /** writeb / writew / writed: the window offset plus the write bank,
      wrapped by CHECKED, then the bytes of the value stored. */
  function Write(f: Layout, m: Mem, r: Regs, w: Width, addr: Addr, val: bv32): (m': Mem)
    requires Fits(f, m) && IsLowMask(r.pagesMask)
    ensures Fits(f, m') && m'.wrap == m.wrap
  {
    WriteBytes(f, m, w, Checked(m, Window(r, addr, r.bankWriteFull)), val)
  }

  // ---------------------------------------------------------------------------
  // Properties

  /** The one host write of an aligned access stores the same bytes as the
      byte-by-byte path would. */
  lemma DirectIsSplit(f: Layout, m: Mem, w: Width, a: nat, val: bv32)
    requires Fits(f, m) && a < m.wrap
    ensures WriteBytes(f, m, w, a, val) == WriteSplit(f, m, a, 0, Bytes(val, w))
  {
    var bs := Bytes(val, w);
    var os := Offsets(f, a, Size(w));
    var m1 := WriteBytes(f, m, w, a, val);
    var m2 := WriteSplit(f, m, a, 0, bs);
    WriteSplitFacts(f, m, a, 0, bs);
    assert os[0..] == os;
    forall y | 0 <= y < |m.bytes|
      ensures m1.bytes[y] == m2.bytes[y]
    {
      if y in os {
        var i :| 0 <= i < |os| && os[i] == y;
        assert m1.bytes[os[i]] == ByteOf(val, i) == bs[i];
      }
    }
    assert m1.bytes == m2.bytes;
  }

  /** A write followed by a read of the same width at the same handler
      address returns the value written, cut to the width. */
  lemma WriteReadBytes(f: Layout, m: Mem, w: Width, a: nat, val: bv32)
    requires Fits(f, m) && a < m.wrap
    ensures ReadBytes(f, WriteBytes(f, m, w, a, val), w, a) == Bytes(val, w)
  {
  }

  /** With the read and write banks equal, Read after Write at the same
      address and width returns the value written, cut to the width. */
  lemma RoundTrip(f: Layout, m: Mem, r: Regs, w: Width, addr: Addr, val: bv32)
    requires Fits(f, m) && IsLowMask(r.pagesMask) && r.bankReadFull == r.bankWriteFull
    ensures Read(f, Write(f, m, r, w, addr, val), r, w, addr) == Truncate(val, w)
  {
    var a := Checked(m, Window(r, addr, r.bankWriteFull));
    var m' := Write(f, m, r, w, addr, val);
    assert Checked(m', Window(r, addr, r.bankReadFull)) == a;
    WriteReadBytes(f, m, w, a, val);
    AssembleBytes(Bytes(val, w), val, w);
  }

  /** A write leaves every byte outside its own offsets as it was, so a
      read of a byte the write did not cover sees the old value. */
  lemma WriteElsewhere(f: Layout, m: Mem, w: Width, a: nat, val: bv32, b: nat)
    requires Fits(f, m) && a < m.wrap && b < m.wrap
    requires Offset(f, b) !in Offsets(f, a, Size(w))
    ensures ReadBytes(f, WriteBytes(f, m, w, a, val), Byte, b) == ReadBytes(f, m, Byte, b)
  {
  }

  /** Under plain writes the slow ET4000 handler stores the byte where the
      fast one does, and both read it from the same place. */
  lemma Et4000SlowIsFast(s: Vga, r: Regs, a: nat, val: bv8)
    requires Valid(s.mem) && a < s.mem.wrap && PlainWrites(r.cfg)
    ensures Et4000SlowWrite(s, r, a, val).mem == WriteBytes(Et4000, s.mem, Byte, a, val as bv32)
    ensures ReadBytes(Et4000, s.mem, Byte, a) == [Et4000SlowRead(s, a).1]
  {
    Et4000SlowPlain(s, r, a, val);
    var m1 := Et4000SlowWrite(s, r, a, val).mem;
    var m2 := WriteBytes(Et4000, s.mem, Byte, a, val as bv32);
    assert Offsets(Et4000, a, 1) == [a];
    assert ByteOf(val as bv32, 0) == val;
    assert m1.bytes == m2.bytes;
  }

  /** Under plain writes the slow chain-4 handler (with the chain-4 offset)
      stores the byte where the fast one does, and both read it from the
      same place. */
  lemma ChainedSlowIsFast(s: Vga, r: Regs, a: nat, val: bv8)
    requires Valid(s.mem) && s.mem.wrap >= 0x40000 && a < s.mem.wrap && PlainWrites(r.cfg)
    ensures ChainedSlowWrite(s, r, a, val).mem == WriteBytes(ChainFour, s.mem, Byte, a, val as bv32)
    ensures ReadBytes(ChainFour, s.mem, Byte, a) == [ChainedSlowRead(s, a).1]
  {
    ChainedSlowPlain(s, r, a, val);
    var m1 := ChainedSlowWrite(s, r, a, val).mem;
    var m2 := WriteBytes(ChainFour, s.mem, Byte, a, val as bv32);
    assert Offsets(ChainFour, a, 1) == [ChainedOffset(a)];
    assert ByteOf(val as bv32, 0) == val;
    assert m1.bytes == m2.bytes;
  }
}

=== FILE: handlers.dfy ===
/** The byte, word and dword entry points (readb/readw/readd, writeb/writew/
    writed) of the handlers that split every access into byte accesses: the
    CPU address is masked to the window, the bank is added, the result is
    wrapped to video memory, and the handler's byte routine runs on each of
    the access's bytes in ascending order. */
module Handlers {
  import opened Bits
  import opened Vram
  import opened Raster
  import opened Planar
  import opened Chained

  /** Which page handler serves the window. */
  datatype Kind =
    | ChainedEga      // VGA_ChainedEGA_Handler
    | UnchainedEga    // VGA_UnchainedEGA_Handler
    | UnchainedVga    // VGA_UnchainedVGA_Handler
    | Lin4            // VGA_LIN4_Handler
    | ChainedSlow     // VGA_ChainedVGA_Slow_Handler, with the corrected offset of ChainedSlowRead
    | Et4000Slow      // VGA_ET4000_ChainedVGA_Slow_Handler

  /** Handlers whose address is a planar (dword) offset, wrapped by CHECKED2. */
  predicate PlanarAddr(k: Kind) {
    k == UnchainedEga || k == UnchainedVga || k == Lin4
  }

  /** What each handler needs of the adapter: video memory in shape, and the
      256 KB a chain-4 offset can reach for the generic chain-4 handler. */
  predicate Fits(k: Kind, m: Mem) {
    Valid(m) && (k == ChainedSlow ==> m.wrap >= 0x40000)
  }

  /** The handler address of a CPU access. */
  function HandlerAddr(k: Kind, m: Mem, r: Regs, addr: Addr, bank: Addr): (a: nat)
    requires Valid(m) && IsLowMask(r.pagesMask)
    ensures PlanarAddr(k) ==> a < m.wrap / 4 && 4 * a + 4 <= m.wrap
    ensures !PlanarAddr(k) ==> a < m.wrap
  {
    if k == Lin4 then Checked2(m, Lin4Window(addr, bank))
    else if PlanarAddr(k) then Checked2(m, Window(r, addr, bank))
    else Checked(m, Window(r, addr, bank))
  }

  /** Where a handler's byte routine may be called: up to three bytes past
      the largest handler address, which the slack past the end of video
      memory covers. */
  predicate ByteIn(k: Kind, m: Mem, x: nat) {
    BytesBelow(k, m, x + 1)
  }

  /** Every byte below `end` is one the byte routine may be called on (the
      bound is monotone, so the last byte decides). */
  predicate BytesBelow(k: Kind, m: Mem, end: nat) {
    Fits(k, m) && end <= m.wrap + 3 && (PlanarAddr(k) ==> 4 * end < m.wrap + 16)
  }

  /** Every byte of an access at a handler address is one its byte routine
      may be called on. */
  lemma ByteInAccess(k: Kind, m: Mem, r: Regs, addr: Addr, bank: Addr)
    requires Fits(k, m) && IsLowMask(r.pagesMask)
    ensures var a := HandlerAddr(k, m, r, addr, bank);
      BytesBelow(k, m, a + 4)
  {
  }

  /** The byte a read at handler address x returns, in terms of the video
      memory it comes from: the byte itself for chained EGA and the ET4000
      chain-4 layout, the chain-4 byte for the generic chain-4 layout, and for
      the planar handlers the selected plane of the dword (read mode 0) or
      the colour compare of its four planes (read mode 1). */
  function ByteValue(k: Kind, m: Mem, r: Regs, x: nat): bv8
    requires ByteIn(k, m, x)
  {
    if k == ChainedEga || k == Et4000Slow then m.bytes[x]
    else if k == ChainedSlow then m.bytes[ChainedOffset(x)]
    else if r.cfg.readMode == 0 then m.bytes[4 * MemStart(r, x) + ReadPlane(r, x)]
    else if r.cfg.readMode == 1 then ColorCompare(r.cfg, GetDword(m, MemStart(r, x)))
    else 0
  }

  /** The byte routine behind readHandler / readHandler8. The byte it
      returns depends on video memory alone, never on the latch it may
      replace. */
  function ReadByte(k: Kind, s: Vga, r: Regs, x: nat): (res: (Vga, bv8))
    requires ByteIn(k, s.mem, x)
    ensures res.0.mem == s.mem
    ensures k == ChainedEga ==> res == (s, s.mem.bytes[x])
    ensures res.1 == ByteValue(k, s.mem, r, x)
  {
    match k
    case ChainedEga => (s, s.mem.bytes[x])
    case UnchainedEga => UnchainedRead(s, r, x)
    case UnchainedVga => UnchainedRead(s, r, x)
    case Lin4 => UnchainedRead(s, r, x)
    case ChainedSlow => ChainedSlowRead(s, x)
    case Et4000Slow => Et4000SlowRead(s, x)
  }

  /** The byte routine behind writeHandler / writeHandler8. */
  function WriteByte(k: Kind, s: Vga, r: Regs, x: nat, val: bv8): (t: Vga)
    requires ByteIn(k, s.mem, x)
    ensures Fits(k, t.mem) && t.latch == s.latch && t.mem.wrap == s.mem.wrap
  {
    match k
    case ChainedEga => ChainedEgaWrite(s, x, val)
    case UnchainedEga => UnchainedEgaWrite(s, r, x, val)
    case UnchainedVga => UnchainedVgaWrite(s, r, x, val)
    case Lin4 => UnchainedEgaWrite(s, r, x, val)
    case ChainedSlow => ChainedSlowWrite(s, r, x, val)
    case Et4000Slow => Et4000SlowWrite(s, r, x, val)
  }

  /** Bytes i .. n-1 of an access at handler address a, read in ascending
      order; each read may reload the latch. */
  function ReadFrom(k: Kind, s: Vga, r: Regs, a: nat, i: nat, n: nat): (res: (Vga, seq<bv8>))
    requires BytesBelow(k, s.mem, a + n)
    requires i <= n
    ensures res.0.mem == s.mem && |res.1| == n - i
    ensures ReadsAs(k, s.mem, r, a + i, res.1)
    decreases n - i
  {
    if i == n then (s, [])
    else
      var first := ReadByte(k, s, r, a + i);
      var rest := ReadFrom(k, first.0, r, a, i + 1, n);
      ReadsAsCons(k, s.mem, r, a + i, first.1, rest.1);
      (rest.0, [first.1] + rest.1)
  }

  /** Bytes i .. |bs|-1 of `bs` written at handler addresses a+i .. in
      ascending order. */
  function WriteFrom(k: Kind, s: Vga, r: Regs, a: nat, i: nat, bs: seq<bv8>): (t: Vga)
    requires BytesBelow(k, s.mem, a + |bs|)
    requires i <= |bs|
    ensures Fits(k, t.mem) && t.latch == s.latch && t.mem.wrap == s.mem.wrap
    decreases |bs| - i
  {
    if i == |bs| then s
    else
      var s1 := WriteByte(k, s, r, a + i, bs[i]);
      WriteFrom(k, s1, r, a, i + 1, bs)
  }

  /** readb / readw / readd. */
  function Read(k: Kind, s: Vga, r: Regs, w: Width, addr: Addr): (res: (Vga, bv32))
    requires Fits(k, s.mem) && IsLowMask(r.pagesMask)
    ensures res.0.mem == s.mem
  {
    var a := HandlerAddr(k, s.mem, r, addr, r.bankReadFull);
    ByteInAccess(k, s.mem, r, addr, r.bankReadFull);
    var bs := ReadFrom(k, s, r, a, 0, Size(w));
    (bs.0, Assemble(bs.1))
  }

  /** writeb / writew / writed. */
  function Write(k: Kind, s: Vga, r: Regs, w: Width, addr: Addr, val: bv32): (t: Vga)
    requires Fits(k, s.mem) && IsLowMask(r.pagesMask)
    ensures Fits(k, t.mem) && t.latch == s.latch
  {
    var a := HandlerAddr(k, s.mem, r, addr, r.bankWriteFull);
    ByteInAccess(k, s.mem, r, addr, r.bankWriteFull);
    WriteFrom(k, s, r, a, 0, Bytes(val, w))
  }

  // ---------------------------------------------------------------------------
  // Properties of the entry points

  /** The bytes `vs` are what single-byte reads at `base`, `base + 1`, ...
      of video memory `m` return. */
  predicate ReadsAs(k: Kind, m: Mem, r: Regs, base: nat, vs: seq<bv8>) {
    BytesBelow(k, m, base + |vs|)
    && forall x :: base <= x < base + |vs| ==> vs[x - base] == ByteValue(k, m, r, x)
  }

  /** Prepends the byte at `base` to a run read from `base + 1` on. */
  lemma ReadsAsCons(k: Kind, m: Mem, r: Regs, base: nat, b: bv8, vs: seq<bv8>)
    requires ByteIn(k, m, base) && b == ByteValue(k, m, r, base)
    requires ReadsAs(k, m, r, base + 1, vs)
    ensures ReadsAs(k, m, r, base, [b] + vs)
  {
    var bs := [b] + vs;
    forall x | base < x < base + |bs|
      ensures bs[x - base] == ByteValue(k, m, r, x)
    {
      assert bs[x - base] == vs[x - (base + 1)];
    }
  }

  /** readb / readw / readd return the little-endian assembly of the bytes at
      consecutive handler addresses, and change no video memory. */
  lemma ReadValue(k: Kind, s: Vga, r: Regs, w: Width, addr: Addr)
    requires Fits(k, s.mem) && IsLowMask(r.pagesMask)
    ensures var res := Read(k, s, r, w, addr);
      res.0.mem == s.mem
      && ReadsAs(k, s.mem, r, HandlerAddr(k, s.mem, r, addr, r.bankReadFull), Bytes(res.1, w))
  {
    var a := HandlerAddr(k, s.mem, r, addr, r.bankReadFull);
    ByteInAccess(k, s.mem, r, addr, r.bankReadFull);
    var got := ReadFrom(k, s, r, a, 0, Size(w)).1;
    var v := Assemble(got);
    assert Read(k, s, r, w, addr).1 == v;
    assert Bytes(v, w) == got;
  }

  /** Bytes a+i .. a+|bs|-1 of `m` hold bytes i .. of `bs`. */
  predicate ByteRun(m: seq<bv8>, a: nat, i: nat, bs: seq<bv8>) {
    a + |bs| <= |m| && forall x :: a + i <= x < a + |bs| ==> m[x] == bs[x - a]
  }

  /** Chained EGA stores the bytes verbatim at consecutive offsets and
      touches nothing else. */
  lemma {:induction false} ChainedEgaWriteFrom(s: Vga, r: Regs, a: nat, i: nat, bs: seq<bv8>)
    requires BytesBelow(ChainedEga, s.mem, a + |bs|)
    requires i <= |bs|
    ensures var t := WriteFrom(ChainedEga, s, r, a, i, bs);
      ByteRun(t.mem.bytes, a, i, bs) && SameOutside(s.mem.bytes, t.mem.bytes, a + i, a + |bs|)
    decreases |bs| - i
  {
    if i < |bs| {
      var s1 := WriteByte(ChainedEga, s, r, a + i, bs[i]);
      var t := WriteFrom(ChainedEga, s1, r, a, i + 1, bs);
      assert s1.mem.bytes[a + i] == bs[i];
      assert SameOutside(s.mem.bytes, s1.mem.bytes, a + i, a + i + 1);
      ChainedEgaWriteFrom(s1, r, a, i + 1, bs);
      KeptBelow(s1.mem.bytes, t.mem.bytes, a + i + 1, a + |bs|, a + i);
      ByteRunCons(t.mem.bytes, a, i, bs);
      SameOutsideJoin(s.mem.bytes, s1.mem.bytes, t.mem.bytes, a + i, a + i + 1, a + |bs|);
      assert t == WriteFrom(ChainedEga, s, r, a, i, bs);
    }
  }

  /** Extends a run of bytes by its first element. */
  lemma ByteRunCons(m: seq<bv8>, a: nat, i: nat, bs: seq<bv8>)
    requires i < |bs| && ByteRun(m, a, i + 1, bs)
    requires m[a + i] == bs[i]
    ensures ByteRun(m, a, i, bs)
  {
  }

  /** Whatever the write mode, a chained EGA write followed by a read of the
      same width at the same address (read and write banks equal) returns the
      value written, cut to the width. */
  lemma ChainedEgaRoundTrip(s: Vga, r: Regs, w: Width, addr: Addr, val: bv32)
    requires Fits(ChainedEga, s.mem) && IsLowMask(r.pagesMask) && r.bankReadFull == r.bankWriteFull
    ensures Read(ChainedEga, Write(ChainedEga, s, r, w, addr, val), r, w, addr).1 == Truncate(val, w)
  {
    var t := Write(ChainedEga, s, r, w, addr, val);
    ChainedEgaWritten(s, r, w, addr, val);
    HandlerAddrWrap(ChainedEga, s.mem, t.mem, r, addr, r.bankWriteFull);
    ChainedEgaReadBack(t, r, w, addr, val);
  }

  /** The write half of the chained EGA round trip. */
  lemma ChainedEgaWritten(s: Vga, r: Regs, w: Width, addr: Addr, val: bv32)
    requires Fits(ChainedEga, s.mem) && IsLowMask(r.pagesMask)
    ensures var t := Write(ChainedEga, s, r, w, addr, val);
      Fits(ChainedEga, t.mem) && t.mem.wrap == s.mem.wrap
      && ByteRun(t.mem.bytes, HandlerAddr(ChainedEga, s.mem, r, addr, r.bankWriteFull), 0, Bytes(val, w))
  {
    var bs := Bytes(val, w);
    var a := HandlerAddr(ChainedEga, s.mem, r, addr, r.bankWriteFull);
    ByteInAccess(ChainedEga, s.mem, r, addr, r.bankWriteFull);
    assert WriteFrom(ChainedEga, s, r, a, 0, bs) == Write(ChainedEga, s, r, w, addr, val);
    ChainedEgaWriteFrom(s, r, a, 0, bs);
  }

  /** The read half of the chained EGA round trip. */
  lemma ChainedEgaReadBack(t: Vga, r: Regs, w: Width, addr: Addr, val: bv32)
    requires Fits(ChainedEga, t.mem) && IsLowMask(r.pagesMask)
    requires ByteRun(t.mem.bytes, HandlerAddr(ChainedEga, t.mem, r, addr, r.bankReadFull), 0, Bytes(val, w))
    ensures Read(ChainedEga, t, r, w, addr).1 == Truncate(val, w)
  {
    var k := ChainedEga;
    var n := Size(w);
    var a := HandlerAddr(k, t.mem, r, addr, r.bankReadFull);
    ByteInAccess(k, t.mem, r, addr, r.bankReadFull);
    var got := ReadFrom(k, t, r, a, 0, n).1;
    assert Read(k, t, r, w, addr).1 == Assemble(got);
    ChainedReadsRun(t.mem, r, a, got, Bytes(val, w));
    AssembleBytes(got, val, w);
  }

  /** Chained EGA reads of a run of stored bytes return that run. */
  lemma ChainedReadsRun(m: Mem, r: Regs, a: nat, got: seq<bv8>, bs: seq<bv8>)
    requires |got| == |bs|
    requires ReadsAs(ChainedEga, m, r, a, got) && ByteRun(m.bytes, a, 0, bs)
    ensures got == bs
  {
    forall j | 0 <= j < |got|
      ensures got[j] == bs[j]
    {
      var x := a + j;
      assert got[x - a] == ByteValue(ChainedEga, m, r, x) == m.bytes[x];
      assert m.bytes[x] == bs[x - a];
    }
  }

  /** The handler address depends on video memory only through its size. */
  lemma HandlerAddrWrap(k: Kind, m: Mem, m': Mem, r: Regs, addr: Addr, bank: Addr)
    requires Fits(k, m) && Fits(k, m') && m.wrap == m'.wrap && IsLowMask(r.pagesMask)
    ensures HandlerAddr(k, m, r, addr, bank) == HandlerAddr(k, m', r, addr, bank)
  {
  }

  /** The register state of a plain planar write that stores into every
      plane and reads back through read mode 0 without odd/even addressing. */
  predicate PlainPlanar(r: Regs) {
    PlainWrites(r.cfg) && MapMaskDerived(r) && r.mapMask == 0xF
    && r.cfg.readMode == 0 && !ChainOddEven(r)
  }

  lemma FullMerge(prev: Latch, data: Latch)
    ensures MergeLanes(prev, data, NotLanes(Fill(0xF)), Fill(0xF)) == data
  {
    var m := MergeLanes(prev, data, NotLanes(Fill(0xF)), Fill(0xF));
    forall k: Plane
      ensures Lane(m, k) == Lane(data, k)
    {
      assert NibbleBit(0xF, k);
      MergeByteEnabled(Lane(prev, k), Lane(data, k), true);
    }
    LaneExt(m, data);
  }

  /** A plain byte write through the unchained EGA handler puts the byte
      into all four planes of its dword and changes nothing else. */
  lemma PlainPlanarByte(s: Vga, r: Regs, x: nat, b: bv8)
    requires PlainPlanar(r) && ByteIn(UnchainedEga, s.mem, x)
    ensures WriteByte(UnchainedEga, s, r, x, b) == Vga(PutDword(s.mem, x, Expand(b)), s.latch)
  {
    PlainModeOperation(r.cfg, s.latch, b);
    FullMerge(GetDword(s.mem, x), Expand(b));
  }

  /** Bytes i .. of `bs` stored into all four planes of the dwords a+i ..,
      in ascending order. */
  function FillPlanes(m: Mem, a: nat, i: nat, bs: seq<bv8>): (r: Mem)
    requires i <= |bs| && 4 * (a + |bs|) <= |m.bytes|
    ensures r.wrap == m.wrap && SameOutside(m.bytes, r.bytes, 4 * (a + i), 4 * (a + |bs|))
    decreases |bs| - i
  {
    if i == |bs| then m
    else FillPlanes(PutDword(m, a + i, Expand(bs[i])), a, i + 1, bs)
  }

  /** A plain unchained write of several bytes fills their dwords' planes. */
  lemma {:induction false} PlainPlanarWriteFrom(s: Vga, r: Regs, a: nat, i: nat, bs: seq<bv8>)
    requires PlainPlanar(r) && BytesBelow(UnchainedEga, s.mem, a + |bs|)
    requires i <= |bs|
    ensures WriteFrom(UnchainedEga, s, r, a, i, bs) == Vga(FillPlanes(s.mem, a, i, bs), s.latch)
    decreases |bs| - i
  {
    if i < |bs| {
      var s1 := WriteByte(UnchainedEga, s, r, a + i, bs[i]);
      PlainPlanarByte(s, r, a + i, bs[i]);
      PlainPlanarWriteFrom(s1, r, a, i + 1, bs);
    }
  }

  /** Plane p of every filled dword holds its byte. */
  lemma {:induction false} FillPlanesRun(m: Mem, a: nat, i: nat, bs: seq<bv8>, p: Plane)
    requires i <= |bs| && 4 * (a + |bs|) <= |m.bytes|
    ensures PlaneRun(FillPlanes(m, a, i, bs).bytes, a, i, bs, p)
    decreases |bs| - i
  {
    if i < |bs| {
      var m1 := PutDword(m, a + i, Expand(bs[i]));
      var t := FillPlanes(m1, a, i + 1, bs);
      FillPlanesRun(m1, a, i + 1, bs, p);
      assert m1.bytes[4 * (a + i) + p] == bs[i];
      PlaneRunStep(m1.bytes, t.bytes, a, i, bs, p);
    }
  }

  /** `m'` agrees with `m` outside the bytes lo .. hi-1. */
  predicate SameOutside(m: seq<bv8>, m': seq<bv8>, lo: nat, hi: nat) {
    |m'| == |m| && forall y :: 0 <= y < |m| && !(lo <= y < hi) ==> m'[y] == m[y]
  }

  /** An unchained EGA write of several bytes touches only their dwords. */
  lemma {:induction false} UnchainedWriteFromFrame(s: Vga, r: Regs, a: nat, i: nat, bs: seq<bv8>)
    requires BytesBelow(UnchainedEga, s.mem, a + |bs|)
    requires i <= |bs|
    ensures SameOutside(s.mem.bytes, WriteFrom(UnchainedEga, s, r, a, i, bs).mem.bytes, 4 * (a + i), 4 * (a + |bs|))
    decreases |bs| - i
  {
    if i < |bs| {
      var s1 := WriteByte(UnchainedEga, s, r, a + i, bs[i]);
      assert SameOutside(s.mem.bytes, s1.mem.bytes, 4 * (a + i), 4 * (a + i + 1));
      UnchainedWriteFromFrame(s1, r, a, i + 1, bs);
      var t := WriteFrom(UnchainedEga, s1, r, a, i + 1, bs);
      assert t == WriteFrom(UnchainedEga, s, r, a, i, bs);
      SameOutsideJoin(s.mem.bytes, s1.mem.bytes, t.mem.bytes, 4 * (a + i), 4 * (a + i + 1), 4 * (a + |bs|));
    }
  }

  /** Two changes to adjacent ranges make one change to their union. */
  lemma SameOutsideJoin(m0: seq<bv8>, m1: seq<bv8>, m2: seq<bv8>, lo: nat, mid: nat, hi: nat)
    requires lo <= mid <= hi && SameOutside(m0, m1, lo, mid) && SameOutside(m1, m2, mid, hi)
    ensures SameOutside(m0, m2, lo, hi)
  {
  }

  /** A byte stored in plane p of dword a+i survives the writes of the
      dwords above it and extends their run. */
  lemma PlaneRunStep(m1: seq<bv8>, m2: seq<bv8>, a: nat, i: nat, bs: seq<bv8>, p: Plane)
    requires i < |bs| && 4 * (a + i) + p < |m1| && m1[4 * (a + i) + p] == bs[i]
    requires SameOutside(m1, m2, 4 * (a + i + 1), 4 * (a + |bs|)) && PlaneRun(m2, a, i + 1, bs, p)
    ensures PlaneRun(m2, a, i, bs, p)
  {
    KeptBelow(m1, m2, 4 * (a + i + 1), 4 * (a + |bs|), 4 * (a + i) + p);
    PlaneRunCons(m2, a, i, bs, p);
  }

  lemma KeptBelow(m: seq<bv8>, m': seq<bv8>, lo: nat, hi: nat, y: nat)
    requires SameOutside(m, m', lo, hi) && y < lo && y < |m|
    ensures m'[y] == m[y]
  {
  }

  /** Plane p of the dwords a+i .. a+|bs|-1 of `m` holds bytes i .. of `bs`. */
  predicate PlaneRun(m: seq<bv8>, a: nat, i: nat, bs: seq<bv8>, p: Plane) {
    4 * (a + |bs|) <= |m| && forall j :: i <= j < |bs| ==> m[4 * (a + j) + p] == bs[j]
  }

  /** Extends a run of plane-p bytes by its first element. */
  lemma PlaneRunCons(m: seq<bv8>, a: nat, i: nat, bs: seq<bv8>, p: Plane)
    requires i < |bs| && PlaneRun(m, a, i + 1, bs, p)
    requires m[4 * (a + i) + p] == bs[i]
    ensures PlaneRun(m, a, i, bs, p)
  {
  }

  /** A plain planar read returns the byte of the read map select plane. */
  lemma PlainReadValue(m: Mem, r: Regs, x: nat)
    requires PlainPlanar(r) && ByteIn(UnchainedEga, m, x)
    ensures ByteValue(UnchainedEga, m, r, x) == m.bytes[4 * x + r.cfg.readMapSelect]
  {
  }

  /** With plain writes into all four planes, an unchained EGA write followed
      by a read of the same width at the same address (read and write banks
      equal) returns the value written, cut to the width. */
  lemma PlainPlanarRoundTrip(s: Vga, r: Regs, w: Width, addr: Addr, val: bv32)
    requires PlainPlanar(r) && Fits(UnchainedEga, s.mem) && IsLowMask(r.pagesMask) && r.bankReadFull == r.bankWriteFull
    ensures Read(UnchainedEga, Write(UnchainedEga, s, r, w, addr, val), r, w, addr).1 == Truncate(val, w)
  {
    var t := Write(UnchainedEga, s, r, w, addr, val);
    PlainPlanarWritten(s, r, w, addr, val);
    HandlerAddrWrap(UnchainedEga, s.mem, t.mem, r, addr, r.bankWriteFull);
    PlainPlanarReadBack(t, r, w, addr, val);
  }

  /** The write half of the round trip: plane readMapSelect of the dwords
      at the handler address holds the bytes of the value. */
  lemma PlainPlanarWritten(s: Vga, r: Regs, w: Width, addr: Addr, val: bv32)
    requires PlainPlanar(r) && Fits(UnchainedEga, s.mem) && IsLowMask(r.pagesMask)
    ensures var t := Write(UnchainedEga, s, r, w, addr, val);
      var a := HandlerAddr(UnchainedEga, s.mem, r, addr, r.bankWriteFull);
      Fits(UnchainedEga, t.mem) && t.mem.wrap == s.mem.wrap
      && PlaneRun(t.mem.bytes, a, 0, Bytes(val, w), r.cfg.readMapSelect)
  {
    var bs := Bytes(val, w);
    var a := HandlerAddr(UnchainedEga, s.mem, r, addr, r.bankWriteFull);
    ByteInAccess(UnchainedEga, s.mem, r, addr, r.bankWriteFull);
    assert WriteFrom(UnchainedEga, s, r, a, 0, bs) == Write(UnchainedEga, s, r, w, addr, val);
    PlainPlanarWriteFrom(s, r, a, 0, bs);
    FillPlanesRun(s.mem, a, 0, bs, r.cfg.readMapSelect);
  }

  /** The read half of the round trip. */
  lemma PlainPlanarReadBack(t: Vga, r: Regs, w: Width, addr: Addr, val: bv32)
    requires PlainPlanar(r) && Fits(UnchainedEga, t.mem) && IsLowMask(r.pagesMask)
    requires PlaneRun(t.mem.bytes, HandlerAddr(UnchainedEga, t.mem, r, addr, r.bankReadFull), 0, Bytes(val, w), r.cfg.readMapSelect)
    ensures Read(UnchainedEga, t, r, w, addr).1 == Truncate(val, w)
  {
    var k := UnchainedEga;
    var n := Size(w);
    var a := HandlerAddr(k, t.mem, r, addr, r.bankReadFull);
    ByteInAccess(k, t.mem, r, addr, r.bankReadFull);
    var got := ReadFrom(k, t, r, a, 0, n).1;
    assert Read(k, t, r, w, addr).1 == Assemble(got);
    PlainReadsRun(t.mem, r, a, got, Bytes(val, w));
    AssembleBytes(got, val, w);
  }

  /** Plain planar reads of a run of bytes stored in the read map select
      plane return that run. */
  lemma PlainReadsRun(m: Mem, r: Regs, a: nat, got: seq<bv8>, bs: seq<bv8>)
    requires PlainPlanar(r) && |got| == |bs|
    requires ReadsAs(UnchainedEga, m, r, a, got) && PlaneRun(m.bytes, a, 0, bs, r.cfg.readMapSelect)
    ensures got == bs
  {
    forall j | 0 <= j < |got|
      ensures got[j] == bs[j]
    {
      assert a + j - a == j;
      PlainReadValue(m, r, a + j);
    }
  }

  /** The latch copy of write mode 1: a byte read loads the latch from the
      source dword, and a byte write in write mode 1 with every plane enabled
      stores the latch, so the destination dword becomes a copy of the source
      dword in all four planes, whatever byte the CPU writes. */
  lemma LatchCopy(s: Vga, r: Regs, src: Addr, dst: Addr, val: bv32)
    requires Fits(UnchainedEga, s.mem) && IsLowMask(r.pagesMask)
    requires r.cfg.writeMode == 1 && MapMaskDerived(r) && r.mapMask == 0xF && !ChainOddEven(r)
    ensures var a := HandlerAddr(UnchainedEga, s.mem, r, src, r.bankReadFull);
      var b := HandlerAddr(UnchainedEga, s.mem, r, dst, r.bankWriteFull);
      var s1 := Read(UnchainedEga, s, r, Byte, src).0;
      var s2 := Write(UnchainedEga, s1, r, Byte, dst, val);
      GetDword(s2.mem, b) == GetDword(s.mem, a)
  {
    var a := HandlerAddr(UnchainedEga, s.mem, r, src, r.bankReadFull);
    var b := HandlerAddr(UnchainedEga, s.mem, r, dst, r.bankWriteFull);
    ByteInAccess(UnchainedEga, s.mem, r, src, r.bankReadFull);
    var s1 := Read(UnchainedEga, s, r, Byte, src).0;
    assert s1 == ReadByte(UnchainedEga, s, r, a).0;
    assert s1.latch == GetDword(s.mem, a);
    ByteInAccess(UnchainedEga, s1.mem, r, dst, r.bankWriteFull);
    var bs := Bytes(val, Byte);
    var s2 := WriteFrom(UnchainedEga, s1, r, b, 0, bs);
    assert s2 == Write(UnchainedEga, s1, r, Byte, dst, val);
    var s3 := WriteByte(UnchainedEga, s1, r, b, bs[0]);
    assert s2 == WriteFrom(UnchainedEga, s3, r, b, 1, bs) == s3;
    assert s3 == UnchainedEgaWrite(s1, r, b, bs[0]);
    FullMerge(GetDword(s1.mem, b), s1.latch);
  }

  /** The LIN4 handler is the unchained EGA handler with a fixed 64 KB
      window: with the window mask at 0xFFFF the two agree on every access. */
  lemma Lin4IsUnchainedEga(m: Mem, r: Regs, addr: Addr, bank: Addr)
    requires Valid(m) && IsLowMask(r.pagesMask) && r.pagesMask == 0xFFFF
    ensures HandlerAddr(Lin4, m, r, addr, bank) == HandlerAddr(UnchainedEga, m, r, addr, bank)
  {
  }

  /** The LIN4 handler ignores the window mask of the handler selection. */
  lemma Lin4IgnoresWindow(m: Mem, r: Regs, r': Regs, addr: Addr, bank: Addr)
    requires Valid(m) && IsLowMask(r.pagesMask) && IsLowMask(r'.pagesMask)
    ensures HandlerAddr(Lin4, m, r, addr, bank) == HandlerAddr(Lin4, m, r', addr, bank)
  {
  }

  /** With 64 KB banks and the 64 KB window, bank n of a linear handler
      reaches video memory 64 KB * n onward: the handler address is the bank
      base plus the window offset, as long as that lies inside video memory. */
  lemma BankedWindow(k: Kind, m: Mem, r: Regs, addr: Addr, n: nat)
    requires Valid(m) && !PlanarAddr(k) && IsLowMask(r.pagesMask) && r.pagesMask == 0xFFFF
    requires 0x10000 * n + 0x10000 <= m.wrap
    ensures HandlerAddr(k, m, r, addr, 0x10000 * n) == 0x10000 * n + AndLow(addr, 0xFFFF)
  {
  }
}

=== FILE: pc98.dfy ===
/** The PC-98 page handler (`VGA_PC98_PageHandler`): the text RAM at
    A0000-A7FFF, the memory switches, and the graphics RAM at A8000-BFFFF and
    E0000-E7FFF with its four access modes: plain, GRCG tile read/write
    (modes 8 and 9), GRCG read-modify-write (modes C and D) and the EGC
    (modes A, B, E and F). */
module Pc98 {
  import opened Bits
  import opened EgcShifter
  import opened EgcRop
  import opened Pc98Vram

  /** `pc98_gdc_vramop` as the handler reads it: the low nibble selects the
      access mode, and the VOPBIT_ACCESS bit selects the upper bank of
      graphics memory (0x20000 bytes up). */
  datatype VramOp = VramOp(mode: bv4, access: bool)

  /** The EGC registers and latches (`pc98_egc_*`). */
  datatype Egc = Egc(
    access: bv16,      // plane write disable bits
    fgc: bv8,          // foreground/background colour select
    leadPlane: bv8,
    compareLead: bool,
    lightsource: bv8,
    shiftinput: bool,  // shifter input is CPU data (set) or VRAM data (clear)
    regload: bv8,
    rop: bv8,
    mask: Word,
    maskef: Word,      // the effective mask of the current write
    srcmask: Word,
    src: Quad,
    data: Quad,
    lastVram: Quad,
    bgcm: Quad,
    fgcm: Quad,
    regs: ShiftRegs,
    shifter: Shifter)

  /** The handler's state: graphics memory, the eight memory switch bytes,
      the mode registers, the GRCG tile registers (`pc98_gdc_tiles`, also the
      EGC pattern) and the EGC. */
  datatype State = State(mem: seq<bv8>, msw: seq<bv8>, vramop: VramOp, modereg: bv16, tiles: Quad, egc: Egc)

  predicate Valid(st: State) {
    |st.mem| >= Span && |st.msw| == 8 && Ok(st.egc.shifter)
  }

  /** The upper-bank offset of a graphics access. */
  function BankOffset(st: State): (o: nat)
    ensures o == 0 || o == 0x20000
  {
    if st.vramop.access then 0x20000 else 0
  }

  // ---------------------------------------------------------------------------
  // EGC

  /** A shifter pass: `input` of `vals` followed by `output` into the source
      latches at `odd`. */
  function Shift(e: Egc, vals: Quad, odd: Half, w: Awt): (r: Egc)
    requires Ok(e.shifter) && (w == U16 ==> odd == 0)
    ensures Ok(r.shifter)
    ensures r == e.(shifter := r.shifter, srcmask := r.srcmask, src := r.src)
    ensures w == U8 ==> Bytes(r.src, 1 - odd) == Bytes(e.src, 1 - odd)
  {
    var (sh, m) := Input(e.regs, e.shifter, vals, w, odd, e.srcmask);
    if w == U8 then
      var o := OutputByte(e.regs, sh, Bytes(e.src, odd), odd, m, false);
      e.(shifter := o.sh, srcmask := o.srcmask, src := SetBytes(e.src, odd, o.planes))
    else
      var o := OutputWord(e.regs, sh, e.src, m);
      e.(shifter := o.sh, srcmask := o.srcmask, src := o.planes)
  }

  /** The CPU data of a write as the EGC sees it: the word, or the byte in
      both halves. */
  function CpuWord(val: Word, w: Awt): Word {
    if w == U8 then Word(val.lo, val.lo) else val
  }

  /** The source step of light sources 1 and 2: a shifter pass of the CPU
      data when the shifter takes CPU data, then the effective mask and-ed
      with the source mask. */
  function SourcePass(e: Egc, val: Word, odd: Half, w: Awt): (r: Egc)
    requires Ok(e.shifter) && (w == U16 ==> odd == 0)
    ensures Ok(r.shifter)
    ensures r == e.(shifter := r.shifter, srcmask := r.srcmask, src := r.src, maskef := WAnd(e.maskef, r.srcmask))
    ensures !e.shiftinput ==> r.shifter == e.shifter && r.src == e.src && r.srcmask == e.srcmask
  {
    var e2 := if e.shiftinput then Shift(e, Broadcast(val), odd, w) else e;
    e2.(maskef := WAnd(e2.maskef, e2.srcmask))
  }

  /** egc_ope: the data a write stores, chosen by the light source. Source 1
      runs the raster operation (after a shifter pass when the shifter takes
      CPU data), source 2 the palette colour or the shifted source, and
      anything else the CPU data in every plane. The effective mask starts
      as the mask register and, for sources 1 and 2 past the palette cases,
      is and-ed with the source mask. */
  function EgcOpe(e: Egc, tiles: Quad, mem: seq<bv8>, vramoff: nat, val: Word, w: Awt): (r: (Egc, Quad))
    requires Ok(e.shifter) && (w == U16 ==> vramoff % 2 == 0)
    requires vramoff - vramoff % 2 + 4 * Stride + 2 <= |mem|
    ensures Ok(r.0.shifter) && r.0.regs == e.regs && r.0.lastVram == e.lastVram
    ensures e.lightsource != 1 && e.lightsource != 2 ==>
              r.0 == e.(maskef := e.mask, data := r.1) && forall k: Plane :: At(r.1, k) == CpuWord(val, w)
    ensures e.lightsource == 2 && e.fgc == 1 ==> r == (e.(maskef := e.mask), e.bgcm)
    ensures e.lightsource == 2 && e.fgc == 2 ==> r == (e.(maskef := e.mask), e.fgcm)
    ensures e.lightsource == 2 && e.fgc != 1 && e.fgc != 2 ==>
              r.1 == r.0.src && r.0.data == e.data && r.0.maskef == WAnd(e.mask, r.0.srcmask)
    ensures e.lightsource == 1 ==> r.0.maskef == WAnd(e.mask, r.0.srcmask)
    ensures e.lightsource == 1 && e.rop !in Table ==> r.1 == e.lastVram && r.0.data == e.data
    ensures (e.lightsource == 1 || e.lightsource == 2) && !e.shiftinput ==>
              r.0.shifter == e.shifter && r.0.src == e.src && r.0.srcmask == e.srcmask
  {
    var odd := vramoff % 2;
    var e1 := e.(maskef := e.mask);
    if e.lightsource == 1 || (e.lightsource == 2 && e.fgc != 1 && e.fgc != 2) then
      var e3 := SourcePass(e1, val, odd, w);
      if e.lightsource == 2 then (e3, e3.src)
      else
        var c := Sources(e3.fgc, e3.regload, e3.src, e3.bgcm, e3.fgcm, tiles, e3.lastVram);
        var res := Rop(c, e3.rop, PlanesAt(mem, vramoff - odd), e3.data);
        (e3.(data := res.1), res.0)
    else if e.lightsource == 2 then
      if e.fgc == 1 then (e1, e1.bgcm) else (e1, e1.fgcm)
    else
      var d := Broadcast(CpuWord(val, w));
      (e1.(data := d), d)
  }

  /** Light source 1 with an implemented raster operation: every bit of
      every plane's result is the operation's truth-table entry for the
      pattern, source and destination bits, where the source is the one
      after the shifter pass (the register itself without shifter input)
      and the destination is the planes at the even offset. */
  lemma EgcOpeRop(e: Egc, tiles: Quad, mem: seq<bv8>, vramoff: nat, val: Word, w: Awt, h: Half, k: Plane, j: bv8)
    requires Ok(e.shifter) && (w == U16 ==> vramoff % 2 == 0)
    requires vramoff - vramoff % 2 + 4 * Stride + 2 <= |mem|
    requires e.lightsource == 1 && e.rop in Table && j < 8
    ensures var dst := PlanesAt(mem, vramoff - vramoff % 2);
      var r := EgcOpe(e, tiles, mem, vramoff, val, w);
      var c := Sources(e.fgc, e.regload, r.0.src, e.bgcm, e.fgcm, tiles, e.lastVram);
      TruthAt(e.rop, r.1, Pattern(c), r.0.src, dst, h, k, j)
  {
    var r := EgcOpe(e, tiles, mem, vramoff, val, w);
    EgcOpeSourceOne(e, tiles, mem, vramoff, val, w);
    RopTruth(Sources(e.fgc, e.regload, r.0.src, e.bgcm, e.fgcm, tiles, e.lastVram), e.rop,
             PlanesAt(mem, vramoff - vramoff % 2), e.data, h, k, j);
  }

  /** Under light source 1 with an implemented code the result also becomes
      the EGC data, except under 0xF0, which leaves the data alone. */
  lemma EgcOpeRopData(e: Egc, tiles: Quad, mem: seq<bv8>, vramoff: nat, val: Word, w: Awt)
    requires Ok(e.shifter) && (w == U16 ==> vramoff % 2 == 0)
    requires vramoff - vramoff % 2 + 4 * Stride + 2 <= |mem|
    requires e.lightsource == 1 && e.rop in Table
    ensures var r := EgcOpe(e, tiles, mem, vramoff, val, w);
      r.0.data == if e.rop == 0xF0 then e.data else r.1
  {
    EgcOpeSourceOne(e, tiles, mem, vramoff, val, w);
  }

  /** Under light source 1 a write is the source pass followed by the raster
      op over the pattern, the passed source and the planes at the even
      offset. */
  lemma EgcOpeSourceOne(e: Egc, tiles: Quad, mem: seq<bv8>, vramoff: nat, val: Word, w: Awt)
    requires Ok(e.shifter) && (w == U16 ==> vramoff % 2 == 0)
    requires vramoff - vramoff % 2 + 4 * Stride + 2 <= |mem|
    requires e.lightsource == 1
    ensures var e3 := SourcePass(e.(maskef := e.mask), val, vramoff % 2, w);
      var c := Sources(e.fgc, e.regload, e3.src, e.bgcm, e.fgcm, tiles, e.lastVram);
      var res := Rop(c, e.rop, PlanesAt(mem, vramoff - vramoff % 2), e.data);
      EgcOpe(e, tiles, mem, vramoff, val, w) == (e3.(data := res.1), res.0)
    ensures var r := EgcOpe(e, tiles, mem, vramoff, val, w);
      var c := Sources(e.fgc, e.regload, r.0.src, e.bgcm, e.fgcm, tiles, e.lastVram);
      r.1 == Rop(c, e.rop, PlanesAt(mem, vramoff - vramoff % 2), e.data).0
  {
  }

  /** What an EGC read needs: a valid state, a plane offset inside the
      planes, a `fulloff` inside the buffer and an even offset for a word. */
  predicate EgcReadable(st: State, vramoff: nat, fulloff: nat, w: Awt) {
    Valid(st) && vramoff < 0x28000 && fulloff + Size(w) <= Span && (w == U16 ==> vramoff % 2 == 0)
  }

  /** modeEGC_r: every plane's AWT at the offset is latched as the last VRAM
      data; a shifter pass takes it when the shifter takes VRAM data;
      register load bit 0 copies it into the tile registers. The value read
      is the lead plane (from the shifted source, or straight from memory
      when the shifter takes CPU data) in compare-lead mode and the plain
      memory at `fulloff` otherwise. The shifted source is read at its first
      byte whatever the offset's parity, as the handler does. */
  function EgcRead(st: State, vramoff: nat, fulloff: nat, w: Awt): (r: (State, Word))
    requires EgcReadable(st, vramoff, fulloff, w)
    ensures Valid(r.0) && r.0.mem == st.mem && r.0.msw == st.msw
    ensures r.0.vramop == st.vramop && r.0.modereg == st.modereg
  {
    var odd := vramoff % 2;
    var e := st.egc;
    var last := Latched(e.lastVram, st.mem, vramoff, w);
    var e1 := e.(lastVram := last);
    var e2 := if !e.shiftinput then Shift(e1, ViewQuad(last, odd, w), odd, w) else e1;
    var tiles := if e.regload & 1 != 0 then LoadQuad(st.tiles, last, odd, w) else st.tiles;
    var lead: Plane := (e.leadPlane & 3) as int;
    var v :=
      if e.compareLead then
        if !e.shiftinput then View(At(e2.src, lead), 0, w) else ReadAt(st.mem, Pos(vramoff, lead), w)
      else ReadAt(st.mem, fulloff, w);
    (st.(egc := e2, tiles := tiles), v)
  }

  /** An EGC read latches every plane's AWT at the offset as the last VRAM
      data. */
  lemma EgcReadLatches(st: State, vramoff: nat, fulloff: nat, w: Awt)
    requires EgcReadable(st, vramoff, fulloff, w)
    ensures var r := EgcRead(st, vramoff, fulloff, w).0;
      HoldsPlanes(r.egc.lastVram, st.mem, vramoff, w)
  {
    var last := Latched(st.egc.lastVram, st.mem, vramoff, w);
    assert EgcRead(st, vramoff, fulloff, w).0.egc.lastVram == last;
  }

  /** Register load bit 0 copies the latched AWTs into the tile registers;
      without it they keep their values. */
  lemma EgcReadTiles(st: State, vramoff: nat, fulloff: nat, w: Awt)
    requires EgcReadable(st, vramoff, fulloff, w)
    ensures var r := EgcRead(st, vramoff, fulloff, w).0;
      (st.egc.regload & 1 == 0 ==> r.tiles == st.tiles)
      && (st.egc.regload & 1 != 0 ==>
            HoldsPlanes(r.tiles, st.mem, vramoff, w))
  {
    var last := Latched(st.egc.lastVram, st.mem, vramoff, w);
    if st.egc.regload & 1 != 0 {
      assert EgcRead(st, vramoff, fulloff, w).0.tiles == LoadQuad(st.tiles, last, vramoff % 2, w);
    }
  }

  /** With the shifter taking CPU data, a read changes nothing of the EGC
      but the last VRAM data. */
  lemma EgcReadKeeps(st: State, vramoff: nat, fulloff: nat, w: Awt)
    requires EgcReadable(st, vramoff, fulloff, w) && st.egc.shiftinput
    ensures var r := EgcRead(st, vramoff, fulloff, w).0;
      r.egc == st.egc.(lastVram := r.egc.lastVram)
  {
  }

  /** The value of an EGC read: the memory at `fulloff` outside compare-lead
      mode, and the lead plane's AWT at the offset in compare-lead mode when
      the shifter takes CPU data. */
  lemma EgcReadValue(st: State, vramoff: nat, fulloff: nat, w: Awt)
    requires EgcReadable(st, vramoff, fulloff, w)
    ensures var v := EgcRead(st, vramoff, fulloff, w).1;
      (!st.egc.compareLead ==> v == ReadAt(st.mem, fulloff, w))
      && (st.egc.compareLead && st.egc.shiftinput ==>
            v == ReadAt(st.mem, Pos(vramoff, (st.egc.leadPlane & 3) as int), w))
  {
  }

  /** The tile registers after register load bit 1 on a write: every
      plane's AWT at the offset loaded from memory, or unchanged. */
  function WriteTiles(st: State, vramoff: nat, w: Awt): (t: Quad)
    requires |st.mem| >= Span && vramoff < 0x28000 && (w == U16 ==> vramoff % 2 == 0)
    ensures st.egc.regload & 2 == 0 ==> t == st.tiles
    ensures st.egc.regload & 2 != 0 ==>
              HoldsPlanes(t, st.mem, vramoff, w)
  {
    if st.egc.regload & 2 != 0 then Latched(st.tiles, st.mem, vramoff, w) else st.tiles
  }

  /** The memory store of modeEGC_w: every plane whose bit in `access` is
      clear takes `data` in the bits of the effective mask viewed at the
      offset; nothing is written when that mask is zero. */
  function EgcStore(mem: seq<bv8>, vramoff: nat, w: Awt, access: bv16, maskef: Word, data: Quad): (r: seq<bv8>)
    requires |mem| >= Span && vramoff < 0x28000 && (w == U16 ==> vramoff % 2 == 0)
    ensures |r| == |mem|
  {
    var odd := vramoff % 2;
    var acc := View(maskef, odd, w);
    if acc != Zeros then WritePlanes(mem, vramoff, w, access, WNot(acc), AndQuad(ViewQuad(data, odd, w), acc))
    else mem
  }

  /** In every enabled plane the store merges the data into the bits of the
      effective mask (MergeMasked: only those bits change, and they take
      the data); disabled planes keep their contents. */
  lemma EgcStoreMasked(mem: seq<bv8>, vramoff: nat, w: Awt, access: bv16, maskef: Word, data: Quad, k: Plane, h: Half)
    requires |mem| >= Span && vramoff < 0x28000 && (w == U16 ==> vramoff % 2 == 0) && h < Size(w)
    ensures var a := ByteAt(View(maskef, vramoff % 2, w), h);
      var j := Pos(vramoff, k) + h;
      var r := EgcStore(mem, vramoff, w, access, maskef, data);
      (Off(access, k) ==> r[j] == mem[j])
      && (!Off(access, k) ==> r[j] == MergeByte(mem[j], !a, ByteAt(View(At(data, k), vramoff % 2, w), h) & a))
  {
    var odd := vramoff % 2;
    var acc := View(maskef, odd, w);
    if acc != Zeros {
      MaskedWrite(mem, vramoff, w, access, acc, ViewQuad(data, odd, w), k, h);
    } else {
      assert ByteAt(acc, h) == 0 by {
        if h == 0 {
        } else {
        }
      }
      MergeZero(mem[Pos(vramoff, k) + h], ByteAt(View(At(data, k), odd, w), h));
    }
  }

  /** Bytes outside the addressed planes keep their contents. */
  lemma EgcStoreFrame(mem: seq<bv8>, vramoff: nat, w: Awt, access: bv16, maskef: Word, data: Quad, j: nat)
    requires |mem| >= Span && vramoff < 0x28000 && (w == U16 ==> vramoff % 2 == 0) && j < |mem|
    requires forall k: Plane :: !InPlane(vramoff, w, k, j)
    ensures EgcStore(mem, vramoff, w, access, maskef, data)[j] == mem[j]
  {
    if View(maskef, vramoff % 2, w) != Zeros {
      var acc := View(maskef, vramoff % 2, w);
      WritePlanesUntouched(mem, vramoff, w, access, WNot(acc), AndQuad(ViewQuad(data, vramoff % 2, w), acc), j);
    }
  }

  /** modeEGC_w: the tile registers may be loaded, egc_ope picks the data
      and the effective mask, and the enabled planes store it. */
  function EgcWrite(st: State, vramoff: nat, val: Word, w: Awt): (r: State)
    requires Valid(st) && vramoff < 0x28000 && (w == U16 ==> vramoff % 2 == 0)
    ensures Valid(r) && r.msw == st.msw && r.vramop == st.vramop && r.modereg == st.modereg
    ensures r.tiles == WriteTiles(st, vramoff, w)
    ensures var (e, data) := EgcOpe(st.egc, r.tiles, st.mem, vramoff, val, w);
      r.egc == e && r.mem == EgcStore(st.mem, vramoff, w, e.access, e.maskef, data)
  {
    var tiles := WriteTiles(st, vramoff, w);
    var (e, data) := EgcOpe(st.egc, tiles, st.mem, vramoff, val, w);
    st.(mem := EgcStore(st.mem, vramoff, w, e.access, e.maskef, data), tiles := tiles, egc := e)
  }

  // ---------------------------------------------------------------------------
  // GRCG

  /** The tile registers before a GRCG word write: every enabled plane's
      first tile byte is repeated into its second. */
  function CopyLow(tiles: Quad, modereg: bv16, w: Awt): (r: Quad)
    ensures forall k: Plane :: At(r, k) == if w == U16 && !Off(modereg, k) then Word(Lane(tiles.lo, k), Lane(tiles.lo, k)) else At(tiles, k)
  {
    var m := modereg;
    var hi := Latch(if Off(m, 0) then tiles.hi.b0 else tiles.lo.b0, if Off(m, 1) then tiles.hi.b1 else tiles.lo.b1,
                    if Off(m, 2) then tiles.hi.b2 else tiles.lo.b2, if Off(m, 3) then tiles.hi.b3 else tiles.lo.b3);
    var r := if w == U8 then tiles else tiles.(hi := hi);
    assert forall k: Plane :: At(r, k) == if w == U16 && !Off(m, k) then Word(Lane(tiles.lo, k), Lane(tiles.lo, k)) else At(tiles, k) by {
      forall k: Plane
        ensures At(r, k) == if w == U16 && !Off(m, k) then Word(Lane(tiles.lo, k), Lane(tiles.lo, k)) else At(tiles, k)
      {
        if k == 0 {
        } else if k == 1 {
        } else if k == 2 {
        } else {
        }
      }
    }
    r
  }

  /** Byte h of plane k's contribution to a tile compare read: the data
      xor-ed with the tile, or nothing when the channel is disabled. */
  function Diff(st: State, base: nat, k: Plane, h: Half): bv8
    requires base + 4 * Stride + h < |st.mem|
  {
    if Off(st.modereg, k) then 0 else st.mem[Pos(base, k) + h] ^ Lane(Bytes(st.tiles, h), k)
  }

  /** One byte of mode8_r over the enabled planes: the complement of the
      OR of their contributions. */
  function CompareByte(st: State, base: nat, h: Half): bv8
    requires base + 4 * Stride + h < |st.mem|
  {
    !((Diff(st, base, 0, h) | Diff(st, base, 1, h)) | (Diff(st, base, 2, h) | Diff(st, base, 3, h)))
  }

  /** The tile compare read of modes 8 and 9 (the tile's first byte for a
      byte read). */
  function TileCompare(st: State, base: nat, w: Awt): (v: Word)
    requires base + 4 * Stride + Size(w) <= |st.mem|
    ensures v == Narrow(v, w)
  {
    Word(CompareByte(st, base, 0), if w == U8 then 0 else CompareByte(st, base, 1))
  }

  /** The bits in which a data byte agrees with a tile byte. */
  function Agree(m: bv8, t: bv8): bv8 {
    !(m ^ t)
  }

  /** Bit j of a byte, as a flag. */
  predicate BitOf(b: bv8, j: bv8)
    requires j < 8
  {
    (b >> j) & 1 == 1
  }

  /** Agree has bit j set exactly when the two bytes' bits j are equal. */
  lemma AgreeBit(m: bv8, t: bv8, j: bv8)
    requires j < 8
    ensures BitOf(Agree(m, t), j) <==> (BitOf(m, j) <==> BitOf(t, j))
  {
  }

  /** Plane k's agreement with its tile in byte h, all ones when its
      channel is disabled. */
  function PlaneAgree(st: State, base: nat, k: Plane, h: Half): bv8
    requires base + 4 * Stride + h < |st.mem|
  {
    if Off(st.modereg, k) then 0xFF else Agree(st.mem[Pos(base, k) + h], Lane(Bytes(st.tiles, h), k))
  }

  lemma AgreeDiff(st: State, base: nat, k: Plane, h: Half)
    requires base + 4 * Stride + h < |st.mem|
    ensures PlaneAgree(st, base, k, h) == !Diff(st, base, k, h)
  {
  }

  lemma DeMorgan4(a: bv8, b: bv8, c: bv8, d: bv8)
    ensures !((a | b) | (c | d)) == (!a & !b) & (!c & !d)
  {
  }

  /** The bits in which every enabled plane agrees with its tile byte h. */
  function AllAgree(st: State, base: nat, h: Half): bv8
    requires base + 4 * Stride + h < |st.mem|
  {
    (PlaneAgree(st, base, 0, h) & PlaneAgree(st, base, 1, h)) & (PlaneAgree(st, base, 2, h) & PlaneAgree(st, base, 3, h))
  }

  /** Byte h of a tile compare read holds the bits in which every enabled
      plane's data agrees with its tile's byte h. */
  lemma CompareAgree(st: State, base: nat, h: Half)
    requires base + 4 * Stride + h < |st.mem|
    ensures CompareByte(st, base, h) == AllAgree(st, base, h)
  {
    DeMorgan4(Diff(st, base, 0, h), Diff(st, base, 1, h), Diff(st, base, 2, h), Diff(st, base, 3, h));
    AgreeDiff(st, base, 0, h);
    AgreeDiff(st, base, 1, h);
    AgreeDiff(st, base, 2, h);
    AgreeDiff(st, base, 3, h);
  }

  /** Bit j of a four-way AND is set exactly when it is set in each. */
  lemma AndBit4(a: bv8, b: bv8, c: bv8, d: bv8, j: bv8, pa: bool, pb: bool, pc: bool, pd: bool)
    requires j < 8
    requires BitOf(a, j) == pa && BitOf(b, j) == pb && BitOf(c, j) == pc && BitOf(d, j) == pd
    ensures BitOf((a & b) & (c & d), j) <==> pa && pb && pc && pd
  {
  }

  /** Plane k matches the tile at bit j of byte h: its channel is disabled
      or its data bit equals the tile bit. */
  predicate PlaneMatches(st: State, base: nat, k: Plane, h: Half, j: bv8)
    requires base + 4 * Stride + h < |st.mem| && j < 8
  {
    Off(st.modereg, k) || (BitOf(st.mem[Pos(base, k) + h], j) <==> BitOf(Lane(Bytes(st.tiles, h), k), j))
  }

  /** Bit j of byte h of a plane's agreement is set exactly when the plane
      matches the tile there. */
  lemma PlaneAgreeBit(st: State, base: nat, k: Plane, h: Half, j: bv8)
    requires base + 4 * Stride + h < |st.mem| && j < 8
    ensures BitOf(PlaneAgree(st, base, k, h), j) <==> PlaneMatches(st, base, k, h, j)
  {
    if !Off(st.modereg, k) {
      AgreeBit(st.mem[Pos(base, k) + h], Lane(Bytes(st.tiles, h), k), j);
    }
  }

  /** Bit j of byte h of the agreement is set exactly when every plane
      matches its tile there: a tile compare read finds the pixels of the
      tile colour. */
  lemma AllAgreeBit(st: State, base: nat, h: Half, j: bv8)
    requires base + 4 * Stride + h < |st.mem| && j < 8
    ensures BitOf(AllAgree(st, base, h), j)
            <==> PlaneMatches(st, base, 0, h, j) && PlaneMatches(st, base, 1, h, j)
                 && PlaneMatches(st, base, 2, h, j) && PlaneMatches(st, base, 3, h, j)
  {
    PlaneAgreeBit(st, base, 0, h, j);
    PlaneAgreeBit(st, base, 1, h, j);
    PlaneAgreeBit(st, base, 2, h, j);
    PlaneAgreeBit(st, base, 3, h, j);
    AndBit4(PlaneAgree(st, base, 0, h), PlaneAgree(st, base, 1, h), PlaneAgree(st, base, 2, h), PlaneAgree(st, base, 3, h), j,
            PlaneMatches(st, base, 0, h, j), PlaneMatches(st, base, 1, h, j), PlaneMatches(st, base, 2, h, j), PlaneMatches(st, base, 3, h, j));
  }

  /** mode8_w over the enabled planes (`pc98_gdc_modereg` bits 0-3 disable
      them): a word write first repeats the plane's first tile byte into its
      second, then every enabled plane's AWT at `base` takes its tile. */
  function TileWrite(st: State, base: nat, w: Awt): (r: State)
    requires base + 4 * Stride + Size(w) <= |st.mem|
    ensures r == st.(mem := r.mem, tiles := r.tiles) && |r.mem| == |st.mem|
    ensures r.tiles == CopyLow(st.tiles, st.modereg, w)
  {
    var t := CopyLow(st.tiles, st.modereg, w);
    st.(tiles := t, mem := WritePlanes(st.mem, base, w, st.modereg, Zeros, t))
  }

  /** modeC_w over the enabled planes: after the same tile byte repeat,
      every enabled plane's AWT becomes `(mem & ~val) | (val & tile)`. */
  function TileRmw(st: State, base: nat, w: Awt, val: Word): (r: State)
    requires base + 4 * Stride + Size(w) <= |st.mem|
    ensures r == st.(mem := r.mem, tiles := r.tiles) && |r.mem| == |st.mem|
    ensures r.tiles == CopyLow(st.tiles, st.modereg, w)
  {
    var t := CopyLow(st.tiles, st.modereg, w);
    st.(tiles := t, mem := WritePlanes(st.mem, base, w, st.modereg, WNot(val), AndQuad(t, val)))
  }

  /** Byte h of plane k's tile as a GRCG write of width w uses it: always
      the first tile byte. */
  lemma CopyLowByte(tiles: Quad, modereg: bv16, w: Awt, k: Plane, h: Half)
    requires h < Size(w) && !Off(modereg, k)
    ensures ByteAt(At(CopyLow(tiles, modereg, w), k), h) == Lane(tiles.lo, k)
  {
  }

  /** A tile write stores the plane's first tile byte in every byte of the
      AWT of an enabled plane, and leaves a disabled plane alone. */
  lemma TileWriteStores(st: State, base: nat, w: Awt, k: Plane, h: Half)
    requires base + 4 * Stride + Size(w) <= |st.mem| && h < Size(w)
    ensures var j := Pos(base, k) + h;
      TileWrite(st, base, w).mem[j] == if Off(st.modereg, k) then st.mem[j] else Lane(st.tiles.lo, k)
  {
    var t := CopyLow(st.tiles, st.modereg, w);
    if Off(st.modereg, k) {
      WritePlanesOff(st.mem, base, w, st.modereg, Zeros, t, k, h);
    } else {
      WritePlanesMerged(st.mem, base, w, st.modereg, Zeros, t, k, h);
      CopyLowByte(st.tiles, st.modereg, w, k, h);
      assert ByteAt(Zeros, h) == 0;
    }
  }

  /** After a tile write every enabled plane agrees with its tile in every
      bit of the AWT. */
  lemma TileWriteAgrees(st: State, base: nat, w: Awt, k: Plane, h: Half)
    requires base + 4 * Stride + Size(w) <= |st.mem| && h < Size(w)
    ensures PlaneAgree(TileWrite(st, base, w), base, k, h) == 0xFF
  {
    var r := TileWrite(st, base, w);
    if !Off(st.modereg, k) {
      TileWriteStores(st, base, w, k, h);
      CopyLowByte(st.tiles, st.modereg, w, k, h);
      assert Lane(Bytes(r.tiles, h), k) == ByteAt(At(r.tiles, k), h);
    }
  }

  /** A tile compare read right after a tile write at the same offset finds
      every pixel in the tile colour: it returns all ones. */
  lemma TileWriteCompare(st: State, base: nat, w: Awt)
    requires base + 4 * Stride + Size(w) <= |st.mem|
    ensures TileCompare(TileWrite(st, base, w), base, w) == AllOnesOf(w)
  {
    var r := TileWrite(st, base, w);
    CompareAgree(r, base, 0);
    TileWriteAgrees(st, base, w, 0, 0);
    TileWriteAgrees(st, base, w, 1, 0);
    TileWriteAgrees(st, base, w, 2, 0);
    TileWriteAgrees(st, base, w, 3, 0);
    if w == U16 {
      CompareAgree(r, base, 1);
      TileWriteAgrees(st, base, w, 0, 1);
      TileWriteAgrees(st, base, w, 1, 1);
      TileWriteAgrees(st, base, w, 2, 1);
      TileWriteAgrees(st, base, w, 3, 1);
    }
  }

  /** A read-modify-write leaves a disabled plane alone and merges, in an
      enabled one, the plane's first tile byte into the bits set in the
      value (MergeMasked: those bits take the tile, the others keep their
      contents). */
  lemma TileRmwStores(st: State, base: nat, w: Awt, val: Word, k: Plane, h: Half)
    requires base + 4 * Stride + Size(w) <= |st.mem| && h < Size(w)
    ensures var j := Pos(base, k) + h;
      var b := TileRmw(st, base, w, val).mem[j];
      var v := ByteAt(val, h);
      (Off(st.modereg, k) ==> b == st.mem[j])
      && (!Off(st.modereg, k) ==> b == MergeByte(st.mem[j], !v, Lane(st.tiles.lo, k) & v))
  {
    var t := CopyLow(st.tiles, st.modereg, w);
    MaskedWrite(st.mem, base, w, st.modereg, val, t, k, h);
    if !Off(st.modereg, k) {
      CopyLowByte(st.tiles, st.modereg, w, k, h);
    }
  }

  /** Neither GRCG write changes a byte outside the planes' AWTs at the
      offset. */
  lemma GrcgFrame(st: State, base: nat, w: Awt, val: Word, j: nat)
    requires base + 4 * Stride + Size(w) <= |st.mem| && j < |st.mem|
    requires forall k: Plane :: !InPlane(base, w, k, j)
    ensures TileWrite(st, base, w).mem[j] == st.mem[j]
    ensures TileRmw(st, base, w, val).mem[j] == st.mem[j]
  {
    var t := CopyLow(st.tiles, st.modereg, w);
    WritePlanesUntouched(st.mem, base, w, st.modereg, Zeros, t, j);
    WritePlanesUntouched(st.mem, base, w, st.modereg, WNot(val), AndQuad(t, val), j);
  }
}

=== FILE: pc98_handler.dfy ===
/** The entry points of the PC-98 page handler (`readc`, `writec`, `readb`,
    `writeb`, `readw`, `writew`): the memory switch window, the folding of
    the E-plane window onto the buffer, the text RAM blocks, and the
    dispatch of graphics RAM accesses on the access mode. Addresses are
    physical (paging is the identity here). */
module Pc98Handler {
  import opened Bits
  import opened EgcShifter
  import opened Pc98Vram
  import opened Pc98

  /** The memory switch window A3FE0-A3FFF: `(addr & ~0x1F) == 0xA3FE0`. */
  predicate IsMsw(addr: Addr) {
    addr / 0x20 == 0xA3FE0 / 0x20
  }

  /** The switch an address of the window reads: `(addr >> 2) & 7`. */
  function MswIndex(addr: Addr): (i: nat)
    ensures i < 8
  {
    (addr / 4) % 8
  }

  /** The switch window is exactly the 32 bytes from A3FE0, four bytes per
      switch: MSW1 at A3FE2, MSW2 at A3FE6, and so on. */
  lemma MswWindow(addr: Addr)
    ensures IsMsw(addr) <==> 0xA3FE0 <= addr < 0xA4000
    ensures IsMsw(addr) ==> MswIndex(addr) == (addr - 0xA3FE0) / 4
  {
    if IsMsw(addr) {
      DivModUnique(addr / 4, 8, 0xA3FE0 / 32, (addr - 0xA3FE0) / 4);
    }
  }

  /** The buffer offset of an address: the E-plane window (E0000 and up)
      keeps its low 15 bits and lands 0x20000 up; every other address keeps
      its low 17 bits. */
  function Remap(addr: Addr): (a: nat)
    ensures a < 0x28000
    ensures addr >= 0xE0000 ==> 0x20000 <= a
  {
    if addr >= 0xE0000 then AndLow(addr, 0x7FFF) + 0x20000 else AndLow(addr, 0x1FFFF)
  }

  /** The blocks of the window, by `offset >> 13`. */
  datatype Region = CharRam | AttrRam | Unknown | Absent | Gram

  function RegionOf(a: nat): (g: Region)
    ensures g == Gram <==> a >= 0x8000
    ensures g == CharRam <==> a < 0x2000
    ensures g == Absent <==> 0x6000 <= a < 0x8000
  {
    var r := a / 0x2000;
    if r == 0 then CharRam
    else if r == 1 then AttrRam
    else if r == 2 then Unknown
    else if r == 3 then Absent
    else Gram
  }

  /** The graphics access modes, by the low nibble of `pc98_gdc_vramop`. */
  datatype Mode = PlainMode | TdwMode | RmwMode | EgcMode

  function ModeOf(op: bv4): (m: Mode)
    ensures m == PlainMode <==> op < 8
    ensures m == TdwMode <==> op in {8, 9}
    ensures m == RmwMode <==> op in {0xC, 0xD}
    ensures m == EgcMode <==> op in {0xA, 0xB, 0xE, 0xF}
  {
    if op < 8 then PlainMode
    else if op == 8 || op == 9 then TdwMode
    else if op == 0xC || op == 0xD then RmwMode
    else EgcMode
  }

  /** check_align: a word access is at an even address. */
  predicate Aligned(addr: Addr, w: Awt) {
    w == U16 ==> addr % 2 == 0
  }

  /** An odd offset stays odd through the folding. */
  lemma RemapParity(addr: Addr)
    ensures Remap(addr) % 2 == addr % 2
    ensures AndLow(Remap(addr), 0x7FFF) % 2 == addr % 2
  {
    var a := Remap(addr);
    if addr >= 0xE0000 {
      DivModUnique(addr, 2, (addr / 0x8000) * 0x4000 + (addr % 0x8000) / 2, (addr % 0x8000) % 2);
    } else {
      DivModUnique(addr, 2, (addr / 0x20000) * 0x10000 + (addr % 0x20000) / 2, (addr % 0x20000) % 2);
    }
    DivModUnique(a, 2, (a / 0x8000) * 0x4000 + (a % 0x8000) / 2, (a % 0x8000) % 2);
  }

  /** The access reaches graphics RAM. */
  predicate GramAccess(addr: Addr) {
    !IsMsw(addr) && Remap(addr) >= 0x8000
  }

  /** The access goes through the EGC. */
  predicate EgcAccess(st: State, addr: Addr) {
    GramAccess(addr) && ModeOf(st.vramop.mode) == EgcMode
  }

  /** Where the multi-plane modes address: the offset within a plane
      (`a & 0x7FFF`) plus the bank. */
  function PlaneBase(st: State, a: nat): (base: nat)
    ensures base < 0x28000
  {
    AndLow(a, 0x7FFF) + BankOffset(st)
  }

  // ---------------------------------------------------------------------------
  // Graphics RAM

  /** The graphics RAM part of readc: a plain read in modes 0-7 and C-D, a
      tile compare in modes 8-9, an EGC read in modes A, B, E and F. */
  function GramRead(st: State, a: nat, w: Awt): (r: (State, Word))
    requires Valid(st) && 0x8000 <= a < 0x28000 && (w == U16 ==> a % 2 == 0)
    requires AndLow(a, 0x7FFF) % 2 == a % 2
    ensures Valid(r.0) && r.0.mem == st.mem && r.0.msw == st.msw
    ensures r.0.vramop == st.vramop && r.0.modereg == st.modereg
    ensures ModeOf(st.vramop.mode) != EgcMode ==> r.0 == st
  {
    var vop := BankOffset(st);
    var base := PlaneBase(st, a);
    match ModeOf(st.vramop.mode)
    case PlainMode => (st, ReadAt(st.mem, a + vop, w))
    case TdwMode => (st, TileCompare(st, base, w))
    case RmwMode => (st, ReadAt(st.mem, a + vop, w))
    case EgcMode => EgcRead(st, base, a + vop, w)
  }

  /** The graphics RAM part of writec: a plain write in modes 0-7; in modes
      8-9 every enabled plane takes its tile (the value written does not
      matter); in modes C-D every enabled plane takes its tile in the bits
      set in the value and keeps its own bits elsewhere; in modes A, B, E and
      F the EGC writes. A word write first repeats every enabled plane's
      first tile byte into its second. */
  function GramWrite(st: State, a: nat, w: Awt, val: Word): (r: State)
    requires Valid(st) && 0x8000 <= a < 0x28000 && (w == U16 ==> a % 2 == 0)
    requires AndLow(a, 0x7FFF) % 2 == a % 2
    ensures Valid(r) && |r.mem| == |st.mem| && r.msw == st.msw
    ensures r.vramop == st.vramop && r.modereg == st.modereg
    ensures ModeOf(st.vramop.mode) != EgcMode ==> r.egc == st.egc
    ensures ModeOf(st.vramop.mode) == PlainMode ==> r.tiles == st.tiles
  {
    var vop := BankOffset(st);
    var base := PlaneBase(st, a);
    match ModeOf(st.vramop.mode)
    case PlainMode => st.(mem := WriteAt(st.mem, a + vop, w, val))
    case TdwMode => TileWrite(st, base, w)
    case RmwMode => TileRmw(st, base, w, val)
    case EgcMode => EgcWrite(st, base, val, w)
  }

  // ---------------------------------------------------------------------------
  // The entry points

  /** readc: the switch window reads a switch; the character and unknown
      blocks read plainly; the attribute block reads all ones at odd
      addresses and its byte with a high byte of 0xFF at even ones; the
      absent block reads all ones; graphics RAM dispatches on the mode. Only
      an EGC read changes the state. */
  function ReadC(st: State, addr: Addr, w: Awt): (r: (State, Word))
    requires Valid(st) && Aligned(addr, w)
    ensures Valid(r.0) && r.0.mem == st.mem && r.0.msw == st.msw
    ensures r.0.vramop == st.vramop && r.0.modereg == st.modereg
    ensures !EgcAccess(st, addr) ==> r.0 == st
  {
    if IsMsw(addr) then (st, Word(st.msw[MswIndex(addr)], 0))
    else
      var a := Remap(addr);
      RemapParity(addr);
      match RegionOf(a)
      case CharRam => (st, ReadAt(st.mem, a, w))
      case AttrRam => (st, if a % 2 == 1 then AllOnesOf(w) else Narrow(Word(st.mem[a], 0xFF), w))
      case Unknown => (st, ReadAt(st.mem, a, w))
      case Absent => (st, AllOnesOf(w))
      case Gram => GramRead(st, a, w)
  }

  /** writec: the switch window and the absent block ignore writes; the
      character and unknown blocks store plainly; the attribute block ignores
      odd addresses and stores the byte with a high byte of 0xFF at even
      ones; graphics RAM dispatches on the mode. */
  function WriteC(st: State, addr: Addr, w: Awt, val: Word): (r: State)
    requires Valid(st) && Aligned(addr, w)
    ensures Valid(r) && |r.mem| == |st.mem| && r.msw == st.msw
    ensures r.vramop == st.vramop && r.modereg == st.modereg
    ensures !EgcAccess(st, addr) ==> r.egc == st.egc
    ensures !GramAccess(addr) ==> r.tiles == st.tiles
  {
    if IsMsw(addr) then st
    else
      var a := Remap(addr);
      RemapParity(addr);
      match RegionOf(a)
      case CharRam => st.(mem := WriteAt(st.mem, a, w, val))
      case AttrRam => if a % 2 == 1 then st else st.(mem := WriteAt(st.mem, a, w, Word(val.lo, 0xFF)))
      case Unknown => st.(mem := WriteAt(st.mem, a, w, val))
      case Absent => st
      case Gram => GramWrite(st, a, w, val)
  }

  /** readb. */
  function ReadB(st: State, addr: Addr): (r: (State, bv8))
    requires Valid(st)
    ensures Valid(r.0) && r.0.mem == st.mem && r.0.msw == st.msw
    ensures r.0.vramop == st.vramop && r.0.modereg == st.modereg
    ensures !EgcAccess(st, addr) ==> r.0 == st
  {
    var (s, v) := ReadC(st, addr, U8);
    (s, v.lo)
  }

  /** writeb, on the byte the caller's value is cut to. */
  function WriteB(st: State, addr: Addr, b: bv8): (r: State)
    requires Valid(st)
    ensures Valid(r) && |r.mem| == |st.mem| && r.msw == st.msw
    ensures r.vramop == st.vramop && r.modereg == st.modereg
    ensures !EgcAccess(st, addr) ==> r.egc == st.egc
  {
    WriteC(st, addr, U8, Word(b, 0))
  }

  /** readw: a word access at an even address, and two byte accesses, low
      address first, at an odd one (the sum's operands are taken left to
      right). */
  function ReadW(st: State, addr: Addr): (r: (State, Word))
    requires Valid(st)
    ensures Valid(r.0) && r.0.mem == st.mem && r.0.msw == st.msw
    ensures r.0.vramop == st.vramop && r.0.modereg == st.modereg
    ensures ModeOf(st.vramop.mode) != EgcMode ==> r.0 == st
  {
    if addr % 2 == 0 then ReadC(st, addr, U16)
    else
      var (s1, lo) := ReadB(st, addr);
      var (s2, hi) := ReadB(s1, Add32(addr, 1));
      (s2, Word(lo, hi))
  }

  /** writew: a word access at an even address, and the low byte then the
      high byte at an odd one. */
  function WriteW(st: State, addr: Addr, val: Word): (r: State)
    requires Valid(st)
    ensures Valid(r) && |r.mem| == |st.mem| && r.msw == st.msw
    ensures r.vramop == st.vramop && r.modereg == st.modereg
    ensures ModeOf(st.vramop.mode) != EgcMode ==> r.egc == st.egc
  {
    if addr % 2 == 0 then WriteC(st, addr, U16, val)
    else WriteB(WriteB(st, addr, val.lo), Add32(addr, 1), val.hi)
  }

  // ---------------------------------------------------------------------------
  // Properties of the address map

  /** The switch window reads switch `(addr - A3FE0) / 4` with a zero high
      byte, and ignores writes. */
  lemma MswAccess(st: State, addr: Addr, w: Awt, val: Word)
    requires Valid(st) && Aligned(addr, w) && 0xA3FE0 <= addr < 0xA4000
    ensures ReadC(st, addr, w) == (st, Word(st.msw[(addr - 0xA3FE0) / 4], 0))
    ensures WriteC(st, addr, w, val) == st
  {
    MswWindow(addr);
  }

  /** Plane k's window: A8000, B0000 and B8000 for the blue, red and green
      planes, E0000 for the extended plane. */
  function PlaneAddr(k: Plane, x: nat): (addr: Addr)
    requires x < 0x8000
    ensures addr % 2 == x % 2
  {
    (if k == 3 then 0xE0000 else 0xA8000 + 0x8000 * k) + x
  }

  /** Byte x of plane k's window is graphics RAM at `Pos(x, k)`, and the
      multi-plane modes address offset x from every plane's window. */
  lemma PlaneAddrMaps(k: Plane, x: nat)
    requires x < 0x8000
    ensures GramAccess(PlaneAddr(k, x)) && Remap(PlaneAddr(k, x)) == Pos(x, k)
    ensures AndLow(Pos(x, k), 0x7FFF) == x
  {
    var addr := PlaneAddr(k, x);
    MswWindow(addr);
    if k == 3 {
      DivModUnique(addr, 0x8000, 0x1C, x);
    } else {
      DivModUnique(addr, 0x20000, 5, 0x8000 * (k + 1) + x);
    }
    DivModUnique(Pos(x, k), 0x8000, k + 1, x);
  }

  /** The absent block reads all ones and ignores writes. */
  lemma AbsentBlock(st: State, addr: Addr, w: Awt, val: Word)
    requires Valid(st) && Aligned(addr, w) && 0xA6000 <= addr < 0xA8000
    ensures ReadC(st, addr, w) == (st, AllOnesOf(w))
    ensures WriteC(st, addr, w, val) == st
  {
    MswWindow(addr);
    DivModUnique(addr, 0x20000, 5, addr - 0xA0000);
  }

  /** The character block A0000-A1FFF and the unknown block A4000-A5FFF are
      plain memory at offset `addr - A0000`: a write stores the value there
      and a read returns it. */
  lemma TextRoundTrip(st: State, addr: Addr, w: Awt, val: Word)
    requires Valid(st) && Aligned(addr, w)
    requires 0xA0000 <= addr < 0xA2000 || 0xA4000 <= addr < 0xA6000
    ensures WriteC(st, addr, w, val) == st.(mem := WriteAt(st.mem, addr - 0xA0000, w, val))
    ensures ReadC(WriteC(st, addr, w, val), addr, w).1 == Narrow(val, w)
  {
    MswWindow(addr);
    DivModUnique(addr, 0x20000, 5, addr - 0xA0000);
    ReadWriteAt(st.mem, addr - 0xA0000, w, val);
  }

  /** The attribute block A2000-A3FDF: only the even bytes hold data, and
      their partner bytes read 0xFF. A read at an odd address gives all ones
      and a write there is ignored; at an even address the low byte written
      reads back, with 0xFF above it in a word. */
  lemma AttributeBlock(st: State, addr: Addr, w: Awt, val: Word)
    requires Valid(st) && Aligned(addr, w) && 0xA2000 <= addr < 0xA3FE0
    ensures addr % 2 == 1 ==> ReadC(st, addr, w) == (st, AllOnesOf(w)) && WriteC(st, addr, w, val) == st
    ensures addr % 2 == 0 ==> ReadC(WriteC(st, addr, w, val), addr, w).1 == Narrow(Word(val.lo, 0xFF), w)
  {
    MswWindow(addr);
    DivModUnique(addr, 0x20000, 5, addr - 0xA0000);
    RemapParity(addr);
    if addr % 2 == 0 {
      ReadWriteAt(st.mem, addr - 0xA0000, w, Word(val.lo, 0xFF));
    }
  }

  /** A word write and read at any address of the character block (odd
      ones split into bytes) returns the word. */
  lemma TextWordRoundTrip(st: State, addr: Addr, val: Word)
    requires Valid(st) && 0xA0000 <= addr < 0xA1FFF
    ensures ReadW(WriteW(st, addr, val), addr).1 == val
  {
    if addr % 2 == 0 {
      var s1 := WriteC(st, addr, U16, val);
      assert WriteW(st, addr, val) == s1;
      TextRoundTrip(st, addr, U16, val);
      assert ReadW(s1, addr) == ReadC(s1, addr, U16);
      assert ReadC(s1, addr, U16).1 == Narrow(val, U16) == val;
    } else {
      TextWordSplit(st, addr, val);
    }
  }

  /** A word write at an odd address of the character block stores its two
      bytes at `addr - A0000` and the byte after it, and the two byte reads
      of a word read there return them. */
  lemma TextWordSplit(st: State, addr: Addr, val: Word)
    requires Valid(st) && 0xA0000 <= addr < 0xA1FFF && addr % 2 == 1
    ensures var i := addr - 0xA0000;
      WriteW(st, addr, val) == st.(mem := st.mem[i := val.lo][i + 1 := val.hi])
    ensures ReadW(WriteW(st, addr, val), addr).1 == val
  {
    var i := addr - 0xA0000;
    assert Add32(addr, 1) == addr + 1;
    TextWrite(st, addr, val.lo);
    var s1 := st.(mem := st.mem[i := val.lo]);
    TextWrite(s1, addr + 1, val.hi);
    var s2 := s1.(mem := s1.mem[i + 1 := val.hi]);
    assert WriteW(st, addr, val) == s2;
    TextRead(s2, addr);
    TextRead(s2, addr + 1);
    assert s2.mem[i] == val.lo && s2.mem[i + 1] == val.hi;
    assert ReadW(s2, addr).1 == Word(ReadB(s2, addr).1, ReadB(s2, addr + 1).1);
  }

  /** A byte write to the character block stores the byte at
      `addr - A0000`. */
  lemma TextWrite(st: State, addr: Addr, b: bv8)
    requires Valid(st) && 0xA0000 <= addr < 0xA2000
    ensures WriteB(st, addr, b) == st.(mem := st.mem[addr - 0xA0000 := b])
  {
    MswWindow(addr);
    DivModUnique(addr, 0x20000, 5, addr - 0xA0000);
  }

  /** A byte read of the character block returns the buffer byte at
      `addr - A0000`. */
  lemma TextRead(st: State, addr: Addr)
    requires Valid(st) && 0xA0000 <= addr < 0xA2000
    ensures ReadB(st, addr) == (st, st.mem[addr - 0xA0000])
  {
    MswWindow(addr);
    DivModUnique(addr, 0x20000, 5, addr - 0xA0000);
  }

  // ---------------------------------------------------------------------------
  // Properties of graphics RAM accesses

  /** A graphics RAM access goes to GramRead and GramWrite at the folded
      offset. */
  lemma GramDispatch(st: State, addr: Addr, w: Awt, val: Word)
    requires Valid(st) && Aligned(addr, w) && GramAccess(addr)
    ensures AndLow(Remap(addr), 0x7FFF) % 2 == Remap(addr) % 2 == addr % 2
    ensures ReadC(st, addr, w) == GramRead(st, Remap(addr), w)
    ensures WriteC(st, addr, w, val) == GramWrite(st, Remap(addr), w, val)
  {
    RemapParity(addr);
  }

  /** The buffer offset of a plain graphics access: the folded offset in
      the selected bank. */
  function FullOffset(st: State, addr: Addr): nat {
    Remap(addr) + BankOffset(st)
  }

  /** Both offsets of a graphics access lie inside the buffer: the plain
      one, and all four planes' AWTs above the plane base. */
  lemma GramOffsets(st: State, addr: Addr, w: Awt)
    requires Valid(st) && Aligned(addr, w) && GramAccess(addr)
    ensures FullOffset(st, addr) + Size(w) <= |st.mem|
    ensures PlaneBase(st, Remap(addr)) + 4 * Stride + Size(w) <= |st.mem|
    ensures EgcReadable(st, PlaneBase(st, Remap(addr)), FullOffset(st, addr), w)
  {
    var a := Remap(addr);
    RemapParity(addr);
    assert a + Size(w) <= 0x28000;
    assert PlaneBase(st, a) == AndLow(a, 0x7FFF) + BankOffset(st);
  }

  /** In modes 0-7 graphics RAM is plain memory: a write stores the value
      at the full offset and a read returns it. */
  lemma GramPlain(st: State, addr: Addr, w: Awt, val: Word)
    requires Valid(st) && Aligned(addr, w) && GramAccess(addr) && st.vramop.mode < 8
    ensures FullOffset(st, addr) + Size(w) <= |st.mem|
    ensures WriteC(st, addr, w, val) == st.(mem := WriteAt(st.mem, FullOffset(st, addr), w, val))
    ensures ReadC(WriteC(st, addr, w, val), addr, w).1 == Narrow(val, w)
  {
    GramOffsets(st, addr, w);
    GramDispatch(st, addr, w, val);
    var s1 := st.(mem := WriteAt(st.mem, FullOffset(st, addr), w, val));
    GramDispatch(s1, addr, w, val);
    ReadWriteAt(st.mem, FullOffset(st, addr), w, val);
  }

  /** In modes 8 and 9 a write is the tile write at the plane base, whatever
      the value, and a read is the tile compare there. */
  lemma GramTile(st: State, addr: Addr, w: Awt, val: Word)
    requires Valid(st) && Aligned(addr, w) && GramAccess(addr) && st.vramop.mode in {8, 9}
    ensures PlaneBase(st, Remap(addr)) + 4 * Stride + Size(w) <= |st.mem|
    ensures WriteC(st, addr, w, val) == TileWrite(st, PlaneBase(st, Remap(addr)), w)
    ensures ReadC(st, addr, w) == (st, TileCompare(st, PlaneBase(st, Remap(addr)), w))
  {
    GramOffsets(st, addr, w);
    GramDispatch(st, addr, w, val);
  }

  /** In modes 8 and 9 a read right after a write at the same address finds
      every pixel in the tile colour: it returns all ones. */
  lemma GramTileRoundTrip(st: State, addr: Addr, w: Awt, val: Word)
    requires Valid(st) && Aligned(addr, w) && GramAccess(addr) && st.vramop.mode in {8, 9}
    ensures ReadC(WriteC(st, addr, w, val), addr, w).1 == AllOnesOf(w)
  {
    var b := PlaneBase(st, Remap(addr));
    GramTile(st, addr, w, val);
    var s1 := TileWrite(st, b, w);
    assert WriteC(st, addr, w, val) == s1;
    GramTile(s1, addr, w, val);
    assert PlaneBase(s1, Remap(addr)) == b;
    TileWriteCompare(st, b, w);
  }

  /** In modes C and D a write is the read-modify-write at the plane base,
      and a read is a plain read at the full offset. */
  lemma GramRmw(st: State, addr: Addr, w: Awt, val: Word)
    requires Valid(st) && Aligned(addr, w) && GramAccess(addr) && st.vramop.mode in {0xC, 0xD}
    ensures FullOffset(st, addr) + Size(w) <= |st.mem|
    ensures PlaneBase(st, Remap(addr)) + 4 * Stride + Size(w) <= |st.mem|
    ensures WriteC(st, addr, w, val) == TileRmw(st, PlaneBase(st, Remap(addr)), w, val)
    ensures ReadC(st, addr, w) == (st, ReadAt(st.mem, FullOffset(st, addr), w))
  {
    GramOffsets(st, addr, w);
    GramDispatch(st, addr, w, val);
  }

  /** In modes A, B, E and F the EGC reads at the plane base and the full
      offset. */
  lemma GramEgcRead(st: State, addr: Addr, w: Awt)
    requires Valid(st) && Aligned(addr, w) && GramAccess(addr) && st.vramop.mode in {0xA, 0xB, 0xE, 0xF}
    ensures EgcReadable(st, PlaneBase(st, Remap(addr)), FullOffset(st, addr), w)
    ensures ReadC(st, addr, w) == EgcRead(st, PlaneBase(st, Remap(addr)), FullOffset(st, addr), w)
  {
    GramOffsets(st, addr, w);
    GramDispatch(st, addr, w, Zeros);
    GramReadEgc(st, addr, w);
  }

  /** In modes A, B, E and F the graphics RAM read at the folded offset is
      the EGC read at the plane base and the full offset. */
  lemma GramReadEgc(st: State, addr: Addr, w: Awt)
    requires Valid(st) && Aligned(addr, w) && GramAccess(addr) && st.vramop.mode in {0xA, 0xB, 0xE, 0xF}
    ensures AndLow(Remap(addr), 0x7FFF) % 2 == Remap(addr) % 2
    ensures EgcReadable(st, PlaneBase(st, Remap(addr)), FullOffset(st, addr), w)
    ensures GramRead(st, Remap(addr), w) == EgcRead(st, PlaneBase(st, Remap(addr)), FullOffset(st, addr), w)
  {
    GramOffsets(st, addr, w);
    RemapParity(addr);
  }

  /** Outside compare-lead mode an EGC read returns the plain memory at the
      full offset, as a mode 0-7 read does. */
  lemma GramEgcValue(st: State, addr: Addr, w: Awt)
    requires Valid(st) && Aligned(addr, w) && GramAccess(addr) && st.vramop.mode in {0xA, 0xB, 0xE, 0xF}
    requires !st.egc.compareLead
    ensures FullOffset(st, addr) + Size(w) <= |st.mem|
    ensures ReadC(st, addr, w).1 == ReadAt(st.mem, FullOffset(st, addr), w)
  {
    GramEgcRead(st, addr, w);
    EgcReadValue(st, PlaneBase(st, Remap(addr)), FullOffset(st, addr), w);
  }

  /** In modes A, B, E and F the EGC writes at the plane base. */
  lemma GramEgcWrite(st: State, addr: Addr, w: Awt, val: Word)
    requires Valid(st) && Aligned(addr, w) && GramAccess(addr) && st.vramop.mode in {0xA, 0xB, 0xE, 0xF}
    ensures EgcReadable(st, PlaneBase(st, Remap(addr)), FullOffset(st, addr), w)
    ensures WriteC(st, addr, w, val) == EgcWrite(st, PlaneBase(st, Remap(addr)), val, w)
  {
    GramOffsets(st, addr, w);
    GramDispatch(st, addr, w, val);
  }
}

=== FILE: pc98_vram.dfy ===
/** The PC-98 graphics memory as the PC-98 page handler sees it: a flat byte
    buffer in which plane k of the bitplane area lies 0x8000 * (k + 1) bytes
    above a base offset, read and written a byte or an even-aligned word at
    a time. */
module Pc98Vram {
  import opened Bits
  import opened EgcShifter
  import opened Raster

  /** The plane stride: planes B, R, G and E start 0x8000, 0x10000, 0x18000
      and 0x20000 bytes above the base offset. */
  const Stride: nat := 0x8000

  /** One past the highest byte the handler touches: a base offset is at
      most 0x7FFF + 0x20000 and plane 3 lies 0x20000 above it. */
  const Span: nat := 0x48000

  /** The value of an AWT-sized access: the byte, or the word. A byte value
      keeps a zero high byte. */
  function Narrow(v: Word, w: Awt): (r: Word)
    ensures r.lo == v.lo && (w == U8 ==> r.hi == 0) && (w == U16 ==> r == v)
  {
    if w == U8 then Word(v.lo, 0) else v
  }

  /** `(AWT)~0`. */
  function AllOnesOf(w: Awt): Word {
    Narrow(Ones, w)
  }

  function WAnd(x: Word, y: Word): Word { Word(x.lo & y.lo, x.hi & y.hi) }
  function WOr(x: Word, y: Word): Word { Word(x.lo | y.lo, x.hi | y.hi) }
  function WXor(x: Word, y: Word): Word { Word(x.lo ^ y.lo, x.hi ^ y.hi) }
  function WNot(x: Word): Word { Word(!x.lo, !x.hi) }

  /** `*(AWT*)(x.b + odd)`: the byte at `odd`, or the whole word. */
  function View(x: Word, odd: Half, w: Awt): Word {
    if w == U8 then Word(ByteAt(x, odd), 0) else x
  }

  /** Every plane's word viewed at `odd`. */
  function ViewQuad(q: Quad, odd: Half, w: Awt): (r: Quad)
    ensures forall k: Plane :: At(r, k) == View(At(q, k), odd, w)
  {
    if w == U8 then Quad(Bytes(q, odd), Zero) else q
  }

  /** The quad whose every plane holds `v`. */
  function Broadcast(v: Word): (r: Quad)
    ensures forall k: Plane :: At(r, k) == v
  {
    Quad(Expand(v.lo), Expand(v.hi))
  }

  /** Every plane's word and-ed with `v`. */
  function AndQuad(q: Quad, v: Word): (r: Quad)
    ensures forall k: Plane :: At(r, k) == WAnd(At(q, k), v)
  {
    Quad(AndLanes(q.lo, Expand(v.lo)), AndLanes(q.hi, Expand(v.hi)))
  }

  /** The quad `q` with every plane's AWT at `odd` taken from `loaded`; for a
      byte access the other byte of every plane is kept. */
  function LoadQuad(q: Quad, loaded: Quad, odd: Half, w: Awt): (r: Quad)
    requires w == U16 ==> odd == 0
    ensures forall k: Plane :: View(At(r, k), odd, w) == View(At(loaded, k), odd, w)
    ensures w == U8 ==> Bytes(r, 1 - odd) == Bytes(q, 1 - odd)
  {
    if w == U8 then SetBytes(q, odd, Bytes(loaded, odd)) else loaded
  }

  // ---------------------------------------------------------------------------
  // Accesses to the buffer

  /** `*(AWT*)(linear + i)`. */
  function ReadAt(mem: seq<bv8>, i: nat, w: Awt): (v: Word)
    requires i + Size(w) <= |mem|
    ensures v == Narrow(v, w)
  {
    if w == U8 then Word(mem[i], 0) else Word(mem[i], mem[i + 1])
  }

  /** `*(AWT*)(linear + i) = v`. */
  function WriteAt(mem: seq<bv8>, i: nat, w: Awt, v: Word): (r: seq<bv8>)
    requires i + Size(w) <= |mem|
    ensures |r| == |mem|
    ensures ReadAt(r, i, w) == Narrow(v, w)
    ensures forall j :: 0 <= j < |mem| && !(i <= j < i + Size(w)) ==> r[j] == mem[j]
  {
    if w == U8 then mem[i := v.lo] else mem[i := v.lo][i + 1 := v.hi]
  }

  /** A write followed by a read of the same place returns the value
      written, cut to the access size. */
  lemma ReadWriteAt(mem: seq<bv8>, i: nat, w: Awt, v: Word)
    requires i + Size(w) <= |mem|
    ensures ReadAt(WriteAt(mem, i, w, v), i, w) == Narrow(v, w)
  {
  }

  /** Where plane k's word lies above `base`. */
  function Pos(base: nat, k: Plane): nat {
    base + 0x8000 * (k + 1)
  }

  /** The four planes' words above an even base offset (plane k's word at
      `Pos(base, k)`). */
  function PlanesAt(mem: seq<bv8>, base: nat): (q: Quad)
    requires base + 4 * Stride + 2 <= |mem|
    ensures forall k: Plane :: At(q, k) == ReadAt(mem, Pos(base, k), U16)
  {
    var p0 := base + Stride;
    var p1 := base + 2 * Stride;
    var p2 := base + 3 * Stride;
    var p3 := base + 4 * Stride;
    Quad(Latch(mem[p0], mem[p1], mem[p2], mem[p3]), Latch(mem[p0 + 1], mem[p1 + 1], mem[p2 + 1], mem[p3 + 1]))
  }

  /** Bit k of a channel-disable register (`reg & (1 << k)`). */
  predicate Off(reg: bv16, k: Plane) {
    if k == 0 then reg & 1 != 0
    else if k == 1 then reg & 2 != 0
    else if k == 2 then reg & 4 != 0
    else reg & 8 != 0
  }

  /** `(cur & keep) | put` on one byte. */
  function MergeByte(cur: bv8, keep: bv8, put: bv8): bv8 {
    (cur & keep) | put
  }

  /** Byte j is one of the bytes a multi-plane write stores to plane k. */
  predicate InPlane(base: nat, w: Awt, k: Plane, j: int) {
    Pos(base, k) <= j < Pos(base, k) + Size(w)
  }

  /** Byte j is one of the bytes a multi-plane write stores to some plane
      whose bit in `off` is clear. */
  predicate Touched(base: nat, w: Awt, off: bv16, j: int) {
    (!Off(off, 0) && InPlane(base, w, 0, j)) || (!Off(off, 1) && InPlane(base, w, 1, j))
    || (!Off(off, 2) && InPlane(base, w, 2, j)) || (!Off(off, 3) && InPlane(base, w, 3, j))
  }

  /** Byte h of plane k's AWT after the write: `(cur & keep) | put[k]`. */
  function PlaneByte(mem: seq<bv8>, keep: Word, put: Quad, k: Plane, j: nat, h: Half): bv8
    requires j < |mem|
  {
    MergeByte(mem[j], ByteAt(keep, h), ByteAt(At(put, k), h))
  }

  /** Byte j after a multi-plane write. */
  function StoredByte(mem: seq<bv8>, base: nat, w: Awt, off: bv16, keep: Word, put: Quad, j: nat): bv8
    requires j < |mem|
  {
    if !Off(off, 0) && InPlane(base, w, 0, j) then PlaneByte(mem, keep, put, 0, j, j - Pos(base, 0))
    else if !Off(off, 1) && InPlane(base, w, 1, j) then PlaneByte(mem, keep, put, 1, j, j - Pos(base, 1))
    else if !Off(off, 2) && InPlane(base, w, 2, j) then PlaneByte(mem, keep, put, 2, j, j - Pos(base, 2))
    else if !Off(off, 3) && InPlane(base, w, 3, j) then PlaneByte(mem, keep, put, 3, j, j - Pos(base, 3))
    else mem[j]
  }

  /** The planes' AWTs lie 0x8000 bytes apart, so a byte of plane k's AWT
      lies in no other plane's. */
  lemma PlanesApart(base: nat, w: Awt, k: Plane, q: Plane, h: Half)
    requires h < Size(w) && q != k
    ensures !InPlane(base, w, q, Pos(base, k) + h)
  {
  }

  /** Byte h of enabled plane k is merged. */
  lemma StoredInPlane(mem: seq<bv8>, base: nat, w: Awt, off: bv16, keep: Word, put: Quad, k: Plane, h: Half)
    requires Pos(base, k) + h < |mem| && h < Size(w) && !Off(off, k)
    ensures StoredByte(mem, base, w, off, keep, put, Pos(base, k) + h) == PlaneByte(mem, keep, put, k, Pos(base, k) + h, h)
  {
    if k == 0 {
    } else if k == 1 {
      PlanesApart(base, w, 1, 0, h);
    } else if k == 2 {
      PlanesApart(base, w, 2, 0, h);
      PlanesApart(base, w, 2, 1, h);
    } else {
      PlanesApart(base, w, 3, 0, h);
      PlanesApart(base, w, 3, 1, h);
      PlanesApart(base, w, 3, 2, h);
    }
  }

  /** The four planes written in turn, blue to extended, each skipped when
      its bit in `off` is set: plane k's AWT at `Pos(base, k)` becomes
      `(cur & keep) | put[k]`. The planes' AWTs do not overlap, so the
      result is given byte by byte. */
  function WritePlanes(mem: seq<bv8>, base: nat, w: Awt, off: bv16, keep: Word, put: Quad): (r: seq<bv8>)
    requires base + 4 * Stride + Size(w) <= |mem|
    ensures |r| == |mem|
  {
    seq(|mem|, j requires 0 <= j < |mem| => StoredByte(mem, base, w, off, keep, put, j))
  }

  /** Every enabled plane's bytes are merged from their own previous
      value. */
  lemma WritePlanesMerged(mem: seq<bv8>, base: nat, w: Awt, off: bv16, keep: Word, put: Quad, k: Plane, h: Half)
    requires base + 4 * Stride + Size(w) <= |mem| && h < Size(w) && !Off(off, k)
    ensures WritePlanes(mem, base, w, off, keep, put)[Pos(base, k) + h]
              == MergeByte(mem[Pos(base, k) + h], ByteAt(keep, h), ByteAt(At(put, k), h))
  {
    var j := Pos(base, k) + h;
    assert WritePlanes(mem, base, w, off, keep, put)[j] == StoredByte(mem, base, w, off, keep, put, j);
    StoredInPlane(mem, base, w, off, keep, put, k, h);
  }

  /** A byte no enabled plane's AWT covers keeps its value. */
  lemma WritePlanesUntouched(mem: seq<bv8>, base: nat, w: Awt, off: bv16, keep: Word, put: Quad, j: nat)
    requires base + 4 * Stride + Size(w) <= |mem| && j < |mem| && !Touched(base, w, off, j)
    ensures WritePlanes(mem, base, w, off, keep, put)[j] == mem[j]
  {
  }

  lemma ByteAtNot(x: Word, h: Half)
    ensures ByteAt(WNot(x), h) == !ByteAt(x, h)
  {
    if h == 0 {
    } else {
    }
  }

  lemma ByteAtAnd(x: Word, y: Word, h: Half)
    ensures ByteAt(WAnd(x, y), h) == ByteAt(x, h) & ByteAt(y, h)
  {
    if h == 0 {
    } else {
    }
  }

  /** A masked merge keeps the old bits outside the mask and takes the new
      ones inside it. */
  lemma MergeMasked(cur: bv8, a: bv8, v: bv8)
    ensures MergeByte(cur, !a, v & a) & !a == cur & !a
    ensures MergeByte(cur, !a, v & a) & a == v & a
  {
  }

  /** An empty mask keeps every bit. */
  lemma MergeZero(cur: bv8, v: bv8)
    ensures MergeByte(cur, !0, v & 0) == cur
  {
  }

  /** A disabled plane's bytes keep their values. */
  lemma WritePlanesOff(mem: seq<bv8>, base: nat, w: Awt, off: bv16, keep: Word, put: Quad, k: Plane, h: Half)
    requires base + 4 * Stride + Size(w) <= |mem| && h < Size(w) && Off(off, k)
    ensures WritePlanes(mem, base, w, off, keep, put)[Pos(base, k) + h] == mem[Pos(base, k) + h]
  {
    assert !Touched(base, w, off, Pos(base, k) + h);
    WritePlanesUntouched(mem, base, w, off, keep, put, Pos(base, k) + h);
  }

  /** A write of `data` under the mask `acc` to every enabled plane leaves
      the disabled planes alone and merges, in the enabled ones, the data
      into the bits of the mask (which MergeMasked shows are the only bits
      that change). */
  lemma MaskedWrite(mem: seq<bv8>, base: nat, w: Awt, off: bv16, acc: Word, data: Quad, k: Plane, h: Half)
    requires base + 4 * Stride + Size(w) <= |mem| && h < Size(w)
    ensures var r := WritePlanes(mem, base, w, off, WNot(acc), AndQuad(data, acc));
      var j := Pos(base, k) + h;
      var a := ByteAt(acc, h);
      (Off(off, k) ==> r[j] == mem[j])
      && (!Off(off, k) ==> r[j] == MergeByte(mem[j], !a, ByteAt(At(data, k), h) & a))
  {
    if Off(off, k) {
      WritePlanesOff(mem, base, w, off, WNot(acc), AndQuad(data, acc), k, h);
    } else {
      WritePlanesMerged(mem, base, w, off, WNot(acc), AndQuad(data, acc), k, h);
      ByteAtNot(acc, h);
      assert At(AndQuad(data, acc), k) == WAnd(At(data, k), acc);
      ByteAtAnd(At(data, k), acc, h);
    }
  }

  /** Every plane of `q`, viewed at the offset's parity, holds that plane's
      AWT at `vramoff`. */
  predicate HoldsPlanes(q: Quad, mem: seq<bv8>, vramoff: nat, w: Awt)
    requires vramoff < 0x28000 && |mem| >= Span && (w == U16 ==> vramoff % 2 == 0)
  {
    forall k: Plane :: View(At(q, k), vramoff % 2, w) == ReadAt(mem, Pos(vramoff, k), w)
  }

  /** Every plane's AWT at `vramoff` loaded from memory into `q`. */
  function Latched(q: Quad, mem: seq<bv8>, vramoff: nat, w: Awt): (r: Quad)
    requires vramoff < 0x28000 && |mem| >= Span && (w == U16 ==> vramoff % 2 == 0)
    ensures HoldsPlanes(r, mem, vramoff, w)
    ensures w == U8 ==> Bytes(r, 1 - vramoff % 2) == Bytes(q, 1 - vramoff % 2)
  {
    var odd := vramoff % 2;
    var p := PlanesAt(mem, vramoff - odd);
    var r := LoadQuad(q, p, odd, w);
    assert forall k: Plane :: View(At(r, k), odd, w) == ReadAt(mem, Pos(vramoff, k), w) by {
      forall k: Plane
        ensures View(At(r, k), odd, w) == ReadAt(mem, Pos(vramoff, k), w)
      {
        assert View(At(r, k), odd, w) == View(At(p, k), odd, w);
        assert At(p, k) == ReadAt(mem, Pos(vramoff - odd, k), U16);
      }
    }
    r
  }
}

=== FILE: planar.dfy ===
/** The planar and chained page handlers of the VGA/EGA/SVGA adapters: how a
    CPU address in the mapped window becomes an offset into video memory, and
    what a byte, word or dword access reads or stores there.

    Video memory keeps the four bitplanes interleaved: byte `4*i + k` is byte i
    of plane k, so "dword i" holds one byte of every plane. Addresses handed to
    the handlers are already physical (paging is not modelled). */
module Planar {
  import opened Bits
  import opened Vram
  import opened Raster

  /** The register state the handlers read besides `vga.config`. */
  datatype Regs = Regs(
    cfg: Config,
    mapMask: Nibble,        // sequencer map mask (vga.seq.map_mask)
    memoryMode: bv8,        // sequencer memory mode (vga.seq.memory_mode)
    miscellaneous: bv8,     // graphics controller miscellaneous (vga.gfx.miscellaneous)
    pagesMask: nat,         // vgapages.mask, set by the handler selection
    bankReadFull: Addr,     // vga.svga.bank_read_full
    bankWriteFull: Addr)    // vga.svga.bank_write_full

  /** The adapter state the handlers change: video memory and the latch. */
  datatype Vga = Vga(mem: Mem, latch: Latch)

  /** Miscellaneous bit 1: chain odd/even, A0 is replaced by a high-order bit. */
  predicate ChainOddEven(r: Regs) {
    r.miscellaneous & 2 != 0
  }

  /** Memory mode bit 2: odd/even addressing disabled. */
  predicate OddEvenOff(r: Regs) {
    r.memoryMode & 4 != 0
  }

  /** The window mask is one of the `2^k - 1` masks the handler selection sets
      (0x1FFFF, 0xFFFF, 0x7FFF). */
  predicate Good(s: Vga, r: Regs) {
    Valid(s.mem) && IsLowMask(r.pagesMask)
  }

  /** The map-mask expansions kept by the sequencer write handler (outside this
      model): a full lane for every enabled plane, and its complement. */
  predicate MapMaskDerived(r: Regs) {
    r.cfg.fullMapMask == Fill(r.mapMask) && r.cfg.fullNotMapMask == NotLanes(Fill(r.mapMask))
  }

  datatype Width = Byte | Word | Dword

  function Size(w: Width): nat {
    match w
    case Byte => 1
    case Word => 2
    case Dword => 4
  }

  /** Little-endian assembly of up to four bytes into a host value. */
  function Assemble(bs: seq<bv8>): (v: bv32)
    requires |bs| <= 4
    ensures forall i :: 0 <= i < |bs| ==> ByteOf(v, i) == bs[i]
  {
    var l := Latch(if |bs| > 0 then bs[0] else 0, if |bs| > 1 then bs[1] else 0,
                   if |bs| > 2 then bs[2] else 0, if |bs| > 3 then bs[3] else 0);
    UnpackPack(l);
    Pack(l)
  }

  /** The bytes a `w`-wide write of host value `val` stores, lowest first. */
  function Bytes(val: bv32, w: Width): (bs: seq<bv8>)
    ensures |bs| == Size(w) && forall i :: 0 <= i < |bs| ==> bs[i] == ByteOf(val, i)
  {
    match w
    case Byte => [ByteOf(val, 0)]
    case Word => [ByteOf(val, 0), ByteOf(val, 1)]
    case Dword => [ByteOf(val, 0), ByteOf(val, 1), ByteOf(val, 2), ByteOf(val, 3)]
  }

  /** The value of a `w`-wide access carrying host value `val`: its low
      Size(w) bytes. */
  function Truncate(val: bv32, w: Width): bv32 {
    match w
    case Byte => val & 0xFF
    case Word => val & 0xFFFF
    case Dword => val
  }

  lemma TruncateByte(val: bv32)
    ensures Unpack(val & 0xFF) == Latch(Unpack(val).b0, 0, 0, 0)
  {
  }

  lemma TruncateWord(val: bv32)
    ensures Unpack(val & 0xFFFF) == Latch(Unpack(val).b0, Unpack(val).b1, 0, 0)
  {
  }

  /** Assembling the low bytes of a host value gives back the value cut to
      the access width. */
  lemma AssembleBytes(bs: seq<bv8>, val: bv32, w: Width)
    requires |bs| == Size(w) && forall i :: 0 <= i < |bs| ==> bs[i] == ByteOf(val, i)
    ensures Assemble(bs) == Truncate(val, w)
  {
    var t := Truncate(val, w);
    var u := Unpack(val);
    var l := Latch(if |bs| > 0 then bs[0] else 0, if |bs| > 1 then bs[1] else 0,
                   if |bs| > 2 then bs[2] else 0, if |bs| > 3 then bs[3] else 0);
    assert bs[0] == ByteOf(val, 0);
    match w {
      case Byte =>
        TruncateByte(val);
      case Word =>
        assert bs[1] == ByteOf(val, 1);
        TruncateWord(val);
      case Dword =>
        assert bs[1] == ByteOf(val, 1) && bs[2] == ByteOf(val, 2) && bs[3] == ByteOf(val, 3);
    }
    assert l == Unpack(t);
    PackUnpack(t);
  }

  // ---------------------------------------------------------------------------
  // Address translation

  /** `(addr & vgapages.mask) + bank`, in 32-bit arithmetic. */
  function Window(r: Regs, addr: Addr, bank: Addr): (a: Addr)
    requires IsLowMask(r.pagesMask)
    ensures AndLow(addr, r.pagesMask) + bank < U32 ==> a == AndLow(addr, r.pagesMask) + bank
  {
    Add32(AndLow(addr, r.pagesMask), bank)
  }

  /** The LIN4 handler's `bank + (addr & 0xffff)`, in 32-bit arithmetic. */
  function Lin4Window(addr: Addr, bank: Addr): (a: Addr)
    ensures bank + AndLow(addr, 0xFFFF) < U32 ==> a == bank + AndLow(addr, 0xFFFF)
  {
    assert IsPow2(0x10000);
    Add32(bank, AndLow(addr, 0xFFFF))
  }

  // ---------------------------------------------------------------------------
  // Unchained (planar) read: read modes 0 and 1

  /** The plane read mode 0 returns: the read map select register, with its
      low bit replaced by A0 when odd/even addressing is on and chained. */
  function ReadPlane(r: Regs, start: nat): (p: Plane)
    ensures !ChainOddEven(r) || OddEvenOff(r) ==> p == r.cfg.readMapSelect
    ensures ChainOddEven(r) && !OddEvenOff(r) ==>
      p % 2 == start % 2 && p / 2 == r.cfg.readMapSelect / 2
  {
    var sel := r.cfg.readMapSelect;
    if !OddEvenOff(r) && ChainOddEven(r) then (sel - sel % 2) + start % 2 else sel
  }

  /** The dword an unchained access at planar offset `start` uses. */
  function MemStart(r: Regs, start: nat): (i: nat)
    ensures i <= start
    ensures ChainOddEven(r) ==> i % 2 == 0 && start - i < 2
    ensures !ChainOddEven(r) ==> i == start
  {
    if ChainOddEven(r) then AlignDown(start, 2) else start
  }

  /** VGA_UnchainedRead_Handler::readHandler: loads the latch from the dword
      and returns the selected plane (read mode 0) or the colour compare (read
      mode 1); other read modes return 0 after loading the latch. */
  function UnchainedRead(s: Vga, r: Regs, start: nat): (res: (Vga, bv8))
    requires DwordIn(s.mem, start)
    ensures res.0 == Vga(s.mem, GetDword(s.mem, MemStart(r, start)))
    ensures r.cfg.readMode == 0 ==> res.1 == s.mem.bytes[4 * MemStart(r, start) + ReadPlane(r, start)]
    ensures r.cfg.readMode == 1 ==> res.1 == ColorCompare(r.cfg, res.0.latch)
    ensures r.cfg.readMode >= 2 ==> res.1 == 0
  {
    var latch := GetDword(s.mem, MemStart(r, start));
    var v := if r.cfg.readMode == 0 then Lane(latch, ReadPlane(r, start))
             else if r.cfg.readMode == 1 then ColorCompare(r.cfg, latch)
             else 0;
    (Vga(s.mem, latch), v)
  }

  // ---------------------------------------------------------------------------
  // Unchained write under the map mask

  /** One lane of `(pixels & full_not_map_mask) | (data & full_map_mask)`. */
  function MergeByte(prev: bv8, data: bv8, notMask: bv8, mask: bv8): bv8 {
    (prev & notMask) | (data & mask)
  }

  function MergeLanes(prev: Latch, data: Latch, notMask: Latch, mask: Latch): (m: Latch)
    ensures forall k: Plane ::
      Lane(m, k) == MergeByte(Lane(prev, k), Lane(data, k), Lane(notMask, k), Lane(mask, k))
  {
    Latch(MergeByte(Lane(prev, 0), Lane(data, 0), Lane(notMask, 0), Lane(mask, 0)),
          MergeByte(Lane(prev, 1), Lane(data, 1), Lane(notMask, 1), Lane(mask, 1)),
          MergeByte(Lane(prev, 2), Lane(data, 2), Lane(notMask, 2), Lane(mask, 2)),
          MergeByte(Lane(prev, 3), Lane(data, 3), Lane(notMask, 3), Lane(mask, 3)))
  }

  lemma MergeByteEnabled(prev: bv8, data: bv8, on: bool)
    ensures MergeByte(prev, data, NotByte(FullByte(on)), FullByte(on)) == if on then data else prev
  {
  }

  /** VGA_UnchainedEGA_Handler::writeHandler: the write-mode result replaces
      the planes of dword `start` selected by the map mask. */
  function UnchainedEgaWrite(s: Vga, r: Regs, start: nat, val: bv8): (t: Vga)
    requires DwordIn(s.mem, start)
    ensures t.latch == s.latch && t.mem.wrap == s.mem.wrap && |t.mem.bytes| == |s.mem.bytes|
    ensures GetDword(t.mem, start)
         == MergeLanes(GetDword(s.mem, start), ModeOperation(r.cfg, s.latch, val),
                       r.cfg.fullNotMapMask, r.cfg.fullMapMask)
    ensures forall j :: 0 <= j < |s.mem.bytes| && !(4 * start <= j < 4 * start + 4) ==>
      t.mem.bytes[j] == s.mem.bytes[j]
  {
    var data := ModeOperation(r.cfg, s.latch, val);
    var pixels := GetDword(s.mem, start);
    var merged := MergeLanes(pixels, data, r.cfg.fullNotMapMask, r.cfg.fullMapMask);
    GetPutDword(s.mem, start, merged);
    Vga(PutDword(s.mem, start, merged), s.latch)
  }

  /** With the map-mask expansions derived from the map mask, an unchained
      write stores the write-mode result in exactly the enabled planes of its
      dword: disabled planes keep their bytes. */
  lemma UnchainedEgaWritePlanes(s: Vga, r: Regs, start: nat, val: bv8, k: Plane)
    requires DwordIn(s.mem, start) && MapMaskDerived(r)
    ensures UnchainedEgaWrite(s, r, start, val).mem.bytes[4 * start + k]
         == if NibbleBit(r.mapMask, k) then Lane(ModeOperation(r.cfg, s.latch, val), k)
            else s.mem.bytes[4 * start + k]
  {
    var t := UnchainedEgaWrite(s, r, start, val);
    var data := ModeOperation(r.cfg, s.latch, val);
    assert t.mem.bytes[4 * start + k] == Lane(GetDword(t.mem, start), k);
    MergeByteEnabled(s.mem.bytes[4 * start + k], Lane(data, k), NibbleBit(r.mapMask, k));
  }

  // ---------------------------------------------------------------------------
  // Odd/even plane selection (unchained VGA in odd/even mode, text mode)

  /** Whether a write at an address of parity `odd` stores plane k: planes 1
      and 3 take odd addresses and planes 0 and 2 even ones (every plane when
      `all`), and only planes the map mask enables. */
  predicate OddEvenStores(mapMask: Nibble, odd: bool, all: bool, k: Plane) {
    NibbleBit(mapMask, k) && (all || (k % 2 == 1) == odd)
  }

  /** The sequence of conditional lane stores of the odd/even write paths. */
  function OddEvenMerge(pixels: Latch, data: Latch, mapMask: Nibble, odd: bool, all: bool): (p: Latch)
    ensures forall k: Plane ::
      Lane(p, k) == if OddEvenStores(mapMask, odd, all, k) then Lane(data, k) else Lane(pixels, k)
  {
    var p1 := if (all || odd) && NibbleBit(mapMask, 1) then SetLane(pixels, 1, data.b1) else pixels;
    var p3 := if (all || odd) && NibbleBit(mapMask, 3) then SetLane(p1, 3, data.b3) else p1;
    var p0 := if (all || !odd) && NibbleBit(mapMask, 0) then SetLane(p3, 0, data.b0) else p3;
    var p2 := if (all || !odd) && NibbleBit(mapMask, 2) then SetLane(p0, 2, data.b2) else p0;
    assert Lane(p2, 0) == if OddEvenStores(mapMask, odd, all, 0) then Lane(data, 0) else Lane(pixels, 0);
    assert Lane(p2, 1) == if OddEvenStores(mapMask, odd, all, 1) then Lane(data, 1) else Lane(pixels, 1);
    assert Lane(p2, 2) == if OddEvenStores(mapMask, odd, all, 2) then Lane(data, 2) else Lane(pixels, 2);
    assert Lane(p2, 3) == if OddEvenStores(mapMask, odd, all, 3) then Lane(data, 3) else Lane(pixels, 3);
    p2
  }

  /** VGA_UnchainedVGA_Handler::writeHandler: with odd/even addressing on, odd
      addresses store planes 1 and 3 and even ones planes 0 and 2 (each if the
      map mask enables it); otherwise the map-mask merge of the EGA handler. */
  function UnchainedVgaWrite(s: Vga, r: Regs, addr: nat, val: bv8): (t: Vga)
    requires DwordIn(s.mem, addr)
    ensures t.latch == s.latch && t.mem.wrap == s.mem.wrap && |t.mem.bytes| == |s.mem.bytes|
    ensures forall j :: 0 <= j < |s.mem.bytes| && !(4 * MemStart(r, addr) <= j < 4 * MemStart(r, addr) + 4) ==>
      t.mem.bytes[j] == s.mem.bytes[j]
  {
    var memaddr := MemStart(r, addr);
    var data := ModeOperation(r.cfg, s.latch, val);
    var pixels := GetDword(s.mem, memaddr);
    var stored := if !OddEvenOff(r) then OddEvenMerge(pixels, data, r.mapMask, addr % 2 == 1, false)
                  else MergeLanes(pixels, data, r.cfg.fullNotMapMask, r.cfg.fullMapMask);
    Vga(PutDword(s.mem, memaddr, stored), s.latch)
  }

  /** In odd/even mode an unchained VGA write stores plane k of the
      write-mode result exactly when the address parity and the map mask
      select it; every other plane of the dword keeps its byte. */
  lemma UnchainedVgaOddEven(s: Vga, r: Regs, addr: nat, val: bv8, k: Plane)
    requires DwordIn(s.mem, addr) && !OddEvenOff(r)
    ensures UnchainedVgaWrite(s, r, addr, val).mem.bytes[4 * MemStart(r, addr) + k]
         == if OddEvenStores(r.mapMask, addr % 2 == 1, false, k)
            then Lane(ModeOperation(r.cfg, s.latch, val), k)
            else s.mem.bytes[4 * MemStart(r, addr) + k]
  {
  }

  /** With odd/even addressing off, the unchained VGA write is the EGA
      map-mask merge into the dword MemStart picks: `addr` itself, or
      `addr & ~1` under chain odd/even. */
  lemma UnchainedVgaIsEga(s: Vga, r: Regs, addr: nat, val: bv8)
    requires DwordIn(s.mem, addr) && OddEvenOff(r)
    ensures DwordIn(s.mem, MemStart(r, addr))
    ensures UnchainedVgaWrite(s, r, addr, val) == UnchainedEgaWrite(s, r, MemStart(r, addr), val)
  {
  }

  // ---------------------------------------------------------------------------
  // Text-mode handler (byte accesses)

  /** The plane a text-mode read returns: the read map select register with
      its low bit replaced by A0 unless odd/even addressing is off. */
  function TextReadPlane(r: Regs, a: nat): (p: Plane)
    ensures OddEvenOff(r) ==> p == r.cfg.readMapSelect
    ensures !OddEvenOff(r) ==> p % 2 == a % 2 && p / 2 == r.cfg.readMapSelect / 2
  {
    var sel := r.cfg.readMapSelect;
    if !OddEvenOff(r) then (sel - sel % 2) + a % 2 else sel
  }

  /** The planar offset a text-mode access uses: the window offset, with A0
      cleared when chain odd/even is on. */
  function TextMemAddr(r: Regs, addr: Addr): (i: nat)
    requires IsLowMask(r.pagesMask)
    ensures i <= r.pagesMask
  {
    MemStart(r, AndLow(addr, r.pagesMask))
  }

  /** VGA_TEXT_PageHandler::readb: the byte of the selected plane, at
      `CHECKED3(bank_read_full + (addr << 2) + plane)`. Since the wrap size
      divides 2^32, reducing the sum modulo the wrap size gives the same
      offset as the source's 32-bit arithmetic. */
  function TextRead(s: Vga, r: Regs, addr: Addr): (b: bv8)
    requires Good(s, r)
  {
    var a := AndLow(addr, r.pagesMask);
    s.mem.bytes[Checked(s.mem, r.bankReadFull + 4 * TextMemAddr(r, addr) + TextReadPlane(r, a))]
  }

  /** Stores `val` into the planes of dword `memaddr` that the odd/even rules
      and the map mask select. */
  function TextStore(s: Vga, r: Regs, memaddr: nat, odd: bool, val: bv8): (t: Vga)
    requires DwordIn(s.mem, memaddr)
    ensures t.latch == s.latch && t.mem.wrap == s.mem.wrap && |t.mem.bytes| == |s.mem.bytes|
    ensures forall k: Plane ::
      t.mem.bytes[4 * memaddr + k]
      == (if OddEvenStores(r.mapMask, odd, OddEvenOff(r), k) then val else s.mem.bytes[4 * memaddr + k])
    ensures forall j :: 0 <= j < |s.mem.bytes| && !(4 * memaddr <= j < 4 * memaddr + 4) ==>
      t.mem.bytes[j] == s.mem.bytes[j]
  {
    var pixels := GetDword(s.mem, memaddr);
    Vga(PutDword(s.mem, memaddr, OddEvenMerge(pixels, Expand(val), r.mapMask, odd, OddEvenOff(r))), s.latch)
  }

  /** VGA_TEXT_PageHandler::writeb as written: the dword index is the window
      offset itself, with neither the bank nor the wrap mask applied, so it
      can lie beyond the buffer (None). */
  function TextWriteAsWritten(s: Vga, r: Regs, addr: Addr, val: bv8): (t: Option<Vga>)
    requires Good(s, r)
    ensures t.None? <==> !DwordIn(s.mem, TextMemAddr(r, addr))
    ensures t.Some? ==> t.value == TextStore(s, r, TextMemAddr(r, addr), AndLow(addr, r.pagesMask) % 2 == 1, val)
  {
    var memaddr := TextMemAddr(r, addr);
    if DwordIn(s.mem, memaddr) then
      Some(TextStore(s, r, memaddr, AndLow(addr, r.pagesMask) % 2 == 1, val))
    else
      None
  }

  /** A text-mode byte write at 0xB1000 with the 128 KB window (mask 0x1FFFF)
      on an adapter with 256 KB of video memory indexes dword 0x11000, whose
      bytes start at 0x44000, 16 KB past the end of the buffer. */
  lemma TextWriteOverrun(s: Vga, r: Regs, val: bv8)
    requires Good(s, r) && s.mem.wrap == 0x40000 && r.pagesMask == 0x1FFFF && !ChainOddEven(r)
    ensures TextWriteAsWritten(s, r, 0xB1000, val) == None
  {
    assert AndLow(0xB1000, 0x1FFFF) == 0x11000;
  }

  /** Text-mode byte write with the planar offset wrapped like every other
      planar handler (CHECKED2). */
  function TextWrite(s: Vga, r: Regs, addr: Addr, val: bv8): (t: Vga)
    requires Good(s, r)
    ensures Good(t, r) && t.latch == s.latch
    ensures DwordIn(s.mem, TextMemAddr(r, addr)) && TextMemAddr(r, addr) < s.mem.wrap / 4 ==>
      TextWriteAsWritten(s, r, addr, val) == Some(t)
  {
    TextStore(s, r, Checked2(s.mem, TextMemAddr(r, addr)), AndLow(addr, r.pagesMask) % 2 == 1, val)
  }

  /** With bank 0, a text-mode read returns plane TextReadPlane of the
      wrapped dword the write uses. */
  lemma TextReadAt(s: Vga, r: Regs, addr: Addr)
    requires Good(s, r) && r.bankReadFull == 0
    ensures TextRead(s, r, addr)
      == s.mem.bytes[4 * Checked2(s.mem, TextMemAddr(r, addr)) + TextReadPlane(r, AndLow(addr, r.pagesMask))]
  {
    var x, p := TextMemAddr(r, addr), TextReadPlane(r, AndLow(addr, r.pagesMask));
    CheckedPlanar(s.mem, x, p);
    assert r.bankReadFull + 4 * x + p == 4 * x + p;
  }

  /** Reading back a text-mode byte write (bank 0) returns the byte written
      when the map mask enables the plane the read selects, and the byte that
      was there before otherwise. */
  lemma TextWriteRead(s: Vga, r: Regs, addr: Addr, val: bv8)
    requires Good(s, r) && r.bankReadFull == 0
    ensures var a := AndLow(addr, r.pagesMask);
      TextRead(TextWrite(s, r, addr, val), r, addr)
      == if NibbleBit(r.mapMask, TextReadPlane(r, a)) then val else TextRead(s, r, addr)
  {
    var a := AndLow(addr, r.pagesMask);
    var p := TextReadPlane(r, a);
    var c := Checked2(s.mem, TextMemAddr(r, addr));
    var t := TextWrite(s, r, addr, val);
    TextReadAt(s, r, addr);
    TextReadAt(t, r, addr);
    assert Checked2(t.mem, TextMemAddr(r, addr)) == c;
    assert t == TextStore(s, r, c, a % 2 == 1, val);
    TextStoreAt(s, r, c, a % 2 == 1, val, p);
    assert OddEvenStores(r.mapMask, a % 2 == 1, OddEvenOff(r), p) == NibbleBit(r.mapMask, p);
    var before, after := s.mem.bytes[4 * c + p], t.mem.bytes[4 * c + p];
    assert TextRead(s, r, addr) == before;
    assert TextRead(t, r, addr) == after;
    assert after == if NibbleBit(r.mapMask, p) then val else before;
  }

  /** Plane `k` of the stored dword after a text store. */
  lemma TextStoreAt(s: Vga, r: Regs, memaddr: nat, odd: bool, val: bv8, k: Plane)
    requires DwordIn(s.mem, memaddr)
    ensures 4 * memaddr + k < |s.mem.bytes|
    ensures TextStore(s, r, memaddr, odd, val).mem.bytes[4 * memaddr + k]
      == if OddEvenStores(r.mapMask, odd, OddEvenOff(r), k) then val else s.mem.bytes[4 * memaddr + k]
  {
  }
}

=== FILE: raster.dfy ===
/** The VGA graphics controller's data path: the raster operation, the four
    write modes that combine a host byte with the 32-bit latch, and the colour
    compare of read mode 1.

    The source computes on 32-bit values, but every operator involved is
    bitwise, so each function below is written once per byte (`...Byte`) and
    applied lane by lane; lane k is bitplane k. */
module Raster {
  import opened Bits

  /** The derived register state the data path reads (`vga.config`). The
      `full*` fields are the 32-bit expansions the register write handlers
      keep, held as four lanes. */
  datatype Config = Config(
    writeMode: bv8,
    readMode: bv8,
    rasterOp: bv8,
    dataRotate: RotateCount,
    fullBitMask: Latch,
    fullSetReset: Latch,
    fullNotEnableSetReset: Latch,
    fullEnableAndSetReset: Latch,
    fullMapMask: Latch,
    fullNotMapMask: Latch,
    readMapSelect: Plane,
    colorCompare: Nibble,
    colorDontCare: Nibble)

  /** How the graphics-controller write handlers (outside this model) derive
      the expanded fields from the raw set/reset, enable set/reset and bit mask
      registers. Lemmas that speak in terms of the raw registers assume it. */
  predicate DerivedFrom(c: Config, setReset: Nibble, enableSetReset: Nibble, bitMask: bv8) {
    c.fullSetReset == Fill(setReset)
    && c.fullNotEnableSetReset == NotLanes(Fill(enableSetReset))
    && c.fullEnableAndSetReset == AndLanes(Fill(setReset), Fill(enableSetReset))
    && c.fullBitMask == Expand(bitMask)
  }

  function NotByte(a: bv8): bv8 { !a }
  function AndByte(a: bv8, b: bv8): bv8 { a & b }

  function NotLanes(x: Latch): (r: Latch)
    ensures forall k: Plane :: Lane(r, k) == NotByte(Lane(x, k))
  {
    Latch(NotByte(x.b0), NotByte(x.b1), NotByte(x.b2), NotByte(x.b3))
  }

  function AndLanes(x: Latch, y: Latch): (r: Latch)
    ensures forall k: Plane :: Lane(r, k) == AndByte(Lane(x, k), Lane(y, k))
  {
    Latch(AndByte(x.b0, y.b0), AndByte(x.b1, y.b1), AndByte(x.b2, y.b2), AndByte(x.b3, y.b3))
  }

  // ---------------------------------------------------------------------------
  // Reference definitions: the logical function unit and the bit-mask selector
  // as the VGA graphics controller is documented.

  /** The logical operation selected by the function-select field: replace,
      AND, OR or XOR with the latch. */
  function Logic(op: bv8, data: bv8, latch: bv8): bv8
    requires op < 4
  {
    if op == 0 then data else if op == 1 then data & latch
    else if op == 2 then data | latch else data ^ latch
  }

  /** Bits set in `mask` come from `data`, the others from `latch`. */
  function Select(mask: bv8, data: bv8, latch: bv8): bv8 {
    (data & mask) | (latch & !mask)
  }

  // ---------------------------------------------------------------------------
  // RasterOp

  /** One lane of RasterOp. */
  function RopByte(op: bv8, input: bv8, mask: bv8, latch: bv8): (r: bv8)
    ensures op >= 4 ==> r == 0
  {
    if op == 0 then (input & mask) | (latch & !mask)
    else if op == 1 then (input | !mask) & latch
    else if op == 2 then (input & mask) | latch
    else if op == 3 then (input & mask) ^ latch
    else 0
  }

  lemma RopByteSelect0(input: bv8, mask: bv8, latch: bv8)
    ensures RopByte(0, input, mask, latch) == Select(mask, Logic(0, input, latch), latch)
  {
  }

  lemma RopByteSelect1(input: bv8, mask: bv8, latch: bv8)
    ensures RopByte(1, input, mask, latch) == Select(mask, Logic(1, input, latch), latch)
  {
  }

  lemma RopByteSelect2(input: bv8, mask: bv8, latch: bv8)
    ensures RopByte(2, input, mask, latch) == Select(mask, Logic(2, input, latch), latch)
  {
  }

  lemma RopByteSelect3(input: bv8, mask: bv8, latch: bv8)
    ensures RopByte(3, input, mask, latch) == Select(mask, Logic(3, input, latch), latch)
  {
  }

  /** Each of the four selectors is its logical operation followed by the
      bit-mask selection against the latch. */
  lemma RopByteSelect(op: bv8, input: bv8, mask: bv8, latch: bv8)
    requires op < 4
    ensures RopByte(op, input, mask, latch) == Select(mask, Logic(op, input, latch), latch)
  {
    if op == 0 {
      RopByteSelect0(input, mask, latch);
    } else if op == 1 {
      RopByteSelect1(input, mask, latch);
    } else if op == 2 {
      RopByteSelect2(input, mask, latch);
    } else {
      RopByteSelect3(input, mask, latch);
    }
  }

  /** `RasterOp(input, mask)` against the current latch. */
  function RasterOp(c: Config, latch: Latch, input: Latch, mask: Latch): (r: Latch)
    ensures forall k: Plane ::
      Lane(r, k) == RopByte(c.rasterOp, Lane(input, k), Lane(mask, k), Lane(latch, k))
  {
    var op := c.rasterOp;
    Latch(RopByte(op, input.b0, mask.b0, latch.b0), RopByte(op, input.b1, mask.b1, latch.b1),
          RopByte(op, input.b2, mask.b2, latch.b2), RopByte(op, input.b3, mask.b3, latch.b3))
  }

  /** For the four defined selectors, every plane is the logical operation of
      input and latch, selected by the mask against the latch; any other
      selector yields 0. */
  lemma RasterOpReference(c: Config, latch: Latch, input: Latch, mask: Latch, k: Plane)
    ensures c.rasterOp < 4 ==>
      Lane(RasterOp(c, latch, input, mask), k)
      == Select(Lane(mask, k), Logic(c.rasterOp, Lane(input, k), Lane(latch, k)), Lane(latch, k))
    ensures c.rasterOp >= 4 ==> RasterOp(c, latch, input, mask) == Zero
  {
    if c.rasterOp < 4 {
      RopByteSelect(c.rasterOp, Lane(input, k), Lane(mask, k), Lane(latch, k));
    } else {
      LaneExt(RasterOp(c, latch, input, mask), Zero);
    }
  }

  lemma SelectAll(data: bv8, latch: bv8)
    ensures Select(0xFF, data, latch) == data && Select(0, data, latch) == latch
  {
  }

  /** With selector 0 an all-ones mask passes the input through and an
      all-zero mask returns the latch. */
  lemma RasterOpReplaceMasks(c: Config, latch: Latch, input: Latch)
    requires c.rasterOp == 0
    ensures RasterOp(c, latch, input, AllOnes) == input
    ensures RasterOp(c, latch, input, Zero) == latch
  {
    forall k: Plane
      ensures Lane(RasterOp(c, latch, input, AllOnes), k) == Lane(input, k)
      ensures Lane(RasterOp(c, latch, input, Zero), k) == Lane(latch, k)
    {
      RopByteSelect0(Lane(input, k), 0xFF, Lane(latch, k));
      RopByteSelect0(Lane(input, k), 0, Lane(latch, k));
      SelectAll(Lane(input, k), Lane(latch, k));
    }
    LaneExt(RasterOp(c, latch, input, AllOnes), input);
    LaneExt(RasterOp(c, latch, input, Zero), latch);
  }

  // ---------------------------------------------------------------------------
  // Data rotate

  /** The rotate-right of write modes 0 and 3, truncated to a byte. */
  function Rotate(v: bv8, n: RotateCount): bv8 {
    (v >> n) | (v << (8 - n))
  }

  function RotateLeft(v: bv8, n: RotateCount): bv8 {
    (v << n) | (v >> (8 - n))
  }

  /** The rotation loses no bits: rotating back left restores the byte, and a
      count of 0 is the identity. */
  lemma RotateInverse(v: bv8, n: RotateCount)
    ensures RotateLeft(Rotate(v, n), n) == v
    ensures Rotate(v, 0) == v
  {
  }

  // ---------------------------------------------------------------------------
  // ModeOperation

  /** One lane of `(ExpandTable[val] & full_not_enable_set_reset) |
      full_enable_and_set_reset`. */
  function SetResetByte(v: bv8, notEnable: bv8, enableAndSet: bv8): bv8 {
    (v & notEnable) | enableAndSet
  }

  function SetResetLanes(c: Config, v: bv8): (r: Latch)
    ensures forall k: Plane ::
      Lane(r, k) == SetResetByte(v, Lane(c.fullNotEnableSetReset, k), Lane(c.fullEnableAndSetReset, k))
  {
    var n := c.fullNotEnableSetReset;
    var e := c.fullEnableAndSetReset;
    Latch(SetResetByte(v, Lane(n, 0), Lane(e, 0)), SetResetByte(v, Lane(n, 1), Lane(e, 1)),
          SetResetByte(v, Lane(n, 2), Lane(e, 2)), SetResetByte(v, Lane(n, 3), Lane(e, 3)))
  }

  /** The latch-sized value a host byte write produces, before the map mask. */
  function ModeOperation(c: Config, latch: Latch, val: bv8): (r: Latch)
    ensures c.writeMode == 1 ==> r == latch
    ensures c.writeMode >= 4 ==> r == Zero
  {
    if c.writeMode == 0 then
      RasterOp(c, latch, SetResetLanes(c, Rotate(val, c.dataRotate)), c.fullBitMask)
    else if c.writeMode == 1 then
      latch
    else if c.writeMode == 2 then
      RasterOp(c, latch, Fill((val & 0xF) as Nibble), c.fullBitMask)
    else if c.writeMode == 3 then
      RasterOp(c, latch, c.fullSetReset, AndLanes(Expand(Rotate(val, c.dataRotate)), c.fullBitMask))
    else
      Zero
  }

  /** The register state the BIOS leaves for plain pixel writes: write mode 0,
      no rotation, selector 0 (replace), set/reset disabled and an all-ones
      bit mask. */
  predicate PlainWrites(c: Config) {
    c.writeMode == 0 && c.rasterOp == 0 && c.dataRotate == 0 && c.fullBitMask == AllOnes
    && c.fullNotEnableSetReset == AllOnes && c.fullEnableAndSetReset == Zero
  }

  /** Under plain writes the write-mode result is the host byte in every
      plane, whatever the latch holds. */
  lemma PlainModeOperation(c: Config, latch: Latch, val: bv8)
    requires PlainWrites(c)
    ensures ModeOperation(c, latch, val) == Expand(val)
  {
    RotateInverse(val, 0);
    var src := SetResetLanes(c, val);
    forall k: Plane
      ensures Lane(src, k) == Lane(Expand(val), k)
    {
      assert SetResetByte(val, 0xFF, 0) == val;
    }
    LaneExt(src, Expand(val));
    RasterOpReplaceMasks(c, latch, src);
  }

  lemma SetResetChoice(v: bv8, enable: bool, on: bool)
    ensures SetResetByte(v, NotByte(FullByte(enable)), AndByte(FullByte(on), FullByte(enable)))
         == (if enable then FullByte(on) else v)
  {
  }

  /** Write mode 0 in the documented terms: each plane takes the set/reset
      colour when its enable set/reset bit is on and the rotated host byte
      otherwise; that value goes through the logical operation with the latch
      and the bit mask selects, bit by bit, between the result and the latch. */
  lemma WriteMode0Plane(c: Config, latch: Latch, val: bv8, setReset: Nibble, enableSetReset: Nibble,
                        bitMask: bv8, k: Plane)
    requires DerivedFrom(c, setReset, enableSetReset, bitMask)
    requires c.writeMode == 0 && c.rasterOp < 4
    ensures var src := if NibbleBit(enableSetReset, k) then FullByte(NibbleBit(setReset, k))
                       else Rotate(val, c.dataRotate);
      Lane(ModeOperation(c, latch, val), k)
      == Select(bitMask, Logic(c.rasterOp, src, Lane(latch, k)), Lane(latch, k))
  {
    var rv := Rotate(val, c.dataRotate);
    SetResetChoice(rv, NibbleBit(enableSetReset, k), NibbleBit(setReset, k));
    var src := Lane(SetResetLanes(c, rv), k);
    RopByteSelect(c.rasterOp, src, bitMask, Lane(latch, k));
  }

  /** Write mode 2: bit k of the host byte, spread over the whole plane, goes
      through the logical operation and the bit mask; bits 4-7 of the host byte
      play no part. */
  lemma WriteMode2Plane(c: Config, latch: Latch, val: bv8, bitMask: bv8, k: Plane)
    requires c.fullBitMask == Expand(bitMask)
    requires c.writeMode == 2 && c.rasterOp < 4
    ensures Lane(ModeOperation(c, latch, val), k)
         == Select(bitMask, Logic(c.rasterOp, FullByte(NibbleBit((val & 0xF) as Nibble, k)), Lane(latch, k)),
                   Lane(latch, k))
  {
    RopByteSelect(c.rasterOp, FullByte(NibbleBit((val & 0xF) as Nibble, k)), bitMask, Lane(latch, k));
  }

  /** Write mode 2 depends only on the low nibble of the host byte. */
  lemma WriteMode2LowNibble(c: Config, latch: Latch, v: bv8, w: bv8)
    requires c.writeMode == 2
    requires v & 0xF == w & 0xF
    ensures ModeOperation(c, latch, v) == ModeOperation(c, latch, w)
  {
    var lv := ModeOperation(c, latch, v);
    var lw := ModeOperation(c, latch, w);
    assert (v & 0xF) as Nibble == (w & 0xF) as Nibble;
    assert Fill((v & 0xF) as Nibble) == Fill((w & 0xF) as Nibble);
  }

  lemma AndFull(a: bv8, b: bv8)
    ensures AndByte(a, b) == a & b
  {
  }

  /** Write mode 3: the rotated host byte, ANDed with the bit mask, becomes the
      mask that selects between the set/reset colour (through the logical
      operation) and the latch. */
  lemma WriteMode3Plane(c: Config, latch: Latch, val: bv8, setReset: Nibble, enableSetReset: Nibble,
                        bitMask: bv8, k: Plane)
    requires DerivedFrom(c, setReset, enableSetReset, bitMask)
    requires c.writeMode == 3 && c.rasterOp < 4
    ensures Lane(ModeOperation(c, latch, val), k)
         == Select(Rotate(val, c.dataRotate) & bitMask,
                   Logic(c.rasterOp, FullByte(NibbleBit(setReset, k)), Lane(latch, k)), Lane(latch, k))
  {
    var m := Rotate(val, c.dataRotate);
    AndFull(m, bitMask);
    RopByteSelect(c.rasterOp, FullByte(NibbleBit(setReset, k)), m & bitMask, Lane(latch, k));
  }

  // ---------------------------------------------------------------------------
  // Read mode 1: colour compare

  /** One lane of `(latch & FillTable[dont_care]) ^ FillTable[compare & dont_care]`. */
  function CompareByte(latch: bv8, care: bv8, want: bv8): bv8 {
    (latch & care) ^ want
  }

  function NorByte(a: bv8, b: bv8, c: bv8, d: bv8): bv8 {
    !(a | b | c | d)
  }

  /** The byte read mode 1 returns for a loaded latch. */
  function ColorCompare(c: Config, latch: Latch): bv8 {
    var care := Fill(c.colorDontCare);
    var want := Fill(c.colorCompare & c.colorDontCare);
    NorByte(CompareByte(Lane(latch, 0), Lane(care, 0), Lane(want, 0)),
            CompareByte(Lane(latch, 1), Lane(care, 1), Lane(want, 1)),
            CompareByte(Lane(latch, 2), Lane(care, 2), Lane(want, 2)),
            CompareByte(Lane(latch, 3), Lane(care, 3), Lane(want, 3)))
  }

  /** Reference: the pixels of one plane that agree with that plane's compare
      bit (all pixels when the plane is "don't care"). */
  function PlaneMatch(lane: bv8, care: bool, want: bool): bv8 {
    if !care then 0xFF else if want then lane else !lane
  }

  lemma CompareByteMatch(lane: bv8, care: bool, want: bool)
    ensures !CompareByte(lane, FullByte(care), FullByte(want && care)) == PlaneMatch(lane, care, want)
  {
  }

  lemma NorSplit(a: bv8, b: bv8, c: bv8, d: bv8, m0: bv8, m1: bv8, m2: bv8, m3: bv8)
    requires !a == m0 && !b == m1 && !c == m2 && !d == m3
    ensures NorByte(a, b, c, d) == m0 & m1 & m2 & m3
  {
  }

  lemma NibbleAndBit(x: Nibble, y: Nibble, k: Plane)
    ensures NibbleBit(x & y, k) == (NibbleBit(x, k) && NibbleBit(y, k))
  {
  }

  /** The colour-compare match of plane k. */
  function Match(c: Config, latch: Latch, k: Plane): bv8 {
    PlaneMatch(Lane(latch, k), NibbleBit(c.colorDontCare, k), NibbleBit(c.colorCompare, k))
  }

  lemma CompareLane(c: Config, latch: Latch, k: Plane, a: bv8)
    requires a == CompareByte(Lane(latch, k), Lane(Fill(c.colorDontCare), k),
                              Lane(Fill(c.colorCompare & c.colorDontCare), k))
    ensures !a == Match(c, latch, k)
  {
    NibbleAndBit(c.colorCompare, c.colorDontCare, k);
    CompareByteMatch(Lane(latch, k), NibbleBit(c.colorDontCare, k), NibbleBit(c.colorCompare, k));
  }

  /** A result bit is set exactly when, in every plane the colour don't-care
      register includes, the pixel's bit equals that plane's colour compare bit. */
  lemma ColorCompareReference(c: Config, latch: Latch)
    ensures ColorCompare(c, latch) == Match(c, latch, 0) & Match(c, latch, 1) & Match(c, latch, 2) & Match(c, latch, 3)
  {
    var care := Fill(c.colorDontCare);
    var want := Fill(c.colorCompare & c.colorDontCare);
    var a0 := CompareByte(Lane(latch, 0), Lane(care, 0), Lane(want, 0));
    var a1 := CompareByte(Lane(latch, 1), Lane(care, 1), Lane(want, 1));
    var a2 := CompareByte(Lane(latch, 2), Lane(care, 2), Lane(want, 2));
    var a3 := CompareByte(Lane(latch, 3), Lane(care, 3), Lane(want, 3));
    assert ColorCompare(c, latch) == NorByte(a0, a1, a2, a3);
    CompareLane(c, latch, 0, a0);
    CompareLane(c, latch, 1, a1);
    CompareLane(c, latch, 2, a2);
    CompareLane(c, latch, 3, a3);
    NorSplit(a0, a1, a2, a3, Match(c, latch, 0), Match(c, latch, 1), Match(c, latch, 2), Match(c, latch, 3));
  }

}

=== FILE: vram.dfy ===
/** The adapter's video memory: the byte buffer `vga.mem.linear` and the wrap
    size `vga.vmemwrap`, with the byte, word and dword views the handlers take of
    it (little-endian host). */
module Vram {
  import opened Bits

  /** Bytes the allocation keeps beyond `vmemsize`: it allocates vmemsize + 32
      bytes and rounds the start up to a 16-byte boundary, so at least 17 spare
      bytes follow; 16 of them are modelled. */
  const Slack: nat := 16

  datatype Mem = Mem(bytes: seq<bv8>, wrap: nat)

  /** The buffer invariant: the wrap size equals vmemsize, a 32-bit power of
      two, and the buffer holds vmemsize bytes plus the slack. */
  predicate Valid(m: Mem) {
    IsPow2(m.wrap) && 4 <= m.wrap <= U32 && |m.bytes| == m.wrap + Slack
  }

  lemma Pow2Quarter(w: nat)
    requires IsPow2(w) && w >= 4
    ensures IsPow2(w / 4) && w / 4 >= 1 && 4 * (w / 4) == w
  {
  }

  /** CHECKED / CHECKED3: a linear offset wrapped by `vmemwrap - 1`. */
  function Checked(m: Mem, v: nat): (r: nat)
    requires Valid(m)
    ensures r < m.wrap && (v < m.wrap ==> r == v)
  {
    AndLow(v, m.wrap - 1)
  }

  /** CHECKED2 / CHECKED4: a planar (dword) offset wrapped by `(vmemwrap >> 2) - 1`. */
  function Checked2(m: Mem, v: nat): (r: nat)
    requires Valid(m)
    ensures r < m.wrap / 4 && (v < m.wrap / 4 ==> r == v)
    ensures 4 * r + 4 <= m.wrap
  {
    Pow2Quarter(m.wrap);
    AndLow(v, m.wrap / 4 - 1)
  }

  /** A byte offset built from a planar offset wraps like the planar offset:
      `CHECKED3(4*x + p) == 4*CHECKED2(x) + p` for a plane p. */
  lemma CheckedPlanar(m: Mem, x: nat, p: Plane)
    requires Valid(m)
    ensures Checked(m, 4 * x + p) == 4 * Checked2(m, x) + p
  {
    Pow2Quarter(m.wrap);
    var q := m.wrap / 4;
    var c := Checked2(m, x);
    var d := x / q;
    ModBasics(x, q);
    assert x == d * q + c;
    assert d * m.wrap == 4 * (d * q) by {
      assert m.wrap == 4 * q;
    }
    DivModUnique(4 * x + p, m.wrap, d, 4 * c + p);
  }

  // ---------------------------------------------------------------------------
  // Byte view

  function Get(m: Mem, i: nat): bv8
    requires i < |m.bytes|
  {
    m.bytes[i]
  }

  function Put(m: Mem, i: nat, b: bv8): (r: Mem)
    requires i < |m.bytes|
    ensures r.wrap == m.wrap && |r.bytes| == |m.bytes|
    ensures Get(r, i) == b
    ensures forall j :: 0 <= j < |m.bytes| && j != i ==> r.bytes[j] == m.bytes[j]
  {
    m.(bytes := m.bytes[i := b])
  }

  // ---------------------------------------------------------------------------
  // Word view (`*(uint16_t*)(linear + i)`)

  function GetWord(m: Mem, i: nat): bv16
    requires i + 2 <= |m.bytes|
  {
    MkWord(m.bytes[i], m.bytes[i + 1])
  }

  function PutWord(m: Mem, i: nat, w: bv16): (r: Mem)
    requires i + 2 <= |m.bytes|
    ensures r.wrap == m.wrap && |r.bytes| == |m.bytes|
    ensures r.bytes[i] == Lo(w) && r.bytes[i + 1] == Hi(w)
    ensures GetWord(r, i) == w
    ensures forall j :: 0 <= j < |m.bytes| && j != i && j != i + 1 ==> r.bytes[j] == m.bytes[j]
  {
    HalvesWord(w);
    m.(bytes := m.bytes[i := Lo(w)][i + 1 := Hi(w)])
  }

  // ---------------------------------------------------------------------------
  // Dword view by dword index (`((Bit32u*)linear)[idx]`)

  predicate DwordIn(m: Mem, idx: nat) {
    4 * idx + 4 <= |m.bytes|
  }

  function GetDword(m: Mem, idx: nat): (d: Latch)
    requires DwordIn(m, idx)
    ensures forall k: Plane :: Lane(d, k) == m.bytes[4 * idx + k]
  {
    var b := m.bytes;
    Latch(b[4 * idx], b[4 * idx + 1], b[4 * idx + 2], b[4 * idx + 3])
  }

  function PutDword(m: Mem, idx: nat, d: Latch): (r: Mem)
    requires DwordIn(m, idx)
    ensures r.wrap == m.wrap && |r.bytes| == |m.bytes|
    ensures forall k: Plane :: r.bytes[4 * idx + k] == Lane(d, k)
    ensures forall j :: 0 <= j < |m.bytes| && !(4 * idx <= j < 4 * idx + 4) ==> r.bytes[j] == m.bytes[j]
  {
    var i := 4 * idx;
    m.(bytes := m.bytes[i := Lane(d, 0)][i + 1 := Lane(d, 1)][i + 2 := Lane(d, 2)][i + 3 := Lane(d, 3)])
  }

  /** Writing back the dword just read changes nothing. */
  lemma PutGetDword(m: Mem, idx: nat)
    requires DwordIn(m, idx)
    ensures PutDword(m, idx, GetDword(m, idx)) == m
  {
    var r := PutDword(m, idx, GetDword(m, idx));
    assert forall j :: 0 <= j < |m.bytes| ==> r.bytes[j] == m.bytes[j] by {
      forall j | 0 <= j < |m.bytes|
        ensures r.bytes[j] == m.bytes[j]
      {
        if 4 * idx <= j < 4 * idx + 4 {
          var k: Plane := j - 4 * idx;
          assert r.bytes[4 * idx + k] == Lane(GetDword(m, idx), k);
        }
      }
    }
    assert r.bytes == m.bytes;
  }

  /** Reading a dword back returns what was written. */
  lemma GetPutDword(m: Mem, idx: nat, d: Latch)
    requires DwordIn(m, idx)
    ensures GetDword(PutDword(m, idx, d), idx) == d
  {
    var r := PutDword(m, idx, d);
    forall k: Plane
      ensures Lane(GetDword(r, idx), k) == Lane(d, k)
    {
    }
    LaneExt(GetDword(r, idx), d);
  }
}
